=== FILE: README.md ===
# Duunda back end and portal: access control, upload checks and route ladders in Dafny

This project models the core of the Duunda music service (a Node/Express REST
back end with a small artist portal) and proves properties of it. The model
covers these parts:

- **Access control.** This is the required-token middleware `authenticateToken`.
  It takes the second space-separated field of the `Authorization` header, answers
  401 without a token and 403 when verification fails.
- **Optional-token middleware.** `optionalAuth` never answers.
- **Portal role gates.** `requireAdmin` and `requireArtistOrAdmin` are modelled,
  as are the owner-or-admin rule for an artist's songs and the uploader-only rule
  for changing a song.
- **Tokens.** The server signs tokens with only `userId` and `username`.
- **Upload checks.** These are the song upload `fileFilter` and the avatar
  `fileFilter`, the avatar file name, the 5 MB limit, and the error handler that
  turns upload errors into 400 answers.
- **Set-valued state.** Likes and dislikes, follows and playlist memberships are
  sets or duplicate-free rows. The model proves that the routes keep them
  exclusive, idempotent and duplicate-free.
- **Validation ladders.** Each route checks its input in a fixed order and
  answers with fixed statuses and messages. The model covers engagement,
  comments, plays, profile, password, playlists, artists, the passkey artist
  API, the portal, and register, login and verify.
- **Portal pages.** These are pure helpers: `filterSongs`, the artist labels and
  names, the `/dashboard/artist/<n>` path patterns, the bulk title fallback,
  `getUploadArtistMeta` caching, the login page's role decision, and the sign-up
  page's checks.

Collaborators the code cannot see are parameters:

- **`jwt.verify`** is a `Verifier`, which turns (token, secret) into optional
  claims.
- **`bcrypt.compare`** is a `PasswordCheck`, and **`bcrypt.hash`** is a `Hasher`
  or a given hash value.
- **Request details** (the `BASE_URL` setting and the forwarded protocol and
  host headers) are plain arguments.

Database tables are immutable values:

- `SongTable`, `ArtistTable` and `UserTable` are rows with a SERIAL counter.
- Engagement uses sets of (user, song) pairs plus sequences of plays and comments.
- A playlist `Library` holds the playlists and the membership rows.

Each route is a function from the tables and the request to an `Answer` (a
success status and body, or a terminal `Reply`), paired with the tables
afterwards where the route writes.

JavaScript semantics are written out explicitly:

- truthiness (an empty string is falsy, and a user id of 0 is falsy);
- `||` against `??`;
- `parseInt(s, 10)`: leading whitespace, a sign, the longest digit prefix, and NaN;
- `trim` over the ECMAScript whitespace set;
- `toLowerCase`;
- `split(" ")[1]`;
- `String.replace` with a non-global pattern, which replaces the first match;
- `length` in UTF-16 code units;
- `Math.ceil(total / limit)`;
- Node's `path.extname` and `path.basename`.

The portal gates read a `role` claim, but the tokens issued at registration and
login (routes/auth.js:59-63, routes/auth.js:110-114) carry only `userId` and
`username`. So every token the server issues names a listener: both portal
gates refuse it (`AuthRoutes.IssuedTokensAreListeners`). The portal login page only continues
for the roles "artist" and "administrator", and the login route's answer has no
`role` field. So the page never lets a server login through
(`LoginPage.ServerLoginNeverEntersPortal`).

## Model

| member | source | states |
|---|---|---|
| Access.ConfigDefaults | routes/auth.js:61-62 | an unset or empty JWT_SECRET falls back to "fallback_secret" and an unset or empty JWT_EXPIRES_IN to "7d"; set values are used as they are |
| Access.BearerToken | routes/music.js:24 | a token is present iff the header exists and holds a space; the token never contains a space |
| Access.BearerSkipsScheme | routes/music.js:24 | the word before the first space is never inspected: the token is the first field of the rest |
| Access.BearerTokenField | routes/music.js:24 | "X abc" and "X abc def" both carry the token "abc" for any scheme word X |
| Access.EmptySecondFieldIsNoToken | routes/music.js:24-28 | "Bearer " and "Bearer  abc" (an empty second field) count as no token |
| Access.Authenticate | routes/music.js:23-41 | 401 "Access token required" iff no token; 403 "Invalid token" iff the verifier rejects the token under the configured secret; otherwise the request continues with exactly the verified claims |
| Access.MissingTokenSkipsVerifier | routes/music.js:26-28 | without a token the verifier is never consulted: any two verifiers give the same 401 |
| Access.OptionalAuth | routes/engagement.js:11-18 | never answers; attaches claims only when a present token verifies, and always when it does |
| Access.OptionalAgreesWithRequired | routes/engagement.js:11-18 | the optional middleware attaches exactly the claims the required one would pass on, and nothing exactly when the required one would refuse |
| Access.RequireAdmin | routes/portal.js:9-14 | passes iff the role is exactly "administrator"; otherwise 403 "Admin access required" |
| Access.EffectiveRole | routes/portal.js:17 | the role when it is present and non-empty, "listener" otherwise; never empty |
| Access.RequireArtistOrAdmin | routes/portal.js:16-22 | passes iff the effective role is "artist" or "administrator"; otherwise 403 "Artist or admin access required" |
| Access.AdminGateIsStricter | routes/portal.js:9-22 | whoever the admin gate admits, the artist-or-admin gate admits too |
| Access.NoRoleIsListener | routes/portal.js:16-22 | no identity, or a missing or empty role, is a listener and both gates refuse it |
| Access.OwnerOrAdmin | routes/portal.js:78-86 | the owner-or-admin rule: the role is exactly "administrator", or the artist's linked user is the caller |
| Access.IsUploader | routes/music.js:410-414 | the uploader-only rule: the song's uploader is the caller, whatever the role |
| Catalog.InsertSong | routes/music.js:366-379 | the new song takes a fresh SERIAL id and nothing else in the table changes |
| Catalog.ArtistById | routes/artist.js:70-72 | the row found has the id asked for; none is found iff no row has it |
| Catalog.ArtistByName | routes/artists.js:28-31 | the row found has the name asked for; none is found iff no row has it |
| Catalog.ArtistByUser | routes/portal.js:105-108 | the row found is linked to the user; none is found iff no row is |
| Catalog.InsertArtist | routes/artist.js:24-27 | the new row goes last with a fresh id; ids stay unique |
| Catalog.DeleteArtist | routes/artist.js:151 | exactly the rows with other ids remain |
| Catalog.ArtistByIdAfterUpdate | routes/artist.js:106-115 | an update that keeps ids leaves the id lookup on the same row, now edited by the update |
| Catalog.ArtistByIdAppend | routes/artist.js:24-27 | a row appended under an id no earlier row has is the row the id lookup then finds |
| Accounts.UserById | routes/users.js:89-92 | the row found has the id asked for; none is found iff no row has it |
| Accounts.UserByEmail | routes/auth.js:91-94 | the row found has the email asked for; none is found iff no row has it |
| Accounts.InsertUser | routes/auth.js:53-56 | the new user has the given name, email and hash, no role and no picture, and an id no earlier row has |
| Accounts.UserByIdAfterUpdate | routes/users.js:124-145 | an update that keeps ids leaves the lookup on the same row, now edited |
| Music.FileFilterCalls | routes/music.js:51-97 | a rejected audio or cover file gets a second callback because the rejection does not return |
| Music.FileFilter | routes/music.js:51-97 | audio is accepted iff its type is one of six audio types or its name ends in an audio extension, ignoring case; cover likewise with image types; any other field is rejected with "Invalid file field" |
| Music.RejectionFallsThrough | routes/music.js:69-96 | only rejected audio and cover files reach the final "Invalid file field" callback |
| Music.UpperCaseExtensionAccepted | routes/music.js:66-75 | "SONG.MP3" is accepted as audio whatever its declared type |
| Music.ActiveFiltersExact | routes/music.js:119-135 | a filter is active exactly when its query value is truthy and then carries that value; active filters keep the order genre, artist, search |
| Music.BuildSongQuery | routes/music.js:100-138 | the n-th active filter uses placeholder $n, LIMIT and OFFSET take the next two, and the bound values line up with the placeholders |
| Music.UpdateSong | routes/music.js:396-431 | 404 for an unknown song, 403 unless the caller uploaded it, 500 "Server error" when title or artist is missing (both columns are NOT NULL, music.js:358-359), otherwise the five fields are written as sent and nothing else changes |
| Music.DeleteSong | routes/music.js:435-458 | the same 404 and 403 checks, then only that song is gone |
| Music.GetSong | routes/music.js:218-242 | 200 with the song and its uploader's username exactly when the song, its uploader id and that user exist, otherwise 404 "Song not found" |
| Music.UpdatedSongIsRead | routes/music.js:396-431 | after a successful update the single-song GET answers the five written fields, the unchanged uploader and the uploader's username |
| Music.DeletedSongIsGone | routes/music.js:435-458 | after a successful delete the single-song GET answers 404 for that id and the same as before for every other id |
| Music.NoAdministratorBypass | routes/music.js:410-414 | an administrator cannot change a song someone else uploaded |
| Music.UploadSong | routes/music.js:279-392 | audio, then cover, then title and artist are required, and success is exactly when all four are present; the new song gets a fresh id and stores the title, the artist, the caller as uploader, and album, genre and duration as sent or null when falsy |
| Music.UploaderOwnsUpload | routes/music.js:366-376 | the uploader of a fresh song may delete it and may update it exactly when the update carries a title and an artist; any other caller gets 403 |
| Engagement.PostLike | routes/engagement.js:94-128 | 400 for a non-numeric id, 404 for an unknown song, otherwise 201 and the pair moves into likes and out of dislikes, with both counts of the new state |
| Engagement.PostDislike | routes/engagement.js:29-63 | the mirror image of liking |
| Engagement.DeleteLike | routes/engagement.js:130-154 | 400 for a non-numeric id, otherwise 200 echoing the song and user ids, the pair is no longer liked, likeCount is the new like count and dislikeCount the unchanged dislike count; no song lookup |
| Engagement.DeleteDislike | routes/engagement.js:65-89 | 400 for a non-numeric id, otherwise 200 echoing the song and user ids, the pair is no longer disliked, dislikeCount is the new dislike count and likeCount the unchanged like count; no song lookup |
| Engagement.PairCountRemove | routes/engagement.js:138-141 | removing a pair lowers its song's count by one exactly when the pair was present |
| Engagement.UnreactCounted | routes/engagement.js:65-154 | the count answered by an unlike or undislike is the previous count, less one when the caller had reacted |
| Engagement.ReactionsKeepExclusive | routes/engagement.js:43-47 | no route leaves a pair both liked and disliked |
| Engagement.ReactionsIdempotent | routes/engagement.js:43-112 | liking twice leaves the state of liking once, and so does disliking twice (ON CONFLICT DO NOTHING) |
| Engagement.UnlikeNeedsNoSong | routes/engagement.js:130-139 | removing a like or a dislike succeeds even for a song that does not exist |
| Engagement.PlayCountAppend | routes/engagement.js:172-178 | a recorded play adds one to its song's play count and nothing to others |
| Engagement.PlayerOf | routes/engagement.js:170 | a play records a user exactly when there is an identity, and then the caller's id, with `??` so that id 0 is kept |
| Engagement.RecordPlay | routes/engagement.js:158-188 | 400 for a non-numeric id, 404 for an unknown song, and 201 exactly otherwise; the answer echoes the song id, and the song's play count goes up by one while every other song's stays |
| Engagement.EngagementStatus | routes/engagement.js:192-239 | 400, 404, and 200 exactly otherwise, echoing the song id and the caller's id (absent without a token), with the four counts of the song and liked/disliked flags that are true only for an identity with a truthy id that holds the pair |
| Engagement.StatusFlags | routes/engagement.js:211-224 | without an identity both flags are false; in an exclusive store they are never both true |
| Engagement.CountRoute | routes/engagement.js:243-317 | each count route (with the comment count at routes/engagement.js:441-463) answers 400, 404, or exactly otherwise 200 with the number of the song's plays, likes, dislikes or comments |
| Engagement.LikeStatus | routes/engagement.js:321-347 | 400, 404, and 200 exactly otherwise; the flag is true iff the caller likes the song |
| Engagement.CommentsOf | routes/engagement.js:363-370 | the listed comments are exactly the song's comments whose author still exists, so never more than the count and as many when all authors exist |
| Engagement.ListComments | routes/engagement.js:351-391 | 400, 404, and 200 exactly otherwise, echoing the song id and listing exactly the song's comments whose author still exists, with the total from the count query |
| Engagement.AddComment | routes/engagement.js:395-438 | 400 for the id, 400 "commentText is required" for a missing, empty or non-string text, 400 "Comment cannot be empty" for whitespace only, 404 for an unknown song, and 201 exactly otherwise; the trimmed text is stored, the song's comment count goes up by one, and the answer echoes the song and user ids and names the author's username, or "user" when the row is missing or its username empty |
| Engagement.CountRouteAgreesWithStatus | routes/engagement.js:192-317 | each count route succeeds exactly when the status route does and reports the same count |
| Engagement.LikeStatusAgreesWithStatus | routes/engagement.js:192-347 | for a caller with a truthy id, /likes/status succeeds exactly when the status route does and its flag is the status route's isLiked |
| Engagement.AppendedCommentListed | routes/engagement.js:351-391 | a comment by an existing author stored for a song is listed for it |
| Engagement.AppendedCommentCounted | routes/engagement.js:441-463 | a comment stored for a song makes the comment count route report one more |
| Engagement.CommentCountAppend | routes/engagement.js:453-456 | appending a comment adds one to its own song's comment count |
| Engagement.AddedCommentIsListed | routes/engagement.js:351-438 | a comment an existing user posts is then listed for the song, and the comment count route reports one more |
| Users.TrimTrailingSlashes | routes/users.js:53 | drops exactly the trailing slashes, as `path.extname` does first |
| Users.BaseName | routes/users.js:221 | the last segment: the longest slash-free suffix once trailing slashes are dropped |
| Users.Extname | routes/users.js:53 | "" or a dot followed by no dot; "" when the base name has no dot |
| Users.ExtnameOfName | routes/users.js:53 | `extname("stem.ext")` is ".ext" |
| Users.ExtnameNoDot | routes/users.js:53 | a name without a dot has no extension |
| Users.BaseNameOfJoin | routes/users.js:221 | the base name of dir + "/" + file is the file |
| Users.AvatarFilter | routes/users.js:61-72 | accepted iff the lowercased type names an image type, the lowercased name ends in an image extension, or the type is generic binary or empty; otherwise "Only image files are allowed" |
| Users.AvatarFilterIgnoresCase | routes/users.js:62-65 | the decision does not depend on letter case |
| Users.UntypedFileAccepted | routes/users.js:62-67 | a file without a type is accepted whatever its name |
| Users.CoverImagesAreAvatars | routes/users.js:61-72 | every file the song upload accepts as a cover is accepted as an avatar |
| Users.ExtOrJpg | routes/users.js:53 | the extension, or ".jpg" without one, starts with a dot and has no slash |
| Users.JpegFix | routes/users.js:53 | replacing the first "jpeg" keeps a leading dot and no slash |
| Users.AvatarExtension | routes/users.js:53 | the stored extension starts with a dot and has no slash |
| Users.AvatarFileName | routes/users.js:52-55 | "user_<id><ext>": one path segment, never empty |
| Users.AvatarFileNameNamesOwner | routes/users.js:54 | parseInt of the name after "user_" gives back the owner's id |
| Users.AvatarFileNamesDistinct | routes/users.js:54 | different users never share an avatar file name |
| Users.AvatarExtensionOfName | routes/users.js:53 | for "stem.ext" the stored extension is the lowercased ".ext" with its first "jpeg" replaced |
| Users.JpegBecomesDotDotJpg | routes/users.js:53 | "photo.jpeg" and "photo.JPEG" are stored with the extension "..jpg" |
| Users.ImageExtensionKept | routes/users.js:53 | png, gif and webp names keep their extension, lowercased |
| Users.NoExtensionIsJpg | routes/users.js:53 | a name without a dot is stored as ".jpg" |
| Users.GetBaseUrl | routes/users.js:76-82 | a set BASE_URL is used with one trailing slash removed; otherwise x-forwarded-proto, else the request protocol, else "http", then "://" and the host, or "" without a host |
| Users.TrailingSlashOptional | routes/users.js:76-78 | BASE_URL with or without one trailing slash gives the same origin whatever the request says; a second slash is kept |
| Users.DefaultProtocol | routes/users.js:79 | without a forwarded or request protocol the URL uses "http" |
| Users.PictureUrl | routes/users.js:103-105 | a stored picture path is reported prefixed with the base URL; no stored path gives null |
| Users.GetProfile | routes/users.js:85-114 | 404 iff the caller's row is gone, 200 otherwise, with that row's selected columns (never the password hash) and the picture made absolute |
| Users.UpdateProfile | routes/users.js:117-165 | 400 unless both names are truthy, 404 for a missing row, and 200 exactly otherwise; only the caller's row changes, with trimmed names, null for empty optional fields and the old picture kept when none is sent |
| Users.UpdatedProfileIsReported | routes/users.js:85-165 | the profile an update answers is the one the profile route then reports |
| Users.BlankNameStoredEmpty | routes/users.js:122-137 | a name of spaces passes the check and is stored as the empty string |
| Users.ChangePassword | routes/users.js:168-207 | 400 when a password is missing, 400 when the new one is under 6 UTF-16 units, 404, 401 for a wrong current password; success iff all pass, and then only the caller's hash changes |
| Users.ChangedPasswordIsChecked | routes/users.js:181-202 | after a successful change the row holds the new hash, and a later change succeeds exactly when the offered password matches that hash, otherwise 401 |
| Users.PasswordInputChecksNeedNoLookup | routes/users.js:173-179 | the input checks answer before any lookup or comparison |
| Users.MissingBeforeShort | routes/users.js:173-179 | a missing current password is reported before a short new one |
| Users.UploadErrorReply | routes/users.js:248-259 | multer's size error is 400 "Image must be 5MB or less", other multer errors 400 with their message or "Upload error", filter errors 400 "Only image files are allowed", anything else goes on |
| Users.FilterRejectionHandled | routes/users.js:248-259 | the avatar filter's own rejection is answered by the error handler as 400 |
| Users.AvatarPath | routes/users.js:221 | the recorded path is "/uploads/avatars/" followed by the stored file name |
| Users.UploadAvatar | routes/users.js:210-245 | 400 without a file, 400 for a file the filter refuses, 400 for more than 5 MB, and 200 exactly otherwise; only the caller's picture changes and the full URL is answered |
| Users.RecordedPictureIsReported | routes/users.js:99-105 | after a picture path is recorded, the profile reports it under the base URL |
| Users.UploadedAvatarIsReported | routes/users.js:221-233 | the URL an avatar upload answers is the one the profile then reports |
| Playlists.Without | routes/playlists.js:274-277 | the membership rows without the pair, order kept |
| Playlists.WithoutNoDup | routes/playlists.js:274-277 | removal keeps the rows duplicate-free and removes exactly one row when the pair was present |
| Playlists.AppendFreshNoDup | routes/playlists.js:232-246 | appending an absent pair keeps the rows duplicate-free |
| Playlists.CreatePlaylist | routes/playlists.js:120-145 | 400 "Playlist name is required" iff the name is falsy, 201 otherwise; a new playlist owned by the caller with a fresh id and a null default description |
| Playlists.UpdatePlaylist | routes/playlists.js:150-179 | 404 iff the caller does not own the playlist, 200 otherwise; name and description are set as sent and no other playlist changes |
| Playlists.DeletePlaylist | routes/playlists.js:182-204 | 404 iff the caller does not own the playlist, 200 otherwise; only that playlist is gone |
| Playlists.OthersPlaylistsUntouched | routes/playlists.js:157-191 | whatever a caller does to a playlist id, playlists of other users are unchanged |
| Playlists.AddSong | routes/playlists.js:207-255 | 404 for a playlist the caller does not own, 404 for an unknown song, 400 for a song already there, otherwise the pair is appended |
| Playlists.RemoveSong | routes/playlists.js:258-290 | 404 for a playlist the caller does not own, 404 "Song not found in playlist" when the pair is absent, otherwise exactly that pair is removed |
| Playlists.MembershipStaysDuplicateFree | routes/playlists.js:232-281 | adding and removing songs never records a pair twice |
| Playlists.AddThenRemove | routes/playlists.js:207-290 | adding a song and removing it again restores the membership rows |
| Playlists.WithoutAppend | routes/playlists.js:274-277 | removing a pair that was just appended gives back the earlier rows |
| Playlists.SongsOf | routes/playlists.js:82-95 | exactly the playlist's songs that still exist |
| Playlists.SongsOfAppend | routes/playlists.js:82-95 | a membership row appended for an existing song puts it last in the listing: songs are listed in the order they were added |
| Playlists.SongsOfUnmentioned | routes/playlists.js:82-95 | a playlist no membership row mentions lists no songs |
| Playlists.GetPlaylist | routes/playlists.js:65-117 | 404 iff the caller does not own the playlist, 200 otherwise, with the playlist and its existing songs |
| Playlists.AddedSongIsListed | routes/playlists.js:207-255 | after a successful add, the playlist lists the song last, after the songs it listed before |
| Playlists.CreatedPlaylistIsEmpty | routes/playlists.js:65-145 | a playlist just created is found by its owner with the stored name and description and no songs |
| Artists.FollowerCountAdd | routes/artists.js:115-123 | a new follower adds one to that artist's count |
| Artists.FollowerCountOther | routes/artists.js:119-122 | another artist's follow pair leaves this artist's count alone |
| Artists.GetByName | routes/artists.js:20-68 | 400 for a missing or blank name; 200 exactly for a known name, with that artist's card, follower count and a followed flag for a truthy caller id; an unknown name is inserted and the answer is 500, because of the reassigned constant |
| Artists.UnknownNameSucceedsOnRetry | routes/artists.js:32-35 | the failed first request leaves the artist behind, so the same request then succeeds |
| Artists.AnonymousFollowsNothing | routes/artists.js:45-51 | without an identity, or with user id 0, nothing is reported as followed |
| Artists.GetById | routes/artists.js:72-100 | 400 for a non-numeric id, 404 for an unknown artist, and 200 exactly otherwise, answering only the selected columns (id, name, avatar, bio; never the passkey) and the follower count |
| Artists.Follow | routes/artists.js:103-129 | 400, 404, otherwise 201 and the pair is followed, with the new count |
| Artists.Unfollow | routes/artists.js:132-150 | 400 for a non-numeric id, otherwise 200 and the pair is not followed; no existence check |
| Artists.FollowIdempotent | routes/artists.js:115-139 | following twice is following once, and so is unfollowing |
| Artists.FollowThenUnfollow | routes/artists.js:103-150 | unfollowing a follow that was new restores the follows |
| Artists.FollowIsCounted | routes/artists.js:72-129 | the follower count a follow answers is the one the artist route then reports |
| ArtistPasskey.CreateArtist | routes/artist.js:16-34 | 400 "Name and passkey are required" iff one is falsy, 201 otherwise; a new row with null defaults and a fresh id |
| ArtistPasskey.ListArtists | routes/artist.js:37-64 | 500 iff the limit or offset is negative, 200 otherwise; totalPages is null iff the limit is 0, otherwise the least page count covering all rows; the requested page and limit are echoed |
| ArtistPasskey.PagesCoverRows | routes/artist.js:40-50 | every page up to totalPages holds rows and every later page is empty |
| ArtistPasskey.GetArtist | routes/artist.js:67-83 | 404 iff the id is unknown, 200 otherwise with a row of that id |
| ArtistPasskey.CheckPasskey | routes/artist.js:91-104 | no passkey gives 400, an unknown artist 404, a wrong passkey 403, and the right passkey passes |
| ArtistPasskey.UpdateArtistRoute | routes/artist.js:86-126 | success exactly when the passkey checks pass; then the row is edited field by field with COALESCE, the answer is the edited row, it is what the table holds under that id, and no other row changes |
| ArtistPasskey.IdPicksTheRow | routes/artist.js:106-115 | with unique ids, every row carrying the id is the row the lookup finds |
| ArtistPasskey.UpdatedArtistIsFound | routes/artist.js:67-126 | after an accepted update, the lookup by id answers the edited row the update returned |
| ArtistPasskey.CreatedArtistIsFound | routes/artist.js:16-83 | a created artist is then found by its id exactly as the create answered it |
| ArtistPasskey.EmptyUpdateKeepsRow | routes/artist.js:106-115 | an update that sends no fields changes nothing |
| ArtistPasskey.WrongPasskeyRejected | routes/artist.js:99-101 | a wrong passkey changes nothing and answers 403 "Invalid passkey" |
| ArtistPasskey.DeleteArtistRoute | routes/artist.js:129-158 | after the passkey checks the answer is 204, the rows left are exactly the other rows and the id counter is unchanged |
| ArtistPasskey.DeletedArtistIsGone | routes/artist.js:129-158 | after a delete the artist GET answers 404 for that id and the same as before for every other id |
| Catalog.ArtistByIdAfterDelete | routes/artist.js:151 | deleting the rows with one id leaves every other id's lookup unchanged |
| Portal.GetMe | routes/portal.js:25-33 | the caller's id and username, with the role defaulting to "listener" |
| Portal.MeRoleMatchesGate | routes/portal.js:16-30 | the role /me reports passes the artist-or-admin gate iff the token does |
| Portal.ArtistSearch | routes/portal.js:40-47 | no parameter for an absent or blank search; otherwise the single parameter "%search%" for the trimmed search, used by all four columns through $1 |
| Portal.BlankSearchIsNoSearch | routes/portal.js:40-44 | a search of spaces is the same as no search |
| Portal.UploadedBy | routes/portal.js:82-86 | the songs uploaded by the artist's user; none when the artist has no user |
| Portal.ArtistSongs | routes/portal.js:69-87 | 400 iff the id does not parse, 404 for an unknown artist, 403 iff the caller is neither an administrator nor the artist's user, and otherwise 200 with that user's songs |
| Portal.ArtistSongsRoute | routes/portal.js:68 | the token middleware first, then the artist-or-admin gate, then the handler |
| Portal.SongsVisibleToOwnerOrAdmin | routes/portal.js:78-86 | only an administrator sees songs uploaded by someone else |
| Portal.MyArtist | routes/portal.js:101-124 | the selected columns (id, carrier name, names, bio, user id; never the passkey) of the caller's artist row; on first use exactly one row with the username, or "Artist", as carrier name is appended and returned |
| Portal.MyArtistCreateOnce | routes/portal.js:105-121 | a second call returns the same row and inserts nothing |
| AuthRoutes.Issue | routes/auth.js:110-114 | the token claims hold only the user's id and username, with the configured secret and expiry |
| AuthRoutes.Register | routes/auth.js:20-76 | 400 "All fields are required" iff a field is falsy, 400 "User already exists" when the email or username is taken; otherwise 201, one new row with the bcrypt hash and no role, answered as its id, username and email with a token for it |
| AuthRoutes.Login | routes/auth.js:79-129 | 400 iff email or password is falsy; success iff the email is known and the password matches its hash; every other failure is 401 "Invalid credentials" |
| AuthRoutes.NoAccountEnumeration | routes/auth.js:96-107 | an unknown email and a wrong password give identical answers |
| AuthRoutes.RegisterThenLogin | routes/auth.js:20-129 | logging in right after registering succeeds with the new account and the same token |
| AuthRoutes.VerifyToken | routes/auth.js:132-162 | 401 "No token provided" iff no token; every failure is 401; success reports the id, username and email of the token user's row |
| AuthRoutes.VerifyAgreesWithMiddleware | routes/auth.js:132-162 | /verify accepts exactly the tokens the middleware passes whose user still exists, and answers 401 where the middleware answers 403 |
| AuthRoutes.IssuedTokensAreListeners | routes/auth.js:59-63 | a verified token the server issued is a listener: both gates refuse it, /me says "listener" and an artist's songs answer 403 |
| PortalClient.FullName | public/portal/dashboard.js:80 | the non-empty first and last names joined by one space and trimmed |
| PortalClient.Carrier | public/portal/dashboard.js:82 | carrier name, else name, else "Artist"; never empty |
| PortalClient.MatchAt | public/portal/dashboard.js:136 | a match at a position is the artist prefix, a non-empty digit run and the suffix |
| PortalClient.MatchFrom | public/portal/dashboard.js:136 | the leftmost match position: there is none before it, and none at all when None |
| PortalClient.ArtistIdInPath | public/portal/upload.js:58-60 | an id exactly when the pattern matches somewhere, and then the value of the digits captured by the leftmost match |
| PortalClient.RenderedPathMatches | public/portal/dashboard.js:136-144 | the path of artist n yields n again |
| Dashboard.Select | public/portal/dashboard.js:42-49 | keeps exactly the songs whose title, artist, album or genre contains the query, each as many times as it occurs in the input |
| Dashboard.SelectIsSubsequence | public/portal/dashboard.js:42 | the kept songs are in their original order |
| Dashboard.SelectIdempotent | public/portal/dashboard.js:42-49 | filtering the result again keeps all of it |
| Dashboard.FilterSongs | public/portal/dashboard.js:39-50 | a blank query returns the input; otherwise an order-preserving subsequence holding every song that matches the trimmed, lowercased query as often as the input does, and no other |
| Dashboard.FilterIdempotent | public/portal/dashboard.js:39-50 | filtering twice with the same query equals filtering once |
| Dashboard.FilterIgnoresQueryCase | public/portal/dashboard.js:41 | the query's case and surrounding spaces do not matter |
| Dashboard.BareSongNeverMatches | public/portal/dashboard.js:44-47 | a song without title, artist, album and genre is never kept by a real search |
| Dashboard.LinkLabel | public/portal/dashboard.js:79-85 | the name part, followed by " – email" exactly when there is an email |
| Dashboard.NameOf | public/portal/dashboard.js:80-83 | the full name with the carrier in parentheses, or the carrier alone without a full name |
| Dashboard.RoleLabel | public/portal/dashboard.js:133 | "Admin" iff the role is "administrator", else "Artist" |
| Dashboard.RoleLabelMatchesAdminGate | public/portal/dashboard.js:133 | the dashboard says "Admin" exactly for callers the server's admin gate admits |
| Dashboard.DashboardArtistId | public/portal/dashboard.js:136-144 | an artist id exactly when the path matches `/dashboard/artist/<digits>`, and then the digits of the leftmost match |
| Dashboard.ShowAdminView | public/portal/dashboard.js:136-137 | the admin view shows iff the role is administrator and the path is no artist page |
| Dashboard.ArtistPageShowsArtist | public/portal/dashboard.js:136-145 | an administrator on the page of artist n gets the artist view of n |
| Dashboard.AddSongHref | public/portal/dashboard.js:154 | the artist's upload page when an artist id is set and non-zero, else "/dashboard/upload" |
| UploadPage.ArtistDisplayName | public/portal/upload.js:37-41 | "Artist" without data; the full name, else carrier name, else name, else "Artist"; never empty |
| UploadPage.DisplayNameMatchesListLabel | public/portal/upload.js:37-41 | the upload name starts the dashboard's label, and equals it without a full name or email |
| UploadPage.NoArtistIsArtist | public/portal/upload.js:46-47 | the `{}` fallback is displayed as "Artist" |
| UploadPage.StripExtension | public/portal/upload.js:136 | without a dot the name is unchanged; otherwise everything from the last dot on is dropped |
| UploadPage.StripExtensionOfName | public/portal/upload.js:136 | stripping "stem.ext" gives the stem back |
| UploadPage.BulkTitle | public/portal/upload.js:136 | the typed title, else the file name without its extension |
| UploadPage.UploadArtistId | public/portal/upload.js:58-60 | an artist id exactly when the path matches `/dashboard/artist/<digits>/upload`, and then the digits of the leftmost match |
| UploadPage.AddSongLinkCarriesArtist | public/portal/upload.js:58-60 | the dashboard's add-song link for artist n opens the upload page of n |
| UploadPage.BackLink | public/portal/upload.js:51-54 | the artist's page iff an artist id is set, else "/dashboard" |
| UploadPage.BackLinkReturnsToArtist | public/portal/upload.js:51-60 | going to the upload page of artist n and back returns to n's page |
| UploadPage.UploadArtistMeta | public/portal/upload.js:43-49 | with a known artist id the cached id and name and no request; otherwise the answer's artist, or id null and "Artist" when there is none |
| UploadPage.CachedMetaIgnoresResponse | public/portal/upload.js:44 | once the id is known, what my-artist would answer makes no difference |
| LoginPage.Decide | public/portal/login.js:25-47 | a non-ok answer shows its message; a missing token or user shows "Invalid response from server"; only the lowercased roles "artist" and "administrator" enter, and only then are token and user stored |
| LoginPage.PageRoleCheckIgnoresCase | public/portal/login.js:38-39 | the page lets "Artist" in while the server's gate refuses it |
| LoginPage.FromServer | public/portal/login.js:20-23 | ok iff the status is 2xx; the server's user has no role |
| LoginPage.ServerLoginNeverEntersPortal | public/portal/login.js:38-44 | against the server's login route the page never enters the portal: success ends in "Access denied" and failure shows the server's message |
| SignupPage.Submit | public/portal/signup.js:13-31 | "Passwords do not match" iff they differ, then the length check at 6; the payload has a trimmed, lowercased email, trimmed names and the password unchanged |
| SignupPage.MismatchBeforeLength | public/portal/signup.js:13-22 | a mismatch is reported whatever the length |
| SignupPage.NormalEmail | public/portal/signup.js:29 | the email sent is empty iff it was all whitespace, and holds no ASCII capital |
| SignupPage.NormalEmailIdempotent | public/portal/signup.js:29 | normalising an email already sent gives it back |
| SignupPage.AfterResponse | public/portal/signup.js:43-49 | redirect iff 200 ≤ status < 300, otherwise the server's message or "Sign up failed" |
| Numbers.ParseInt | routes/engagement.js:32 | no digit at all gives NaN |
| Numbers.ParseIntDigits | routes/engagement.js:32 | whitespace, an optional sign, a digit run and then a non-digit read as the signed value of the digit run |
| Numbers.ParseIntNonNumeric | routes/engagement.js:32 | after the leading whitespace, a first character that is neither a digit nor a sign followed by a digit gives NaN |
| Numbers.ParseIntRendered | routes/engagement.js:32 | parseInt reads back any rendered integer whatever non-digit text follows |
| Numbers.ParseIntSkipsSpace | routes/engagement.js:32 | leading whitespace is skipped |
| Numbers.CeilDiv | routes/artist.js:49 | the least page count whose pages hold all rows |
| Text.Trim | routes/engagement.js:404 | the input is the result padded with whitespace only; empty iff the input is all whitespace |
| Text.TrimIdempotent | routes/engagement.js:404 | trimming twice is trimming once |
| Text.Lower | public/portal/dashboard.js:41 | no ASCII capital is left and every other character is kept |
| Text.ReplaceFirst | routes/users.js:53 | with no occurrence the text is unchanged; otherwise the first occurrence, and only it, is replaced |

The required-token middleware is copied unchanged at routes/users.js:24-42 and
routes/playlists.js:10-28, and the optional one at routes/artists.js:10-17. The
routes in those files use `Access.Authenticate` and `Access.OptionalAuth`.

## Left out

- Database connections, `client.connect`/`client.end`, unawaited promises and clients that stay open on early returns. These are I/O; each route is one atomic step on the tables.
- Every `catch` that answers 500, except where the model shows that the 500 happens. That covers the reassigned constant in routes/artists.js:34 and a negative LIMIT or OFFSET in routes/artist.js:43.
- SQL `ORDER BY` and timestamps (`NOW()`, `created_at`). Listings whose order comes from the database are sets, or keep insertion order.
- Binary streaming and response headers (routes/music.js:163-216, 245-276). These read blobs and set headers and involve no decisions.
- Music.GetSong: the file name, size, MIME type and timestamp columns are not part of the song row in the model, so the answer carries only the modelled columns and the uploader's username.
- The playlist list route (routes/playlists.js:31-62) and the listener song list in routes/users.js:262-287. Both are one SELECT with no guard beyond the token.
- Multer internals: disk and memory storage, and multipart parsing. The song upload's size limit (`MAX_FILE_SIZE`, default 50000000) is not modelled. The avatar's 5 MB limit is modelled.
- JWT signing, signature checks and expiry, which are the `Verifier` parameter. bcrypt hashing and comparison are the `Hasher` and `PasswordCheck` parameters.
- Environment variables. They are parameters (`Config`, `BASE_URL`), and the database settings are not modelled.
- JSON bodies whose fields are numbers, arrays or objects. Request fields are strings or absent, except `commentText`, whose non-string case is modelled.
- Ids that reach SQL without `parseInt` (playlists, songs in music.js, artist.js). They are integers in the model, so a malformed id that PostgreSQL would reject with 500 is not represented.
- Query-string arrays and NaN arithmetic. Pagination takes `page` and `limit` as integers.
- The "artists table missing" message in routes/portal.js:51-58. It depends on a database error code.
- The 404 at routes/artist.js:117-119. It cannot be reached, because the row was found just before, and the model has no concurrent deletes.
- Deleting a playlist (routes/playlists.js:182-204) leaves its membership rows behind. The database cascade that would remove them is part of the schema, not the route.
- Text.Lower: lowercases ASCII letters only, not Unicode case mapping. Non-ASCII capitals such as "É" are not folded, so `filterSongs` and the sign-up email normalisation can differ from the browser on such text.
- Engagement.ListComments: the listing's order (`ORDER BY c.created_at DESC`) is not stated, because the model keeps no timestamps; only which comments are listed.
- ArtistPasskey.UpdateArtistRoute: that every row under the id equals the answered row is stated for tables with unique ids only. With duplicate ids each copy is edited from its own old values, as the SQL would do.
- Numbers.ParseInt: digit runs are read as exact integers, without the precision loss of IEEE doubles on very long runs.
- The portal pages' DOM updates, `fetch` chains, `localStorage` and timers. The modelled decisions take the fetched data as arguments.
- The sign-up page posts to `/auth/register-artist`. routes/auth.js does not define that path, so `SignupPage.AfterResponse` models the outcome from the status and message alone.
- public/scripts/index.js, index.js, config/utils.js, createDb.js and scripts/*.js are server wiring, DDL and migration runners with no decision logic, so they are not part of this model.

=== FILE: access.dfy ===
/**
 * Token-based access control: the required-token middleware `authenticateToken`
 * (routes/music.js, copied verbatim into routes/users.js and routes/playlists.js),
 * the optional-token middleware `optionalAuth` (routes/engagement.js, routes/artists.js),
 * and the role gates of routes/portal.js.
 *
 * Signature and expiry checking is the JSON Web Token library's business; it is
 * a `Verifier` here: given a token and the signing secret it yields the decoded
 * claims, or None when the signature, the structure or the expiry is wrong.
 */
module Access {
  import opened Wrappers
  import opened Text
  import opened Http

  /** The decoded payload of a signed token. Tokens this server issues carry no role. */
  datatype Claims = Claims(userId: int, username: Option<string>, role: Option<string>)

  /** `jwt.verify(token, secret)`. */
  type Verifier = (string, string) -> Option<Claims>

  /** The environment the auth code reads: JWT_SECRET and JWT_EXPIRES_IN. */
  datatype Config = Config(jwtSecret: Option<string>, jwtExpiresIn: Option<string>)

  const FallbackSecret: string := "fallback_secret"
  const DefaultExpiry: string := "7d"

  const Administrator: string := "administrator"
  const ArtistRole: string := "artist"
  const Listener: string := "listener"

  /** `process.env.JWT_SECRET || "fallback_secret"`. */
  function Secret(cfg: Config): string {
    Or(cfg.jwtSecret, FallbackSecret)
  }

  /** `process.env.JWT_EXPIRES_IN || "7d"`. */
  function Expiry(cfg: Config): string {
    Or(cfg.jwtExpiresIn, DefaultExpiry)
  }

  /** Unset or empty settings fall back to the built-in secret and a seven-day expiry. */
  lemma ConfigDefaults(cfg: Config)
    ensures !Truthy(cfg.jwtSecret) ==> Secret(cfg) == "fallback_secret"
    ensures Truthy(cfg.jwtSecret) ==> Secret(cfg) == cfg.jwtSecret.value
    ensures !Truthy(cfg.jwtExpiresIn) ==> Expiry(cfg) == "7d"
    ensures Truthy(cfg.jwtExpiresIn) ==> Expiry(cfg) == cfg.jwtExpiresIn.value
  {
  }

  /**
   * `req.headers.authorization?.split(" ")[1]`: the second space-separated field
   * of the header, if the header is present and holds a space.
   */
  function BearerToken(header: Option<string>): (t: Option<string>)
    ensures t.Some? ==> ' ' !in t.value
    ensures t.Some? <==> header.Some? && ' ' in header.value
  {
    if header.None? then None
    else
      var fields := Split(header.value, ' ');
      if ' ' !in header.value then
        SplitNoSeparator(header.value, ' ');
        None
      else if |fields| >= 2 then Some(fields[1])
      else
        JoinSplit(header.value, ' ');
        assert false;
        None
  }

  /** The middleware's `if (!token)`: a token is present when the field exists and is not empty. */
  predicate HasToken(header: Option<string>) {
    Truthy(BearerToken(header))
  }

  /** The scheme word before the first space is never inspected: the token is the next field. */
  lemma {:induction false} BearerSkipsScheme(scheme: string, rest: string)
    requires ' ' !in scheme
    ensures BearerToken(Some(scheme + " " + rest)) == Some(Split(rest, ' ')[0])
  {
    SplitAfterWord(scheme, ' ', rest);
    assert ' ' in scheme + " " + rest by {
      assert (scheme + " " + rest)[|scheme|] == ' ';
    }
  }

  /** "Bearer abc", "X abc" and "X abc def" all carry the token "abc". */
  lemma {:induction false} BearerTokenField(scheme: string, token: string, rest: string)
    requires ' ' !in scheme && ' ' !in token
    ensures BearerToken(Some(scheme + " " + token)) == Some(token)
    ensures BearerToken(Some(scheme + " " + token + " " + rest)) == Some(token)
  {
    BearerSkipsScheme(scheme, token);
    SplitNoSeparator(token, ' ');
    BearerSkipsScheme(scheme, token + " " + rest);
    SplitAfterWord(token, ' ', rest);
    assert scheme + " " + token + " " + rest == scheme + " " + (token + " " + rest);
  }

  /** An empty second field, as in "Bearer " or "Bearer  abc", counts as no token. */
  lemma EmptySecondFieldIsNoToken(scheme: string, rest: string)
    requires ' ' !in scheme
    ensures !HasToken(Some(scheme + " " + " " + rest))
    ensures !HasToken(Some(scheme + " "))
  {
    BearerSkipsScheme(scheme, " " + rest);
    SplitAfterWord("", ' ', rest);
    assert "" + " " + rest == " " + rest;
    BearerSkipsScheme(scheme, "");
    assert scheme + " " + "" == scheme + " ";
    assert scheme + " " + " " + rest == scheme + " " + (" " + rest);
  }

  /** The outcome of the required-token middleware: continue with the claims, or answer. */
  datatype Gate = Pass(user: Claims) | Deny(reply: Reply)

  /** `authenticateToken`. */
  function Authenticate(header: Option<string>, cfg: Config, verify: Verifier): (g: Gate)
    ensures !HasToken(header) <==> g == Deny(Reply(401, "Access token required"))
    ensures g == Deny(Reply(403, "Invalid token")) <==>
      HasToken(header) && verify(BearerToken(header).value, Secret(cfg)).None?
    ensures g.Pass? <==> HasToken(header) && verify(BearerToken(header).value, Secret(cfg)).Some?
    ensures g.Pass? ==> verify(BearerToken(header).value, Secret(cfg)) == Some(g.user)
  {
    var token := BearerToken(header);
    if !Truthy(token) then Deny(Reply(Unauthorized, "Access token required"))
    else
      match verify(token.value, Secret(cfg))
      case None => Deny(Reply(Forbidden, "Invalid token"))
      case Some(user) => Pass(user)
  }

  /** Without a token the verifier is never consulted: any two verifiers give the same 401. */
  lemma MissingTokenSkipsVerifier(header: Option<string>, cfg: Config, v1: Verifier, v2: Verifier)
    requires !HasToken(header)
    ensures Authenticate(header, cfg, v1) == Authenticate(header, cfg, v2)
    ensures Authenticate(header, cfg, v1).reply == Reply(401, "Access token required")
  {
  }

  /** `optionalAuth`: never answers; attaches the claims when a present token verifies. */
  function OptionalAuth(header: Option<string>, cfg: Config, verify: Verifier): (user: Option<Claims>)
    ensures user.Some? ==> HasToken(header) && verify(BearerToken(header).value, Secret(cfg)) == user
    ensures HasToken(header) && verify(BearerToken(header).value, Secret(cfg)).Some? ==> user.Some?
  {
    var token := BearerToken(header);
    if !Truthy(token) then None else verify(token.value, Secret(cfg))
  }

  /**
   * The two middlewares agree: the optional one attaches exactly the claims the
   * required one would pass on, and attaches nothing exactly when it would reject.
   */
  lemma OptionalAgreesWithRequired(header: Option<string>, cfg: Config, verify: Verifier)
    ensures forall c :: Authenticate(header, cfg, verify) == Pass(c) <==> OptionalAuth(header, cfg, verify) == Some(c)
    ensures Authenticate(header, cfg, verify).Deny? <==> OptionalAuth(header, cfg, verify).None?
  {
  }

  /** The outcome of a role or ownership gate. */
  datatype Check = Allow | Forbid(reply: Reply)

  /** `requireAdmin`: only the exact role "administrator" passes. */
  function RequireAdmin(user: Option<Claims>): (c: Check)
    ensures c == Allow <==> user.Some? && user.value.role == Some("administrator")
    ensures c != Allow ==> c == Forbid(Reply(403, "Admin access required"))
  {
    if user.Some? && user.value.role == Some(Administrator) then Allow
    else Forbid(Reply(Forbidden, "Admin access required"))
  }

  /** `req.user?.role || "listener"`. */
  function EffectiveRole(user: Option<Claims>): (role: string)
    ensures role != ""
    ensures user.Some? && Truthy(user.value.role) ==> role == user.value.role.value
    ensures user.None? || !Truthy(user.value.role) ==> role == "listener"
  {
    if user.Some? then Or(user.value.role, Listener) else Listener
  }

  /** `requireArtistOrAdmin`. */
  function RequireArtistOrAdmin(user: Option<Claims>): (c: Check)
    ensures c == Allow <==> EffectiveRole(user) == "artist" || EffectiveRole(user) == "administrator"
    ensures c != Allow ==> c == Forbid(Reply(403, "Artist or admin access required"))
  {
    var role := EffectiveRole(user);
    if role != ArtistRole && role != Administrator then Forbid(Reply(Forbidden, "Artist or admin access required"))
    else Allow
  }

  /** Whoever the admin gate admits, the artist-or-admin gate admits too. */
  lemma AdminGateIsStricter(user: Option<Claims>)
    ensures RequireAdmin(user) == Allow ==> RequireArtistOrAdmin(user) == Allow
  {
  }

  /** With no identity, or a role that is absent or empty, the identity is a listener and both gates refuse. */
  lemma NoRoleIsListener(user: Option<Claims>)
    requires user.None? || !Truthy(user.value.role)
    ensures EffectiveRole(user) == "listener"
    ensures RequireAdmin(user).Forbid? && RequireArtistOrAdmin(user).Forbid?
  {
  }

  /** The owner-or-admin rule for an artist's songs: administrators, or the artist's own user. */
  predicate OwnerOrAdmin(user: Claims, ownerUserId: Option<int>) {
    user.role == Some(Administrator) || ownerUserId == Some(user.userId)
  }

  /** The uploader-only rule for changing a song: the uploader, with no administrator bypass. */
  predicate IsUploader(user: Claims, uploadedBy: Option<int>) {
    uploadedBy == Some(user.userId)
  }
}

=== FILE: accounts.dfy ===
/** The `users` table as routes/auth.js and routes/users.js see it. */
module Accounts {
  import opened Wrappers
  import opened Rows

  /** A row of `users`; the password is kept only as a bcrypt hash. */
  datatype User = User(
    id: int,
    username: string,
    email: string,
    passwordHash: string,
    firstname: Option<string>,
    lastname: Option<string>,
    role: Option<string>,
    dateOfBirth: Option<string>,
    gender: Option<string>,
    pictureUrl: Option<string>)

  /** The columns routes/auth.js returns about an account: `id, username, email`. */
  datatype Account = Account(id: int, username: string, email: string)

  /** `bcrypt.compare(password, hash)`: whether a password matches a stored hash. */
  type PasswordCheck = (string, string) -> bool

  /** `bcrypt.hash(password, saltRounds)`. */
  type Hasher = (string, nat) -> string

  datatype UserTable = UserTable(rows: seq<User>, nextId: int)

  /** SERIAL ids: unique, and below the next id to hand out. */
  ghost predicate ValidUsers(t: UserTable) {
    && (forall i :: 0 <= i < |t.rows| ==> t.rows[i].id < t.nextId)
    && (forall i, j :: 0 <= i < j < |t.rows| ==> t.rows[i].id != t.rows[j].id)
  }

  /** `SELECT ... FROM users WHERE id = $1`. */
  function UserById(t: UserTable, id: int): (u: Option<User>)
    ensures u.Some? ==> u.value in t.rows && u.value.id == id
    ensures u.None? <==> forall i :: 0 <= i < |t.rows| ==> t.rows[i].id != id
  {
    match FirstWhere(t.rows, (u: User) => u.id == id)
    case None => None
    case Some(i) => Some(t.rows[i])
  }

  /** `SELECT ... FROM users WHERE email = $1`. */
  function UserByEmail(t: UserTable, email: string): (u: Option<User>)
    ensures u.Some? ==> u.value in t.rows && u.value.email == email
    ensures u.None? <==> forall i :: 0 <= i < |t.rows| ==> t.rows[i].email != email
  {
    match FirstWhere(t.rows, (u: User) => u.email == email)
    case None => None
    case Some(i) => Some(t.rows[i])
  }

  /** `SELECT id FROM users WHERE email = $1 OR username = $2` found a row. */
  predicate Taken(t: UserTable, email: string, username: string) {
    exists i :: 0 <= i < |t.rows| && (t.rows[i].email == email || t.rows[i].username == username)
  }

  /** `INSERT INTO users (username, email, password_hash)`: the new row takes the next id. */
  function InsertUser(t: UserTable, username: string, email: string, hash: string): (r: (UserTable, User))
    requires ValidUsers(t)
    ensures ValidUsers(r.0)
    ensures r.0.rows == t.rows + [r.1]
    ensures r.1.username == username && r.1.email == email && r.1.passwordHash == hash
    ensures r.1.role.None? && r.1.pictureUrl.None?
    ensures forall i :: 0 <= i < |t.rows| ==> t.rows[i].id != r.1.id
  {
    var u := User(t.nextId, username, email, hash, None, None, None, None, None, None);
    (UserTable(t.rows + [u], t.nextId + 1), u)
  }

  /** `UPDATE users SET ... WHERE id = $1`: every row with that id becomes `f` of itself. */
  function UpdateUser(t: UserTable, id: int, f: User -> User): (r: UserTable)
    ensures |r.rows| == |t.rows| && r.nextId == t.nextId
    ensures forall i :: 0 <= i < |t.rows| ==> r.rows[i] == if t.rows[i].id == id then f(t.rows[i]) else t.rows[i]
  {
    UserTable(seq(|t.rows|, i requires 0 <= i < |t.rows| => if t.rows[i].id == id then f(t.rows[i]) else t.rows[i]), t.nextId)
  }

  /** An update that keeps ids leaves the lookup on the same row, now edited. */
  lemma UserByIdAfterUpdate(t: UserTable, id: int, f: User -> User)
    requires forall u :: f(u).id == u.id
    requires UserById(t, id).Some?
    ensures UserById(UpdateUser(t, id, f), id) == Some(f(UserById(t, id).value))
  {
    var r := UpdateUser(t, id, f);
    var p := (u: User) => u.id == id;
    var i := FirstWhere(t.rows, p);
    var j := FirstWhere(r.rows, p);
    assert forall k :: 0 <= k < |t.rows| ==> r.rows[k].id == t.rows[k].id;
    assert p(r.rows[i.value]);
    assert j.value == i.value;
  }
}

=== FILE: artist_passkey.dfy ===
/**
 * routes/artist.js: artist records guarded by a shared passkey: create, the
 * paginated list, lookup, and the passkey-checked update and delete.
 */
module ArtistPasskey {
  import opened Wrappers
  import opened Text
  import opened Numbers
  import opened Http
  import opened Catalog

  const ArtistNotFound: Reply := Reply(404, "Artist not found")
  const InvalidPasskey: Reply := Reply(403, "Invalid passkey")
  const ServerFailure: Reply := Reply(500, "Internal server error")

  /** POST /api/artist: name and passkey are required; bio and image default to null. */
  function CreateArtist(t: ArtistTable, name: Option<string>, bio: Option<string>, imageUrl: Option<string>, passkey: Option<string>): (r: Step<Artist, ArtistTable>)
    requires ValidArtists(t)
    ensures !Truthy(name) || !Truthy(passkey) <==> r == Step(Failed(Reply(400, "Name and passkey are required")), t)
    ensures ValidArtists(r.state)
    ensures r.answer.Done? <==> Truthy(name) && Truthy(passkey)
    ensures r.answer.Done? ==>
      && r.answer.status == 201
      && r.state.rows == t.rows + [r.answer.body]
      && ArtistById(t, r.answer.body.id).None?
      && r.answer.body.name == name && r.answer.body.passkey == passkey
      && (r.answer.body.bio.Some? <==> Truthy(bio))
      && (r.answer.body.profileImageUrl.Some? <==> Truthy(imageUrl))
  {
    if !Truthy(name) || !Truthy(passkey) then Step(Failed(Reply(BadRequest, "Name and passkey are required")), t)
    else
      var row := NewArtist(0).(name := name, bio := if Truthy(bio) then bio else None,
                               profileImageUrl := if Truthy(imageUrl) then imageUrl else None, passkey := passkey);
      var t' := InsertArtist(t, row);
      Step(Done(Created, row.(id := t.nextId)), t')
  }

  /** The pagination block of GET /api/artist, with the page window into the name-ordered rows. */
  datatype Page = Page(total: nat, totalPages: Option<int>, currentPage: int, itemsPerPage: int, first: nat, count: nat)

  /**
   * GET /api/artist?page&limit (defaults 1 and 10). A negative LIMIT or OFFSET is
   * refused by the database; `Math.ceil(total / 0)` is not a finite number.
   */
  function ListArtists(total: nat, page: int, limit: int): (r: Answer<Page>)
    ensures limit < 0 || Offset(page, limit) < 0 <==> r == Failed(ServerFailure)
    ensures r.Done? <==> limit >= 0 && Offset(page, limit) >= 0
    ensures r.Done? ==>
      && r.status == 200
      && r.body.total == total && r.body.currentPage == page && r.body.itemsPerPage == limit
      && r.body.first == Offset(page, limit)
      && (limit == 0 <==> r.body.totalPages.None?)
      && (limit > 0 ==> var n := r.body.totalPages.value; (n - 1) * limit < total <= n * limit)
      && r.body.count == if r.body.first >= total then 0 else Min(limit, total - r.body.first)
  {
    var offset := Offset(page, limit);
    if limit < 0 || offset < 0 then Failed(ServerFailure)
    else
      var pages := if limit == 0 then None else Some(CeilDiv(total, limit));
      var count := if offset >= total then 0 else Min(limit, total - offset);
      Done(OK, Page(total, pages, page, limit, offset, count))
  }

  function Min(a: int, b: int): int {
    if a <= b then a else b
  }

  /** Every numbered page up to `totalPages` is non-empty, and every page after it is empty. */
  lemma PagesCoverRows(total: nat, page: int, limit: int)
    requires limit > 0 && page >= 1
    ensures var r := ListArtists(total, page, limit);
      r.Done? && (r.body.count > 0 <==> page <= r.body.totalPages.value)
  {
    var n := CeilDiv(total, limit);
    var offset := Offset(page, limit);
    MulNonneg(page - 1, limit);
    var r := ListArtists(total, page, limit);
    assert r.body.totalPages == Some(n) && r.body.first == offset;
    if page <= n {
      MulMono(page - 1, n - 1, limit);
    } else {
      MulMono(n, page - 1, limit);
    }
  }

  /** GET /api/artist/:id. */
  function GetArtist(t: ArtistTable, id: int): (r: Answer<Artist>)
    ensures ArtistById(t, id).None? <==> r == Failed(ArtistNotFound)
    ensures r.Done? <==> ArtistById(t, id).Some?
    ensures r.Done? ==> r.status == 200 && r.body in t.rows && r.body.id == id
  {
    match ArtistById(t, id)
    case None => Failed(ArtistNotFound)
    case Some(a) => Done(OK, a)
  }

  /** `SET name = COALESCE($1, name), ...`: a null argument keeps the stored value. */
  function Coalesce<T>(given: Option<T>, stored: Option<T>): (r: Option<T>)
    ensures given.Some? ==> r == given
    ensures given.None? ==> r == stored
  {
    if given.Some? then given else stored
  }

  /** The passkey ladder shared by update and delete: 400, then 404, then 403. */
  function CheckPasskey(t: ArtistTable, id: int, passkey: Option<string>, missing: string): (r: Option<Reply>)
    ensures !Truthy(passkey) ==> r == Some(Reply(400, missing))
    ensures Truthy(passkey) && ArtistById(t, id).None? ==> r == Some(ArtistNotFound)
    ensures Truthy(passkey) && ArtistById(t, id).Some? ==>
      (r.None? <==> ArtistById(t, id).value.passkey == passkey)
    ensures r.Some? && r.value != Reply(400, missing) && r.value != ArtistNotFound ==> r == Some(InvalidPasskey)
  {
    if !Truthy(passkey) then Some(Reply(BadRequest, missing))
    else match ArtistById(t, id)
      case None => Some(ArtistNotFound)
      case Some(a) => if a.passkey != passkey then Some(InvalidPasskey) else None
  }

  /** PUT /api/artist/:id. */
  function UpdateArtistRoute(t: ArtistTable, id: int, name: Option<string>, bio: Option<string>, image: Option<string>, passkey: Option<string>): (r: Step<Artist, ArtistTable>)
    ensures CheckPasskey(t, id, passkey, "Passkey is required for updates").Some? ==>
      r == Step(Failed(CheckPasskey(t, id, passkey, "Passkey is required for updates").value), t)
    ensures r.answer.Done? <==> CheckPasskey(t, id, passkey, "Passkey is required for updates").None?
    ensures r.answer.Done? ==>
      var before := ArtistById(t, id).value;
      && Truthy(passkey) && before.passkey == passkey
      && r.answer.status == 200
      && r.answer.body == before.(name := Coalesce(name, before.name), bio := Coalesce(bio, before.bio),
                                profileImageUrl := Coalesce(image, before.profileImageUrl))
      && r.state.nextId == t.nextId && |r.state.rows| == |t.rows|
      && (forall i :: 0 <= i < |t.rows| && t.rows[i].id != id ==> r.state.rows[i] == t.rows[i])
      && (forall i :: 0 <= i < |t.rows| && t.rows[i].id == id ==> r.state.rows[i].id == id)
    ensures r.answer.Done? && ValidArtists(t) ==>
      forall i :: 0 <= i < |t.rows| && t.rows[i].id == id ==> r.state.rows[i] == r.answer.body
  {
    match CheckPasskey(t, id, passkey, "Passkey is required for updates")
    case Some(reply) => Step(Failed(reply), t)
    case None =>
      var a := ArtistById(t, id).value;
      var edit := (x: Artist) => x.(name := Coalesce(name, x.name), bio := Coalesce(bio, x.bio),
                                     profileImageUrl := Coalesce(image, x.profileImageUrl));
      IdPicksTheRow(t, id);
      Step(Done(OK, edit(a)), t.(rows := UpdateArtist(t.rows, id, edit)))
  }

  /** With unique ids, every row carrying an id is the one the lookup finds. */
  lemma IdPicksTheRow(t: ArtistTable, id: int)
    requires ArtistById(t, id).Some?
    ensures ValidArtists(t) ==> forall i :: 0 <= i < |t.rows| && t.rows[i].id == id ==> t.rows[i] == ArtistById(t, id).value
  {
    if ValidArtists(t) {
      var k :| 0 <= k < |t.rows| && t.rows[k] == ArtistById(t, id).value;
      forall i | 0 <= i < |t.rows| && t.rows[i].id == id
        ensures t.rows[i] == ArtistById(t, id).value
      {
        assert i == k;
      }
    }
  }

  /** After an accepted update, the lookup by id answers the edited row the update returned. */
  lemma UpdatedArtistIsFound(t: ArtistTable, id: int, name: Option<string>, bio: Option<string>, image: Option<string>, passkey: Option<string>)
    requires UpdateArtistRoute(t, id, name, bio, image, passkey).answer.Done?
    ensures var r := UpdateArtistRoute(t, id, name, bio, image, passkey);
      GetArtist(r.state, id) == Done(200, r.answer.body)
  {
    var edit := (x: Artist) => x.(name := Coalesce(name, x.name), bio := Coalesce(bio, x.bio),
                                   profileImageUrl := Coalesce(image, x.profileImageUrl));
    ArtistByIdAfterUpdate(t, id, edit);
  }

  /** A created artist is then found by its id, exactly as the create answered it. */
  lemma CreatedArtistIsFound(t: ArtistTable, name: Option<string>, bio: Option<string>, imageUrl: Option<string>, passkey: Option<string>)
    requires ValidArtists(t)
    requires CreateArtist(t, name, bio, imageUrl, passkey).answer.Done?
    ensures var r := CreateArtist(t, name, bio, imageUrl, passkey);
      GetArtist(r.state, r.answer.body.id) == Done(200, r.answer.body)
  {
    var r := CreateArtist(t, name, bio, imageUrl, passkey);
    ArtistByIdAppend(t, r.answer.body);
  }

  /** An update sending no fields changes nothing but proves the passkey. */
  lemma EmptyUpdateKeepsRow(t: ArtistTable, id: int, passkey: Option<string>)
    requires UpdateArtistRoute(t, id, None, None, None, passkey).answer.Done?
    ensures UpdateArtistRoute(t, id, None, None, None, passkey).answer.body == ArtistById(t, id).value
  {
  }

  /** A wrong passkey changes nothing, and the answer names only the passkey. */
  lemma WrongPasskeyRejected(t: ArtistTable, id: int, name: Option<string>, passkey: string)
    requires passkey != "" && ArtistById(t, id).Some? && ArtistById(t, id).value.passkey != Some(passkey)
    ensures UpdateArtistRoute(t, id, name, None, None, Some(passkey)) == Step(Failed(InvalidPasskey), t)
    ensures DeleteArtistRoute(t, id, Some(passkey)) == Step(Failed(InvalidPasskey), t)
  {
  }

  /** DELETE /api/artist/:id: the passkey ladder, then the row is gone and the answer is 204. */
  function DeleteArtistRoute(t: ArtistTable, id: int, passkey: Option<string>): (r: Step<(), ArtistTable>)
    ensures CheckPasskey(t, id, passkey, "Passkey is required for deletion").Some? ==>
      r == Step(Failed(CheckPasskey(t, id, passkey, "Passkey is required for deletion").value), t)
    ensures r.answer.Done? <==> CheckPasskey(t, id, passkey, "Passkey is required for deletion").None?
    ensures r.answer.Done? ==>
      && r.answer.status == 204
      && ArtistById(r.state, id).None?
      && r.state.nextId == t.nextId
      && (forall a :: a in r.state.rows <==> a in t.rows && a.id != id)
  {
    match CheckPasskey(t, id, passkey, "Passkey is required for deletion")
    case Some(reply) => Step(Failed(reply), t)
    case None =>
      var rows := DeleteArtist(t.rows, id);
      assert forall i :: 0 <= i < |rows| ==> rows[i].id != id by {
        assert forall i :: 0 <= i < |rows| ==> rows[i] in rows;
      }
      Step(Done(NoContent, ()), t.(rows := rows))
  }

  /** After a delete GetArtist answers 404 for that id and the same as before for every other id. */
  lemma DeletedArtistIsGone(t: ArtistTable, id: int, passkey: Option<string>, other: int)
    requires DeleteArtistRoute(t, id, passkey).answer.Done?
    ensures var r := DeleteArtistRoute(t, id, passkey);
      && GetArtist(r.state, id) == Failed(ArtistNotFound)
      && (other != id ==> GetArtist(r.state, other) == GetArtist(t, other))
  {
    if other != id {
      ArtistByIdAfterDelete(t.rows, id, other, t.nextId);
    }
  }
}

=== FILE: artists.dfy ===
/**
 * routes/artists.js: the public artist card by name or id, and the
 * follow/unfollow set of (user, artist) pairs.
 */
module Artists {
  import opened Wrappers
  import opened Text
  import opened Numbers
  import opened Http
  import opened Access
  import opened Catalog

  /** `artist_follows` under its unique (user_id, artist_id) constraint. */
  type Follows = set<(int, int)>

  /** `SELECT COUNT(*) FROM artist_follows WHERE artist_id = $1`. */
  function FollowerCount(follows: Follows, artistId: int): nat {
    |set k | k in follows && k.1 == artistId|
  }

  /** A new follower adds one to that artist's count. */
  lemma FollowerCountAdd(follows: Follows, userId: int, artistId: int)
    requires (userId, artistId) !in follows
    ensures FollowerCount(follows + {(userId, artistId)}, artistId) == FollowerCount(follows, artistId) + 1
  {
    var before := set k | k in follows && k.1 == artistId;
    var after := set k | k in follows + {(userId, artistId)} && k.1 == artistId;
    assert after == before + {(userId, artistId)};
  }

  /** A follow pair of another artist leaves this artist's count alone. */
  lemma FollowerCountOther(follows: Follows, k: (int, int), artistId: int)
    requires k.1 != artistId
    ensures FollowerCount(follows + {k}, artistId) == FollowerCount(follows, artistId)
    ensures FollowerCount(follows - {k}, artistId) == FollowerCount(follows, artistId)
  {
    assert (set x | x in follows + {k} && x.1 == artistId) == (set x | x in follows && x.1 == artistId);
    assert (set x | x in follows - {k} && x.1 == artistId) == (set x | x in follows && x.1 == artistId);
  }

  const InvalidArtistId: Reply := Reply(400, "Invalid artist ID")
  const ArtistNotFound: Reply := Reply(404, "Artist not found")

  /** The public card of an artist. */
  datatype Card = Card(id: int, name: Option<string>, avatarUrl: Option<string>, bio: Option<string>, followerCount: nat, isFollowed: bool)

  /** `req.user?.userId` is truthy: an identity whose id is not 0. */
  predicate Identified(user: Option<Claims>) {
    user.Some? && user.value.userId != 0
  }

  /**
   * GET /api/artists?name=... (token optional). The name is trimmed and required.
   * An unknown name inserts the artist and then fails: the route assigns to a
   * `const`, so the request ends in the catch block with 500.
   */
  function GetByName(artists: ArtistTable, follows: Follows, user: Option<Claims>, query: Option<string>): (r: Step<Card, ArtistTable>)
    requires ValidArtists(artists)
    ensures query.None? || Trim(query.value) == "" ==> r == Step(Failed(Reply(400, "Query 'name' is required")), artists)
    ensures ValidArtists(r.state)
    ensures r.answer.Done? <==> query.Some? && Trim(query.value) != "" && ArtistByName(artists, Trim(query.value)).Some?
    ensures r.answer.Done? ==>
      var name := Trim(query.value);
      var a := ArtistByName(artists, name).value;
      && r.answer.status == 200
      && r.answer.body.id == a.id && r.answer.body.avatarUrl == a.avatarUrl && r.answer.body.bio == a.bio
      && ArtistByName(artists, name).Some?
      && r.state == artists
      && r.answer.body.name == Some(name)
      && r.answer.body.followerCount == FollowerCount(follows, r.answer.body.id)
      && (r.answer.body.isFollowed <==> Identified(user) && (user.value.userId, r.answer.body.id) in follows)
    ensures query.Some? && Trim(query.value) != "" && ArtistByName(artists, Trim(query.value)).None? ==>
      && r.answer == Failed(Reply(500, "Server error"))
      && r.state.rows == artists.rows + [NewArtist(artists.nextId).(name := Some(Trim(query.value)))]
  {
    var name := if query.Some? then Trim(query.value) else "";
    if name == "" then Step(Failed(Reply(BadRequest, "Query 'name' is required")), artists)
    else match ArtistByName(artists, name)
      case None =>
        Step(Failed(Reply(ServerError, "Server error")), InsertArtist(artists, NewArtist(0).(name := Some(name))))
      case Some(a) =>
        var followed := Identified(user) && (user.value.userId, a.id) in follows;
        Step(Done(OK, Card(a.id, a.name, a.avatarUrl, a.bio, FollowerCount(follows, a.id), followed)), artists)
  }

  /** The failed first request for a new name leaves the artist behind, so asking again succeeds. */
  lemma UnknownNameSucceedsOnRetry(artists: ArtistTable, follows: Follows, user: Option<Claims>, name: string)
    requires ValidArtists(artists)
    requires Trim(name) != "" && ArtistByName(artists, Trim(name)).None?
    ensures var first := GetByName(artists, follows, user, Some(name));
      first.answer.Failed? && GetByName(first.state, follows, user, Some(name)).answer.Done?
  {
    var first := GetByName(artists, follows, user, Some(name));
    var i := |artists.rows|;
    assert first.state.rows[i].name == Some(Trim(name));
  }

  /** Without an identity (or with user id 0) nothing is reported as followed. */
  lemma AnonymousFollowsNothing(artists: ArtistTable, follows: Follows, user: Option<Claims>, query: Option<string>)
    requires ValidArtists(artists)
    requires !Identified(user)
    ensures var r := GetByName(artists, follows, user, query); r.answer.Done? ==> !r.answer.body.isFollowed
  {
  }

  /**
   * The answer of GET /api/artists/:id: the columns `id, name, avatar_url, bio` of the
   * row and its follower count. The passkey and the portal columns are not selected.
   */
  datatype PublicArtist = PublicArtist(id: int, name: Option<string>, avatarUrl: Option<string>, bio: Option<string>, followerCount: nat)

  /** GET /api/artists/:id. */
  function GetById(artists: ArtistTable, follows: Follows, param: string): (r: Answer<PublicArtist>)
    ensures ParseInt(param).None? <==> r == Failed(InvalidArtistId)
    ensures ParseInt(param).Some? && ArtistById(artists, ParseInt(param).value).None? ==> r == Failed(ArtistNotFound)
    ensures r.Done? <==> ParseInt(param).Some? && ArtistById(artists, ParseInt(param).value).Some?
    ensures r.Done? ==>
      var a := ArtistById(artists, ParseInt(param).value).value;
      && r.status == 200
      && r.body.id == ParseInt(param).value
      && r.body.name == a.name && r.body.avatarUrl == a.avatarUrl && r.body.bio == a.bio
      && r.body.followerCount == FollowerCount(follows, ParseInt(param).value)
  {
    match ParseInt(param)
    case None => Failed(InvalidArtistId)
    case Some(id) =>
      match ArtistById(artists, id)
      case None => Failed(ArtistNotFound)
      case Some(a) => Done(OK, PublicArtist(a.id, a.name, a.avatarUrl, a.bio, FollowerCount(follows, id)))
  }

  /** The answer of the follow routes. */
  datatype FollowState = FollowState(artistId: int, followed: bool, followerCount: nat)

  /** POST /api/artists/:id/follow. */
  function Follow(artists: ArtistTable, follows: Follows, user: Claims, param: string): (r: Step<FollowState, Follows>)
    ensures ParseInt(param).None? ==> r == Step(Failed(InvalidArtistId), follows)
    ensures ParseInt(param).Some? && ArtistById(artists, ParseInt(param).value).None? ==> r == Step(Failed(ArtistNotFound), follows)
    ensures r.answer.Done? <==> ParseInt(param).Some? && ArtistById(artists, ParseInt(param).value).Some?
    ensures r.answer.Done? ==>
      var id := ParseInt(param).value;
      && r.answer.status == 201 && r.answer.body.followed && r.answer.body.artistId == id
      && r.state == follows + {(user.userId, id)}
      && r.answer.body.followerCount == FollowerCount(r.state, id)
  {
    match ParseInt(param)
    case None => Step(Failed(InvalidArtistId), follows)
    case Some(id) =>
      if ArtistById(artists, id).None? then Step(Failed(ArtistNotFound), follows)
      else
        var f := follows + {(user.userId, id)};
        Step(Done(Created, FollowState(id, true, FollowerCount(f, id))), f)
  }

  /** DELETE /api/artists/:id/follow: no existence check. */
  function Unfollow(follows: Follows, user: Claims, param: string): (r: Step<FollowState, Follows>)
    ensures ParseInt(param).None? ==> r == Step(Failed(InvalidArtistId), follows)
    ensures r.answer.Done? <==> ParseInt(param).Some?
    ensures r.answer.Done? ==>
      var id := ParseInt(param).value;
      && r.answer.status == 200 && !r.answer.body.followed && r.answer.body.artistId == id
      && r.state == follows - {(user.userId, id)}
      && r.answer.body.followerCount == FollowerCount(r.state, id)
  {
    match ParseInt(param)
    case None => Step(Failed(InvalidArtistId), follows)
    case Some(id) =>
      var f := follows - {(user.userId, id)};
      Step(Done(OK, FollowState(id, false, FollowerCount(f, id))), f)
  }

  /** Following twice is following once, and so is unfollowing; a first follow counts once. */
  lemma FollowIdempotent(artists: ArtistTable, follows: Follows, user: Claims, param: string)
    ensures var once := Follow(artists, follows, user, param);
      Follow(artists, once.state, user, param) == once
    ensures var once := Unfollow(follows, user, param);
      Unfollow(once.state, user, param).state == once.state
    ensures var once := Follow(artists, follows, user, param);
      once.answer.Done? && (user.userId, ParseInt(param).value) !in follows ==>
        once.answer.body.followerCount == FollowerCount(follows, ParseInt(param).value) + 1
  {
    var once := Follow(artists, follows, user, param);
    if once.answer.Done? && (user.userId, ParseInt(param).value) !in follows {
      FollowerCountAdd(follows, user.userId, ParseInt(param).value);
    }
  }

  /** Unfollowing a follow that was new undoes it. */
  lemma FollowThenUnfollow(artists: ArtistTable, follows: Follows, user: Claims, param: string)
    requires Follow(artists, follows, user, param).answer.Done?
    requires (user.userId, ParseInt(param).value) !in follows
    ensures Unfollow(Follow(artists, follows, user, param).state, user, param).state == follows
  {
  }

  /** The follower count a follow answers is the one the artist page then reports. */
  lemma FollowIsCounted(artists: ArtistTable, follows: Follows, user: Claims, param: string)
    requires Follow(artists, follows, user, param).answer.Done?
    ensures var f := Follow(artists, follows, user, param);
      var g := GetById(artists, f.state, param);
      g.Done? && g.body.followerCount == f.answer.body.followerCount
  {
  }
}

=== FILE: auth_routes.dfy ===
/**
 * routes/auth.js: registration, login and token verification, and the shape of
 * the tokens the server signs. Password hashing and comparison are bcrypt's
 * business and arrive as the `Hasher` and `PasswordCheck` parameters.
 */
module AuthRoutes {
  import opened Wrappers
  import opened Text
  import opened Http
  import opened Access
  import opened Accounts
  import Catalog
  import Portal

  /** `jwt.sign(claims, secret, { expiresIn })`: what the signed token carries. */
  datatype Token = Token(claims: Claims, secret: string, expiresIn: string)

  const SaltRounds: nat := 10

  /** The token issued at registration and login: only `userId` and `username`, never a role. */
  function Issue(cfg: Config, u: User): (tok: Token)
    ensures tok.claims == Claims(u.id, Some(u.username), None)
    ensures tok.secret == Secret(cfg) && tok.expiresIn == Expiry(cfg)
  {
    Token(Claims(u.id, Some(u.username), None), Secret(cfg), Expiry(cfg))
  }

  const FieldsRequired: Reply := Reply(400, "All fields are required")
  const UserExists: Reply := Reply(400, "User already exists")
  const CredentialsRequired: Reply := Reply(400, "Email and password are required")
  const InvalidCredentials: Reply := Reply(401, "Invalid credentials")
  const NoTokenProvided: Reply := Reply(401, "No token provided")
  const InvalidToken: Reply := Reply(401, "Invalid token")
  const UnknownUser: Reply := Reply(401, "User not found")

  /** The 201 body of POST /register. */
  datatype Registered = Registered(user: Account, token: Token)

  /** POST /api/auth/register. */
  function Register(t: UserTable, cfg: Config, hash: Hasher,
                    username: Option<string>, email: Option<string>, password: Option<string>): (r: Step<Registered, UserTable>)
    requires ValidUsers(t)
    ensures ValidUsers(r.state)
    ensures !Truthy(username) || !Truthy(email) || !Truthy(password) <==> r == Step(Failed(FieldsRequired), t)
    ensures Truthy(username) && Truthy(email) && Truthy(password) && Taken(t, email.value, username.value) ==>
      r == Step(Failed(UserExists), t)
    ensures r.answer.Done? <==>
      Truthy(username) && Truthy(email) && Truthy(password) && !Taken(t, email.value, username.value)
    ensures r.answer.Done? ==>
      && r.answer.status == 201
      && |r.state.rows| == |t.rows| + 1 && r.state.rows[..|t.rows|] == t.rows
      && var u := r.state.rows[|t.rows|];
         && r.answer.body.user == Account(u.id, u.username, u.email)
         && u.username == username.value && u.email == email.value
         && u.passwordHash == hash(password.value, 10)
         && u.role.None?
         && r.answer.body.token == Issue(cfg, u)
  {
    if !Truthy(username) || !Truthy(email) || !Truthy(password) then Step(Failed(FieldsRequired), t)
    else if Taken(t, email.value, username.value) then Step(Failed(UserExists), t)
    else
      var (t', u) := InsertUser(t, username.value, email.value, hash(password.value, SaltRounds));
      assert t'.rows[|t.rows|] == u && t'.rows[..|t.rows|] == t.rows;
      Step(Done(Created, Registered(Account(u.id, u.username, u.email), Issue(cfg, u))), t')
  }

  /** The 200 body of POST /login. */
  datatype LoggedIn = LoggedIn(id: int, username: string, email: string, token: Token)

  /** POST /api/auth/login. */
  function Login(t: UserTable, cfg: Config, check: PasswordCheck,
                 email: Option<string>, password: Option<string>): (r: Answer<LoggedIn>)
    ensures !Truthy(email) || !Truthy(password) <==> r == Failed(CredentialsRequired)
    ensures r.Done? <==>
      && Truthy(email) && Truthy(password)
      && UserByEmail(t, email.value).Some?
      && check(password.value, UserByEmail(t, email.value).value.passwordHash)
    ensures Truthy(email) && Truthy(password) && !r.Done? ==> r == Failed(InvalidCredentials)
    ensures r.Done? ==>
      var u := UserByEmail(t, email.value).value;
      r == Done(200, LoggedIn(u.id, u.username, u.email, Issue(cfg, u)))
  {
    if !Truthy(email) || !Truthy(password) then Failed(CredentialsRequired)
    else match UserByEmail(t, email.value)
      case None => Failed(InvalidCredentials)
      case Some(u) =>
        if !check(password.value, u.passwordHash) then Failed(InvalidCredentials)
        else Done(OK, LoggedIn(u.id, u.username, u.email, Issue(cfg, u)))
  }

  /** An unknown email and a wrong password for a known one are indistinguishable to the caller. */
  lemma NoAccountEnumeration(t1: UserTable, t2: UserTable, cfg: Config, check: PasswordCheck, email: string, password: string)
    requires email != "" && password != ""
    requires UserByEmail(t1, email).None?
    requires UserByEmail(t2, email).Some? && !check(password, UserByEmail(t2, email).value.passwordHash)
    ensures Login(t1, cfg, check, Some(email), Some(password)) == Login(t2, cfg, check, Some(email), Some(password))
    ensures Login(t1, cfg, check, Some(email), Some(password)) == Failed(Reply(401, "Invalid credentials"))
  {
  }

  /** After a successful registration the email lookup lands on the new row. */
  lemma UserByEmailAppend(rows: seq<User>, u: User)
    requires forall i :: 0 <= i < |rows| ==> rows[i].email != u.email
    ensures UserByEmail(UserTable(rows + [u], 0), u.email) == Some(u)
  {
    var t := UserTable(rows + [u], 0);
    assert t.rows[|rows|] == u;
    var r := UserByEmail(t, u.email);
    var i :| 0 <= i < |t.rows| && t.rows[i] == r.value;
    assert i == |rows|;
  }

  /**
   * Registering and then logging in with the same email and password succeeds,
   * with the new account and the same token a registration issues, provided
   * bcrypt accepts a password against its own hash.
   */
  lemma RegisterThenLogin(t: UserTable, cfg: Config, hash: Hasher, check: PasswordCheck,
                          username: string, email: string, password: string)
    requires ValidUsers(t)
    requires Register(t, cfg, hash, Some(username), Some(email), Some(password)).answer.Done?
    requires check(password, hash(password, 10))
    ensures var reg := Register(t, cfg, hash, Some(username), Some(email), Some(password));
      var a := reg.answer.body.user;
      Login(reg.state, cfg, check, Some(email), Some(password)) == Done(200, LoggedIn(a.id, username, email, reg.answer.body.token))
  {
    var reg := Register(t, cfg, hash, Some(username), Some(email), Some(password));
    var u := reg.state.rows[|t.rows|];
    assert reg.state.rows == t.rows + [u];
    assert forall i :: 0 <= i < |t.rows| ==> t.rows[i].email != u.email by {
      if exists i :: 0 <= i < |t.rows| && t.rows[i].email == u.email {
        assert Taken(t, email, username);
      }
    }
    UserByEmailAppend(t.rows, u);
    assert UserByEmail(reg.state, email) == UserByEmail(UserTable(t.rows + [u], 0), u.email);
  }

  /** GET /api/auth/verify: every failure is a 401, unlike the middleware's 403 for a bad token. */
  function VerifyToken(t: UserTable, cfg: Config, verify: Verifier, header: Option<string>): (r: Answer<Account>)
    ensures !HasToken(header) <==> r == Failed(Reply(401, "No token provided"))
    ensures r.Failed? ==> r.reply.status == 401
    ensures r.Done? <==>
      && HasToken(header)
      && verify(BearerToken(header).value, Secret(cfg)).Some?
      && UserById(t, verify(BearerToken(header).value, Secret(cfg)).value.userId).Some?
    ensures r.Done? ==>
      var u := UserById(t, verify(BearerToken(header).value, Secret(cfg)).value.userId).value;
      r == Done(200, Account(u.id, u.username, u.email))
  {
    var token := BearerToken(header);
    if !Truthy(token) then Failed(NoTokenProvided)
    else match verify(token.value, Secret(cfg))
      case None => Failed(InvalidToken)
      case Some(decoded) =>
        match UserById(t, decoded.userId)
        case None => Failed(UnknownUser)
        case Some(u) => Done(OK, Account(u.id, u.username, u.email))
  }

  /**
   * /verify accepts exactly the tokens the required-token middleware passes
   * whose user still exists, and reports that user.
   */
  lemma VerifyAgreesWithMiddleware(t: UserTable, cfg: Config, verify: Verifier, header: Option<string>)
    ensures VerifyToken(t, cfg, verify, header).Done? <==>
      Authenticate(header, cfg, verify).Pass? && UserById(t, Authenticate(header, cfg, verify).user.userId).Some?
    ensures Authenticate(header, cfg, verify) == Deny(Reply(403, "Invalid token")) ==>
      VerifyToken(t, cfg, verify, header) == Failed(Reply(401, "Invalid token"))
  {
  }

  /**
   * A token this server issued, once verified, names a listener: both portal
   * gates refuse it, /me reports "listener", and an artist's songs are off limits.
   */
  lemma IssuedTokensAreListeners(cfg: Config, verify: Verifier, header: Option<string>, u: User,
                                 artists: Catalog.ArtistTable, songs: Catalog.SongTable, param: string)
    requires HasToken(header)
    requires verify(BearerToken(header).value, Secret(cfg)) == Some(Issue(cfg, u).claims)
    ensures Authenticate(header, cfg, verify) == Pass(Issue(cfg, u).claims)
    ensures RequireAdmin(Some(Issue(cfg, u).claims)) == Forbid(Reply(403, "Admin access required"))
    ensures RequireArtistOrAdmin(Some(Issue(cfg, u).claims)) == Forbid(Reply(403, "Artist or admin access required"))
    ensures Portal.GetMe(Issue(cfg, u).claims).role == "listener"
    ensures Portal.ArtistSongsRoute(header, cfg, verify, artists, songs, param) ==
      Failed(Reply(403, "Artist or admin access required"))
  {
    NoRoleIsListener(Some(Issue(cfg, u).claims));
  }
}

=== FILE: catalog.dfy ===
/**
 * The `songs` and `artists` tables as the routers see them. Ids are SERIAL:
 * every insert takes the next id, so ids are unique and below `nextId`.
 */
module Catalog {
  import opened Wrappers
  import opened Rows

  /** A row of `songs`; `uploadedBy` is the uploading user's id (nullable in the schema). */
  datatype Song = Song(
    title: Option<string>,
    artist: Option<string>,
    album: Option<string>,
    genre: Option<string>,
    duration: Option<string>,
    uploadedBy: Option<int>)

  datatype SongTable = SongTable(rows: map<int, Song>, nextId: int)

  ghost predicate ValidSongs(t: SongTable) {
    forall id :: id in t.rows ==> id < t.nextId
  }

  /** `SELECT id FROM songs WHERE id = $1` found a row. */
  predicate SongExists(t: SongTable, id: int) {
    id in t.rows
  }

  /** `INSERT INTO songs ... RETURNING id`: the new row takes the next SERIAL id. */
  function InsertSong(t: SongTable, s: Song): (r: (SongTable, int))
    requires ValidSongs(t)
    ensures ValidSongs(r.0)
    ensures r.1 !in t.rows && r.0.rows == t.rows[r.1 := s]
  {
    (SongTable(t.rows[t.nextId := s], t.nextId + 1), t.nextId)
  }

  /**
   * A row of `artists`: the union of the columns the routers read, since the
   * table has grown columns over time (name/passkey, carrier_name/user_id, ...).
   */
  datatype Artist = Artist(
    id: int,
    name: Option<string>,
    carrierName: Option<string>,
    firstname: Option<string>,
    lastname: Option<string>,
    middleName: Option<string>,
    bio: Option<string>,
    avatarUrl: Option<string>,
    profileImageUrl: Option<string>,
    passkey: Option<string>,
    userId: Option<int>)

  /** A row that has only the columns an insert supplies; the rest are NULL. */
  function NewArtist(id: int): Artist {
    Artist(id, None, None, None, None, None, None, None, None, None, None)
  }

  datatype ArtistTable = ArtistTable(rows: seq<Artist>, nextId: int)

  ghost predicate ValidArtists(t: ArtistTable) {
    && (forall i :: 0 <= i < |t.rows| ==> t.rows[i].id < t.nextId)
    && (forall i, j :: 0 <= i < j < |t.rows| ==> t.rows[i].id != t.rows[j].id)
  }

  /** `SELECT ... FROM artists WHERE id = $1`. */
  function ArtistById(t: ArtistTable, id: int): (a: Option<Artist>)
    ensures a.Some? ==> a.value in t.rows && a.value.id == id
    ensures a.None? <==> forall i :: 0 <= i < |t.rows| ==> t.rows[i].id != id
  {
    match FirstWhere(t.rows, (a: Artist) => a.id == id)
    case None => None
    case Some(i) => Some(t.rows[i])
  }

  /** `SELECT ... FROM artists WHERE name = $1`. */
  function ArtistByName(t: ArtistTable, name: string): (a: Option<Artist>)
    ensures a.Some? ==> a.value in t.rows && a.value.name == Some(name)
    ensures a.None? <==> forall i :: 0 <= i < |t.rows| ==> t.rows[i].name != Some(name)
  {
    match FirstWhere(t.rows, (a: Artist) => a.name == Some(name))
    case None => None
    case Some(i) => Some(t.rows[i])
  }

  /** `SELECT ... FROM artists WHERE user_id = $1`: the artist profile linked to a user. */
  function ArtistByUser(t: ArtistTable, userId: int): (a: Option<Artist>)
    ensures a.Some? ==> a.value in t.rows && a.value.userId == Some(userId)
    ensures a.None? <==> forall i :: 0 <= i < |t.rows| ==> t.rows[i].userId != Some(userId)
  {
    match FirstWhere(t.rows, (a: Artist) => a.userId == Some(userId))
    case None => None
    case Some(i) => Some(t.rows[i])
  }

  /** `INSERT INTO artists`: the row gets the next SERIAL id and goes last. */
  function InsertArtist(t: ArtistTable, row: Artist): (r: ArtistTable)
    requires ValidArtists(t)
    ensures ValidArtists(r)
    ensures r.rows == t.rows + [row.(id := t.nextId)]
  {
    ArtistTable(t.rows + [row.(id := t.nextId)], t.nextId + 1)
  }

  /** `DELETE FROM artists WHERE id = $1`. */
  function DeleteArtist(rows: seq<Artist>, id: int): (r: seq<Artist>)
    ensures forall a :: a in r <==> a in rows && a.id != id
    ensures |r| <= |rows|
  {
    if |rows| == 0 then []
    else if rows[0].id == id then DeleteArtist(rows[1..], id)
    else [rows[0]] + DeleteArtist(rows[1..], id)
  }

  /** `UPDATE artists SET ... WHERE id = $1`: every row with that id becomes `f` of itself. */
  function UpdateArtist(rows: seq<Artist>, id: int, f: Artist -> Artist): (r: seq<Artist>)
    ensures |r| == |rows|
    ensures forall i :: 0 <= i < |rows| ==> r[i] == if rows[i].id == id then f(rows[i]) else rows[i]
  {
    seq(|rows|, i requires 0 <= i < |rows| => if rows[i].id == id then f(rows[i]) else rows[i])
  }

  /** An update that keeps ids leaves the id lookup on the same row, now edited. */
  lemma ArtistByIdAfterUpdate(t: ArtistTable, id: int, f: Artist -> Artist)
    requires forall a :: f(a).id == a.id
    requires ArtistById(t, id).Some?
    ensures ArtistById(ArtistTable(UpdateArtist(t.rows, id, f), t.nextId), id) == Some(f(ArtistById(t, id).value))
  {
    var rows := UpdateArtist(t.rows, id, f);
    var p := (a: Artist) => a.id == id;
    var i := FirstWhere(t.rows, p);
    var j := FirstWhere(rows, p);
    assert forall k :: 0 <= k < |t.rows| ==> rows[k].id == t.rows[k].id;
    assert p(rows[i.value]);
    assert j.value == i.value;
  }

  /** A row appended under an id no earlier row has is what the id lookup finds. */
  lemma ArtistByIdAppend(t: ArtistTable, row: Artist)
    requires forall i :: 0 <= i < |t.rows| ==> t.rows[i].id != row.id
    ensures ArtistById(ArtistTable(t.rows + [row], t.nextId + 1), row.id) == Some(row)
  {
    var rows := t.rows + [row];
    var j := FirstWhere(rows, (a: Artist) => a.id == row.id);
    assert rows[|t.rows|] == row;
    assert j.Some?;
    assert j.value == |t.rows|;
  }

  /** A first row with another id does not take part in the lookup. */
  lemma ArtistByIdSkipsHead(rows: seq<Artist>, other: int, nextId: int)
    requires |rows| > 0 && rows[0].id != other
    ensures ArtistById(ArtistTable(rows, nextId), other) == ArtistById(ArtistTable(rows[1..], nextId), other)
  {
    var p := (a: Artist) => a.id == other;
    match FirstWhere(rows[1..], p)
    case None =>
    case Some(j) => assert rows[1..][j] == rows[j + 1];
  }

  /** Deleting the rows of one id leaves the lookup of every other id as it was. */
  lemma {:induction false} ArtistByIdAfterDelete(rows: seq<Artist>, id: int, other: int, nextId: int)
    requires other != id
    ensures ArtistById(ArtistTable(DeleteArtist(rows, id), nextId), other) == ArtistById(ArtistTable(rows, nextId), other)
  {
    if |rows| > 0 {
      var d := DeleteArtist(rows, id);
      var tail := DeleteArtist(rows[1..], id);
      if rows[0].id == other {
        assert d == [rows[0]] + tail;
        assert d[0] == rows[0];
      } else {
        ArtistByIdAfterDelete(rows[1..], id, other, nextId);
        ArtistByIdSkipsHead(rows, other, nextId);
        if rows[0].id != id {
          assert d == [rows[0]] + tail;
          assert d[1..] == tail;
          ArtistByIdSkipsHead(d, other, nextId);
        }
      }
    }
  }
}

=== FILE: client_common.dfy ===
/**
 * What the portal pages public/portal/dashboard.js and public/portal/upload.js
 * share: the artist object as the pages read it, its name fallbacks, and the
 * `/dashboard/artist/<digits>` page paths.
 */
module PortalClient {
  import opened Wrappers
  import opened Text
  import opened Numbers

  /** An artist object from the portal API, with the fields the pages read. */
  datatype ArtistView = ArtistView(
    id: Option<int>,
    firstname: Option<string>,
    lastname: Option<string>,
    carrierName: Option<string>,
    name: Option<string>,
    email: Option<string>)

  /** The `{}` the upload page falls back on when no artist came back. */
  const NoArtist: ArtistView := ArtistView(None, None, None, None, None, None)

  /**
   * `[a.firstname, a.lastname].filter(Boolean).join(' ').trim()`: the non-empty
   * names, one space between them, trimmed.
   */
  function FullName(a: ArtistView): (full: string)
    ensures !Truthy(a.firstname) && !Truthy(a.lastname) ==> full == ""
    ensures Truthy(a.firstname) && !Truthy(a.lastname) ==> full == Trim(a.firstname.value)
    ensures !Truthy(a.firstname) && Truthy(a.lastname) ==> full == Trim(a.lastname.value)
    ensures Truthy(a.firstname) && Truthy(a.lastname) ==> full == Trim(a.firstname.value + " " + a.lastname.value)
  {
    var parts := (if Truthy(a.firstname) then [a.firstname.value] else []) + (if Truthy(a.lastname) then [a.lastname.value] else []);
    Trim(if |parts| == 0 then "" else if |parts| == 1 then parts[0] else parts[0] + " " + parts[1])
  }

  /** `a.carrier_name || a.name || 'Artist'`. */
  function Carrier(a: ArtistView): (c: string)
    ensures c != ""
    ensures Truthy(a.carrierName) ==> c == a.carrierName.value
    ensures !Truthy(a.carrierName) && Truthy(a.name) ==> c == a.name.value
    ensures !Truthy(a.carrierName) && !Truthy(a.name) ==> c == "Artist"
  {
    Or(a.carrierName, Or(a.name, "Artist"))
  }

  /** JavaScript truthiness of a numeric id: present and not 0. */
  predicate IdSet(id: Option<int>) {
    id.Some? && id.value != 0
  }

  const ArtistPrefix: string := "/dashboard/artist/"

  /** `/dashboard/artist/<n>`: the page of one artist. */
  function ArtistPage(n: int): string {
    ArtistPrefix + IntToString(n)
  }

  /**
   * Whether the pattern `\/dashboard\/artist\/(\d+)` followed by `suffix`
   * matches at position `k`, and the captured digits if so. The digit run is
   * maximal: a shorter run would be followed by a digit, never by the suffix.
   */
  function MatchAt(path: string, suffix: string, k: nat): (ds: Option<string>)
    requires k <= |path|
    ensures ds.Some? ==> ds.value != [] && AllDigits(ds.value)
    ensures ds.Some? ==> StartsWith(path[k..], ArtistPrefix + ds.value + suffix)
  {
    if !StartsWith(path[k..], ArtistPrefix) then None
    else
      var rest := path[k + |ArtistPrefix|..];
      var ds := LeadingDigits(rest);
      if ds != [] && StartsWith(rest[|ds|..], suffix) then
        assert rest == ds + rest[|ds|..];
        assert path[k..] == ArtistPrefix + rest;
        Some(ds)
      else None
  }

  /** No match starts at a position in [k, j). */
  predicate NoMatchBetween(path: string, suffix: string, k: nat, j: nat)
    requires j <= |path| + 1
    decreases j - k
  {
    k >= j || (MatchAt(path, suffix, k).None? && NoMatchBetween(path, suffix, k + 1, j))
  }

  /** A range holding a match is not match-free. */
  lemma {:induction false} NoMatchBetweenAt(path: string, suffix: string, k: nat, j: nat, i: nat)
    requires j <= |path| + 1 && k <= i < j
    requires MatchAt(path, suffix, i).Some?
    ensures !NoMatchBetween(path, suffix, k, j)
    decreases i - k
  {
    if k < i {
      NoMatchBetweenAt(path, suffix, k + 1, j, i);
    }
  }

  /** The position of the leftmost match at or after `k`. */
  function MatchFrom(path: string, suffix: string, k: nat): (j: Option<nat>)
    requires k <= |path|
    ensures j.None? ==> NoMatchBetween(path, suffix, k, |path| + 1)
    ensures j.Some? ==> k <= j.value <= |path| && MatchAt(path, suffix, j.value).Some?
    ensures j.Some? ==> NoMatchBetween(path, suffix, k, j.value)
    decreases |path| - k
  {
    if MatchAt(path, suffix, k).Some? then Some(k)
    else if k == |path| then None
    else
      MatchFrom(path, suffix, k + 1)
  }

  /** `path.match(/\/dashboard\/artist\/(\d+)<suffix>/)` and then `parseInt(match[1], 10)`. */
  function ArtistIdInPath(path: string, suffix: string): (id: Option<nat>)
    ensures id.None? <==> NoMatchBetween(path, suffix, 0, |path| + 1)
    ensures id.Some? ==> exists j :: 0 <= j <= |path| && NoMatchBetween(path, suffix, 0, j) &&
                                     MatchAt(path, suffix, j).Some? &&
                                     id.value == DigitsValue(MatchAt(path, suffix, j).value)
  {
    match MatchFrom(path, suffix, 0)
    case None => None
    case Some(j) =>
      NoMatchBetweenAt(path, suffix, 0, |path| + 1, j);
      Some(DigitsValue(MatchAt(path, suffix, j).value))
  }

  /** `ArtistPrefix + ds + tail` matches at 0 with the digits `ds` when `tail` starts with the suffix and no digit. */
  lemma MatchAtStart(path: string, suffix: string, ds: string, tail: string)
    requires path == ArtistPrefix + (ds + tail)
    requires ds != [] && AllDigits(ds) && suffix <= tail && (tail == [] || !IsDigit(tail[0]))
    ensures MatchAt(path, suffix, 0) == Some(ds)
  {
    assert path[0..] == path;
    assert path[|ArtistPrefix|..] == ds + tail;
    LeadingDigitsOfConcat(ds, tail);
    assert (ds + tail)[|ds|..] == tail;
  }

  /** The page path of artist `n`, followed by the suffix or any text not starting with a digit, yields `n`. */
  lemma RenderedPathMatches(n: nat, suffix: string, tail: string)
    requires suffix <= tail && (tail == [] || !IsDigit(tail[0]))
    ensures ArtistIdInPath(ArtistPage(n) + tail, suffix) == Some(n)
  {
    var path := ArtistPage(n) + tail;
    var ds := NatToString(n);
    assert path == ArtistPrefix + (ds + tail);
    MatchAtStart(path, suffix, ds, tail);
    assert MatchFrom(path, suffix, 0) == Some(0);
  }
}

=== FILE: dashboard.dfy ===
/**
 * public/portal/dashboard.js: the song search box, the administrator's artist
 * list labels, the role label and the choice between the admin and artist views.
 */
module Dashboard {
  import opened Wrappers
  import opened Text
  import opened Numbers
  import opened Access
  import opened PortalClient
  import Portal

  /** A song object from the portal API, with the fields the search reads. */
  datatype SongView = SongView(title: Option<string>, artist: Option<string>, album: Option<string>, genre: Option<string>)

  /** `s.f && s.f.toLowerCase().indexOf(q) !== -1`: absent and empty fields never match. */
  predicate Hit(field: Option<string>, q: string) {
    Truthy(field) && Contains(Lower(field.value), q)
  }

  /** A song matches when the lowered query occurs in its title, artist, album or genre. */
  predicate Keep(s: SongView, q: string) {
    Hit(s.title, q) || Hit(s.artist, q) || Hit(s.album, q) || Hit(s.genre, q)
  }

  /** `!query || !query.trim()`: an absent, empty or blank query. */
  predicate Blank(query: Option<string>) {
    !Truthy(query) || Trim(query.value) == ""
  }

  /** `a` can be obtained from `b` by deleting elements, without reordering. */
  predicate SubsequenceOf<T(==)>(a: seq<T>, b: seq<T>)
    decreases |b|
  {
    if b == [] then a == []
    else SubsequenceOf(a, b[1..]) || (a != [] && a[0] == b[0] && SubsequenceOf(a[1..], b[1..]))
  }

  /** `songs.filter(...)`: the songs that match, in their order. */
  function Select(songs: seq<SongView>, q: string): (r: seq<SongView>)
    ensures |r| <= |songs|
    ensures forall s :: s in r <==> s in songs && Keep(s, q)
    ensures forall s :: multiset(r)[s] == if Keep(s, q) then multiset(songs)[s] else 0
  {
    if songs == [] then []
    else
      assert songs == [songs[0]] + songs[1..];
      (if Keep(songs[0], q) then [songs[0]] else []) + Select(songs[1..], q)
  }

  lemma {:induction false} SelectIsSubsequence(songs: seq<SongView>, q: string)
    ensures SubsequenceOf(Select(songs, q), songs)
  {
    if songs != [] {
      SelectIsSubsequence(songs[1..], q);
      var r := Select(songs, q);
      if Keep(songs[0], q) {
        assert r[0] == songs[0] && r[1..] == Select(songs[1..], q);
      } else {
        assert r == Select(songs[1..], q);
      }
    }
  }

  lemma {:induction false} SelectIdempotent(songs: seq<SongView>, q: string)
    ensures Select(Select(songs, q), q) == Select(songs, q)
  {
    if songs != [] {
      SelectIdempotent(songs[1..], q);
      var r := Select(songs, q);
      if Keep(songs[0], q) {
        assert r == [songs[0]] + Select(songs[1..], q);
        assert r[0] == songs[0] && r[1..] == Select(songs[1..], q);
        assert Select(r, q) == [songs[0]] + Select(r[1..], q);
      } else {
        assert r == Select(songs[1..], q);
      }
    }
  }

  /** `filterSongs(songs, query)`. */
  function FilterSongs(songs: seq<SongView>, query: Option<string>): (r: seq<SongView>)
    ensures Blank(query) ==> r == songs
    ensures SubsequenceOf(r, songs)
    ensures !Blank(query) ==> forall s :: s in r <==> s in songs && Keep(s, Lower(Trim(query.value)))
    ensures !Blank(query) ==> forall s ::
      multiset(r)[s] == if Keep(s, Lower(Trim(query.value))) then multiset(songs)[s] else 0
  {
    if Blank(query) then
      SelectIsSubsequence(songs, "");
      SubsequenceOfSelf(songs);
      songs
    else
      var q := Lower(Trim(query.value));
      SelectIsSubsequence(songs, q);
      Select(songs, q)
  }

  lemma {:induction false} SubsequenceOfSelf<T>(s: seq<T>)
    ensures SubsequenceOf(s, s)
  {
    if s != [] {
      SubsequenceOfSelf(s[1..]);
    }
  }

  /** Searching twice with the same query shows what searching once shows. */
  lemma FilterIdempotent(songs: seq<SongView>, query: Option<string>)
    ensures FilterSongs(FilterSongs(songs, query), query) == FilterSongs(songs, query)
  {
    if !Blank(query) {
      SelectIdempotent(songs, Lower(Trim(query.value)));
    }
  }

  /** The search ignores case and surrounding spaces in the query. */
  lemma {:induction false} FilterIgnoresQueryCase(songs: seq<SongView>, query: string)
    requires Trim(query) != ""
    ensures FilterSongs(songs, Some(query)) == FilterSongs(songs, Some(Lower(Trim(query))))
  {
    var t := Trim(query);
    var q := Lower(t);
    TrimmedEnds(query);
    TrimOfLower(t);
    assert Trim(q) == q;
    LowerIdempotent(t);
    assert Lower(Trim(q)) == q;
    assert |q| == |t| > 0;
    FilterNonBlank(songs, query);
    FilterNonBlank(songs, q);
  }

  lemma FilterNonBlank(songs: seq<SongView>, query: string)
    requires Trim(query) != ""
    ensures FilterSongs(songs, Some(query)) == Select(songs, Lower(Trim(query)))
  {
    assert |Trim(query)| <= |query|;
    assert !Blank(Some(query));
  }

  /** A song with none of the four fields is dropped by every real search. */
  lemma BareSongNeverMatches(query: string)
    requires Trim(query) != ""
    ensures FilterSongs([SongView(None, None, None, None)], Some(query)) == []
  {
    var bare := [SongView(None, None, None, None)];
    FilterNonBlank(bare, query);
    assert !Keep(bare[0], Lower(Trim(query)));
    assert Select(bare[1..], Lower(Trim(query))) == [];
  }

  /**
   * The label of an artist in the administrator's list: the full name with the
   * carrier name in parentheses, or the carrier name alone, then " – email".
   */
  function LinkLabel(a: ArtistView): (caption: string)
    ensures caption != ""
    ensures NameOf(a) <= caption
    ensures Truthy(a.email) ==> caption[|NameOf(a)|..] == " – " + a.email.value
    ensures !Truthy(a.email) ==> caption == NameOf(a)
  {
    if Truthy(a.email) then NameOf(a) + (" – " + a.email.value) else NameOf(a)
  }

  /** The name part of a list label: the full name with the carrier name in parentheses, or the carrier name. */
  function NameOf(a: ArtistView): (name: string)
    ensures name != ""
    ensures FullName(a) != "" ==> FullName(a) <= name && name[|FullName(a)|..] == " (" + Carrier(a) + ")"
    ensures FullName(a) == "" ==> name == Carrier(a)
  {
    var full := FullName(a);
    if full != "" then full + (" (" + Carrier(a) + ")") else Carrier(a)
  }

  /** `me.role === 'administrator' ? 'Admin' : 'Artist'`. */
  function RoleLabel(role: string): (caption: string)
    ensures caption == "Admin" <==> role == "administrator"
    ensures caption != "Admin" ==> caption == "Artist"
  {
    if role == Administrator then "Admin" else "Artist"
  }

  /** The dashboard says "Admin" exactly for the callers the server's admin gate lets through. */
  lemma RoleLabelMatchesAdminGate(user: Claims)
    ensures RoleLabel(Portal.GetMe(user).role) == "Admin" <==> RequireAdmin(Some(user)) == Allow
  {
  }

  /** `path.match(/\/dashboard\/artist\/(\d+)/)` and `parseInt(artistMatch[1], 10)`. */
  function DashboardArtistId(path: string): (id: Option<nat>)
    ensures id.None? <==> NoMatchBetween(path, "", 0, |path| + 1)
    ensures id.Some? ==> exists j :: 0 <= j <= |path| && NoMatchBetween(path, "", 0, j) &&
                                     MatchAt(path, "", j).Some? &&
                                     id.value == DigitsValue(MatchAt(path, "", j).value)
  {
    ArtistIdInPath(path, "")
  }

  /** The admin view (artist list) shows for administrators outside any artist page. */
  function ShowAdminView(role: string, path: string): (admin: bool)
    ensures admin <==> role == "administrator" && NoMatchBetween(path, "", 0, |path| + 1)
  {
    role == Administrator && DashboardArtistId(path).None?
  }

  /** An administrator opening an artist's page sees that artist's songs, not the list. */
  lemma ArtistPageShowsArtist(n: nat, rest: string)
    requires rest == [] || !IsDigit(rest[0])
    ensures DashboardArtistId(ArtistPage(n) + rest) == Some(n)
    ensures !ShowAdminView("administrator", ArtistPage(n) + rest)
  {
    RenderedPathMatches(n, "", rest);
  }

  /** The "Add song" link: the artist's upload page when an artist id is set, else the own one. */
  function AddSongHref(currentArtistId: Option<nat>): (href: string)
    ensures IdSet(currentArtistId) ==> href == ArtistPage(currentArtistId.value) + "/upload"
    ensures !IdSet(currentArtistId) ==> href == "/dashboard/upload"
  {
    if IdSet(currentArtistId) then ArtistPrefix + IntToString(currentArtistId.value) + "/upload"
    else "/dashboard/upload"
  }
}

=== FILE: engagement.dfy ===
/**
 * routes/engagement.js: likes and dislikes per (user, song), play counts,
 * the combined engagement status, comments, and the count routes.
 */
module Engagement {
  import opened Wrappers
  import opened Text
  import opened Numbers
  import opened Http
  import opened Access
  import opened Catalog
  import opened Accounts

  /** A recorded play: the song and the listener, None for an anonymous play. */
  datatype Play = Play(songId: int, userId: Option<int>)

  datatype Comment = Comment(songId: int, userId: int, text: string)

  /**
   * The engagement tables. `song_likes` and `song_dislikes` hold (user_id, song_id)
   * pairs under a unique constraint, so they are sets; plays and comments are
   * kept in insertion order.
   */
  datatype Store = Store(
    likes: set<(int, int)>,
    dislikes: set<(int, int)>,
    plays: seq<Play>,
    comments: seq<Comment>)

  /** No (user, song) pair is both liked and disliked. */
  ghost predicate Exclusive(s: Store) {
    forall k :: k in s.likes ==> k !in s.dislikes
  }

  /** `SELECT COUNT(*) FROM song_likes WHERE song_id = $1` (and the same for dislikes). */
  function PairCount(pairs: set<(int, int)>, songId: int): nat {
    |set k | k in pairs && k.1 == songId|
  }

  /** `SELECT COUNT(*) FROM song_plays WHERE song_id = $1`. */
  function PlayCount(plays: seq<Play>, songId: int): nat {
    if |plays| == 0 then 0
    else PlayCount(plays[..|plays| - 1], songId) + (if plays[|plays| - 1].songId == songId then 1 else 0)
  }

  /** `SELECT COUNT(*) FROM song_comments WHERE song_id = $1`. */
  function CommentCount(comments: seq<Comment>, songId: int): nat {
    if |comments| == 0 then 0
    else CommentCount(comments[..|comments| - 1], songId) + (if comments[|comments| - 1].songId == songId then 1 else 0)
  }

  /** The answer of the four like/dislike routes. */
  datatype Reaction = Reaction(songId: int, userId: int, set_: bool, likeCount: nat, dislikeCount: nat)

  const InvalidSongId: Reply := Reply(400, "Invalid song ID")
  const SongNotFound: Reply := Reply(404, "Song not found")

  function ReactionOf(s: Store, songId: int, userId: int, flag: bool): Reaction {
    Reaction(songId, userId, flag, PairCount(s.likes, songId), PairCount(s.dislikes, songId))
  }

  /** POST /api/songs/:songId/like: drop any dislike, then insert the like unless present. */
  function PostLike(s: Store, songs: SongTable, user: Claims, param: string): (r: Step<Reaction, Store>)
    ensures ParseInt(param).None? ==> r == Step(Failed(InvalidSongId), s)
    ensures ParseInt(param).Some? && !SongExists(songs, ParseInt(param).value) ==> r == Step(Failed(SongNotFound), s)
    ensures r.answer.Done? <==> ParseInt(param).Some? && SongExists(songs, ParseInt(param).value)
    ensures r.answer.Done? ==>
      var k := (user.userId, ParseInt(param).value);
      && r.answer.status == 201 && r.answer.body.set_
      && k in r.state.likes && k !in r.state.dislikes
      && r.state == s.(likes := s.likes + {k}, dislikes := s.dislikes - {k})
      && r.answer.body.songId == k.1 && r.answer.body.userId == k.0
      && r.answer.body.likeCount == PairCount(r.state.likes, k.1)
      && r.answer.body.dislikeCount == PairCount(r.state.dislikes, k.1)
  {
    match ParseInt(param)
    case None => Step(Failed(InvalidSongId), s)
    case Some(songId) =>
      if !SongExists(songs, songId) then Step(Failed(SongNotFound), s)
      else
        var k := (user.userId, songId);
        var s' := s.(likes := s.likes + {k}, dislikes := s.dislikes - {k});
        Step(Done(Created, ReactionOf(s', songId, user.userId, true)), s')
  }

  /** POST /api/songs/:songId/dislike: the mirror image of liking. */
  function PostDislike(s: Store, songs: SongTable, user: Claims, param: string): (r: Step<Reaction, Store>)
    ensures ParseInt(param).None? ==> r == Step(Failed(InvalidSongId), s)
    ensures ParseInt(param).Some? && !SongExists(songs, ParseInt(param).value) ==> r == Step(Failed(SongNotFound), s)
    ensures r.answer.Done? <==> ParseInt(param).Some? && SongExists(songs, ParseInt(param).value)
    ensures r.answer.Done? ==>
      var k := (user.userId, ParseInt(param).value);
      && r.answer.status == 201 && r.answer.body.set_
      && k in r.state.dislikes && k !in r.state.likes
      && r.state == s.(likes := s.likes - {k}, dislikes := s.dislikes + {k})
      && r.answer.body.songId == k.1 && r.answer.body.userId == k.0
      && r.answer.body.likeCount == PairCount(r.state.likes, k.1)
      && r.answer.body.dislikeCount == PairCount(r.state.dislikes, k.1)
  {
    match ParseInt(param)
    case None => Step(Failed(InvalidSongId), s)
    case Some(songId) =>
      if !SongExists(songs, songId) then Step(Failed(SongNotFound), s)
      else
        var k := (user.userId, songId);
        var s' := s.(likes := s.likes - {k}, dislikes := s.dislikes + {k});
        Step(Done(Created, ReactionOf(s', songId, user.userId, true)), s')
  }

  /**
   * DELETE /api/songs/:songId/like: removes only that pair from the likes.
   * There is no song-existence check, so the route takes no song table.
   */
  function DeleteLike(s: Store, user: Claims, param: string): (r: Step<Reaction, Store>)
    ensures ParseInt(param).None? ==> r == Step(Failed(InvalidSongId), s)
    ensures ParseInt(param).Some? ==>
      var k := (user.userId, ParseInt(param).value);
      && r.answer.Done? && r.answer.status == 200 && !r.answer.body.set_
      && r.state == s.(likes := s.likes - {k})
      && k !in r.state.likes
      && r.answer.body.songId == k.1 && r.answer.body.userId == k.0
      && r.answer.body.likeCount == PairCount(r.state.likes, k.1)
      && r.answer.body.dislikeCount == PairCount(s.dislikes, k.1)
  {
    match ParseInt(param)
    case None => Step(Failed(InvalidSongId), s)
    case Some(songId) =>
      var s' := s.(likes := s.likes - {(user.userId, songId)});
      Step(Done(OK, ReactionOf(s', songId, user.userId, false)), s')
  }

  /** DELETE /api/songs/:songId/dislike: removes only that pair from the dislikes. */
  function DeleteDislike(s: Store, user: Claims, param: string): (r: Step<Reaction, Store>)
    ensures ParseInt(param).None? ==> r == Step(Failed(InvalidSongId), s)
    ensures ParseInt(param).Some? ==>
      var k := (user.userId, ParseInt(param).value);
      && r.answer.Done? && r.answer.status == 200 && !r.answer.body.set_
      && r.state == s.(dislikes := s.dislikes - {k})
      && k !in r.state.dislikes
      && r.answer.body.songId == k.1 && r.answer.body.userId == k.0
      && r.answer.body.likeCount == PairCount(s.likes, k.1)
      && r.answer.body.dislikeCount == PairCount(r.state.dislikes, k.1)
  {
    match ParseInt(param)
    case None => Step(Failed(InvalidSongId), s)
    case Some(songId) =>
      var s' := s.(dislikes := s.dislikes - {(user.userId, songId)});
      Step(Done(OK, ReactionOf(s', songId, user.userId, false)), s')
  }

  /** None of the four reaction routes ever puts a pair in both likes and dislikes. */
  lemma ReactionsKeepExclusive(s: Store, songs: SongTable, user: Claims, param: string)
    requires Exclusive(s)
    ensures Exclusive(PostLike(s, songs, user, param).state)
    ensures Exclusive(PostDislike(s, songs, user, param).state)
    ensures Exclusive(DeleteLike(s, user, param).state)
    ensures Exclusive(DeleteDislike(s, user, param).state)
  {
  }

  /** Liking or disliking twice leaves the store as liking or disliking once. */
  lemma ReactionsIdempotent(s: Store, songs: SongTable, user: Claims, param: string)
    ensures var once := PostLike(s, songs, user, param).state;
      PostLike(once, songs, user, param).state == once
    ensures var once := PostDislike(s, songs, user, param).state;
      PostDislike(once, songs, user, param).state == once
  {
    if ParseInt(param).Some? && SongExists(songs, ParseInt(param).value) {
      var k := (user.userId, ParseInt(param).value);
      var liked := PostLike(s, songs, user, param).state;
      assert liked == s.(likes := s.likes + {k}, dislikes := s.dislikes - {k});
      assert PostLike(liked, songs, user, param).state == liked.(likes := liked.likes + {k}, dislikes := liked.dislikes - {k});
      var disliked := PostDislike(s, songs, user, param).state;
      assert disliked == s.(likes := s.likes - {k}, dislikes := s.dislikes + {k});
      assert PostDislike(disliked, songs, user, param).state == disliked.(likes := disliked.likes - {k}, dislikes := disliked.dislikes + {k});
    }
  }

  /** Un-liking a song id that names no song still succeeds. */
  lemma UnlikeNeedsNoSong(s: Store, songs: SongTable, user: Claims, id: int)
    requires !SongExists(songs, id)
    ensures DeleteLike(s, user, IntToString(id)).answer.Done?
    ensures DeleteDislike(s, user, IntToString(id)).answer.Done?
  {
    ParseIntRendered(id, "");
    assert IntToString(id) + "" == IntToString(id);
  }

  /** Removing one pair lowers its song's count by one when the pair was there, else not at all. */
  lemma PairCountRemove(pairs: set<(int, int)>, k: (int, int))
    ensures PairCount(pairs - {k}, k.1) + (if k in pairs then 1 else 0) == PairCount(pairs, k.1)
  {
    var before := set x | x in pairs && x.1 == k.1;
    var after := set x | x in pairs - {k} && x.1 == k.1;
    assert after == before - {k};
    if k in pairs {
      assert before == after + {k};
    } else {
      assert after == before;
    }
  }

  /**
   * An un-like answers the count of likes left: one fewer when the caller had liked
   * the song, the same otherwise. Un-disliking is the mirror image.
   */
  lemma UnreactCounted(s: Store, user: Claims, param: string)
    requires ParseInt(param).Some?
    ensures var k := (user.userId, ParseInt(param).value);
      DeleteLike(s, user, param).answer.body.likeCount + (if k in s.likes then 1 else 0) == PairCount(s.likes, k.1)
    ensures var k := (user.userId, ParseInt(param).value);
      DeleteDislike(s, user, param).answer.body.dislikeCount + (if k in s.dislikes then 1 else 0) == PairCount(s.dislikes, k.1)
  {
    var k := (user.userId, ParseInt(param).value);
    PairCountRemove(s.likes, k);
    PairCountRemove(s.dislikes, k);
  }

  /** Appending a play adds one to that song's count and nothing to any other song's. */
  lemma PlayCountAppend(plays: seq<Play>, p: Play, songId: int)
    ensures PlayCount(plays + [p], songId) == PlayCount(plays, songId) + (if p.songId == songId then 1 else 0)
  {
    assert (plays + [p])[..|plays|] == plays;
  }

  /** The answer of POST /api/songs/:songId/play. */
  datatype PlayRecorded = PlayRecorded(songId: int, playCount: nat)

  /** `req.user?.userId ?? null`: the listener of a play, None when anonymous. */
  function PlayerOf(user: Option<Claims>): (u: Option<int>)
    ensures u.Some? <==> user.Some?
    ensures u.Some? ==> u.value == user.value.userId
  {
    if user.Some? then Some(user.value.userId) else None
  }

  /** POST /api/songs/:songId/play (token optional): appends one play. */
  function RecordPlay(s: Store, songs: SongTable, user: Option<Claims>, param: string): (r: Step<PlayRecorded, Store>)
    ensures ParseInt(param).None? ==> r == Step(Failed(InvalidSongId), s)
    ensures ParseInt(param).Some? && !SongExists(songs, ParseInt(param).value) ==> r == Step(Failed(SongNotFound), s)
    ensures r.answer.Done? <==> ParseInt(param).Some? && SongExists(songs, ParseInt(param).value)
    ensures r.answer.Done? ==>
      var id := ParseInt(param).value;
      && r.answer.status == 201
      && r.state == s.(plays := s.plays + [Play(id, PlayerOf(user))])
      && PlayCount(r.state.plays, id) == PlayCount(s.plays, id) + 1
      && (forall other :: other != id ==> PlayCount(r.state.plays, other) == PlayCount(s.plays, other))
      && r.answer.body.songId == id
      && r.answer.body.playCount == PlayCount(r.state.plays, id)
  {
    match ParseInt(param)
    case None => Step(Failed(InvalidSongId), s)
    case Some(songId) =>
      if !SongExists(songs, songId) then Step(Failed(SongNotFound), s)
      else
        var p := Play(songId, PlayerOf(user));
        var s' := s.(plays := s.plays + [p]);
        PlayCountAppend(s.plays, p, songId);
        assert forall other :: other != songId ==> PlayCount(s'.plays, other) == PlayCount(s.plays, other) by {
          forall other | other != songId {
            PlayCountAppend(s.plays, p, other);
          }
        }
        Step(Done(Created, PlayRecorded(songId, PlayCount(s'.plays, songId))), s')
  }

  /** The answer of GET /api/songs/:songId/engagement/status. */
  datatype Status = Status(
    songId: int,
    userId: Option<int>,
    isLiked: bool,
    isDisliked: bool,
    likeCount: nat,
    dislikeCount: nat,
    commentCount: nat,
    playCount: nat)

  /** GET /api/songs/:songId/engagement/status (token optional); `if (userId)` treats id 0 as anonymous. */
  function EngagementStatus(s: Store, songs: SongTable, user: Option<Claims>, param: string): (r: Answer<Status>)
    ensures ParseInt(param).None? ==> r == Failed(InvalidSongId)
    ensures ParseInt(param).Some? && !SongExists(songs, ParseInt(param).value) ==> r == Failed(SongNotFound)
    ensures r.Done? <==> ParseInt(param).Some? && SongExists(songs, ParseInt(param).value)
    ensures r.Done? ==>
      var id := ParseInt(param).value;
      var b := r.body;
      && r.status == 200 && b.songId == id && b.userId == PlayerOf(user)
      && (b.isLiked <==> user.Some? && user.value.userId != 0 && (user.value.userId, id) in s.likes)
      && (b.isDisliked <==> user.Some? && user.value.userId != 0 && (user.value.userId, id) in s.dislikes)
      && b.likeCount == PairCount(s.likes, id) && b.dislikeCount == PairCount(s.dislikes, id)
      && b.commentCount == CommentCount(s.comments, id) && b.playCount == PlayCount(s.plays, id)
  {
    match ParseInt(param)
    case None => Failed(InvalidSongId)
    case Some(songId) =>
      if !SongExists(songs, songId) then Failed(SongNotFound)
      else
        var userId := PlayerOf(user);
        var known := userId.Some? && userId.value != 0;
        var isLiked := known && (userId.value, songId) in s.likes;
        var isDisliked := known && (userId.value, songId) in s.dislikes;
        Done(OK, Status(songId, userId, isLiked, isDisliked, PairCount(s.likes, songId),
                        PairCount(s.dislikes, songId), CommentCount(s.comments, songId), PlayCount(s.plays, songId)))
  }

  /** Without an identity, nothing is reported as liked or disliked; with one, never both. */
  lemma StatusFlags(s: Store, songs: SongTable, user: Option<Claims>, param: string)
    requires EngagementStatus(s, songs, user, param).Done?
    ensures user.None? ==> !EngagementStatus(s, songs, user, param).body.isLiked
    ensures user.None? ==> !EngagementStatus(s, songs, user, param).body.isDisliked
    ensures Exclusive(s) ==>
      !(EngagementStatus(s, songs, user, param).body.isLiked && EngagementStatus(s, songs, user, param).body.isDisliked)
  {
  }

  /** Which table a GET .../count route counts. */
  datatype Tally = Plays | Likes | Dislikes | Comments

  /** The count a tally route reports for one song. */
  function Tallied(s: Store, what: Tally, songId: int): nat {
    match what
    case Plays => PlayCount(s.plays, songId)
    case Likes => PairCount(s.likes, songId)
    case Dislikes => PairCount(s.dislikes, songId)
    case Comments => CommentCount(s.comments, songId)
  }

  /** GET /api/songs/:songId/{plays,likes,dislikes,comments}/count. */
  function CountRoute(s: Store, songs: SongTable, what: Tally, param: string): (r: Answer<nat>)
    ensures ParseInt(param).None? ==> r == Failed(InvalidSongId)
    ensures ParseInt(param).Some? && !SongExists(songs, ParseInt(param).value) ==> r == Failed(SongNotFound)
    ensures r.Done? <==> ParseInt(param).Some? && SongExists(songs, ParseInt(param).value)
    ensures r.Done? ==> r.status == 200
    ensures r.Done? ==> r.body == Tallied(s, what, ParseInt(param).value)
  {
    match ParseInt(param)
    case None => Failed(InvalidSongId)
    case Some(songId) =>
      if !SongExists(songs, songId) then Failed(SongNotFound)
      else Done(OK, Tallied(s, what, songId))
  }

  /** GET /api/songs/:songId/likes/status (token required). */
  function LikeStatus(s: Store, songs: SongTable, user: Claims, param: string): (r: Answer<bool>)
    ensures ParseInt(param).None? ==> r == Failed(InvalidSongId)
    ensures ParseInt(param).Some? && !SongExists(songs, ParseInt(param).value) ==> r == Failed(SongNotFound)
    ensures r.Done? <==> ParseInt(param).Some? && SongExists(songs, ParseInt(param).value)
    ensures r.Done? ==> r.status == 200 && (r.body <==> (user.userId, ParseInt(param).value) in s.likes)
  {
    match ParseInt(param)
    case None => Failed(InvalidSongId)
    case Some(songId) =>
      if !SongExists(songs, songId) then Failed(SongNotFound)
      else Done(OK, (user.userId, songId) in s.likes)
  }

  /** The comment's author still has a row in `users`, so the listing's join keeps it. */
  predicate Authored(users: UserTable, c: Comment) {
    UserById(users, c.userId).Some?
  }

  /**
   * The comments on one song that the listing returns, newest first
   * (`ORDER BY created_at DESC` over `song_comments JOIN users`).
   */
  function CommentsOf(comments: seq<Comment>, users: UserTable, songId: int): (r: seq<Comment>)
    ensures |r| <= CommentCount(comments, songId)
    ensures (forall c :: c in comments ==> Authored(users, c)) ==> |r| == CommentCount(comments, songId)
    ensures forall c :: c in r <==> c in comments && c.songId == songId && Authored(users, c)
  {
    if |comments| == 0 then []
    else
      var last := comments[|comments| - 1];
      var rest := CommentsOf(comments[..|comments| - 1], users, songId);
      assert forall c :: c in comments <==> c in comments[..|comments| - 1] || c == last by {
        assert comments == comments[..|comments| - 1] + [last];
      }
      if last.songId == songId && Authored(users, last) then [last] + rest else rest
  }

  /** The answer of GET /api/songs/:songId/comments. */
  datatype CommentList = CommentList(songId: int, totalComments: nat, comments: seq<Comment>)

  /**
   * GET /api/songs/:songId/comments: the total is counted separately from the
   * listing, so it equals the number listed whenever every author still exists.
   */
  function ListComments(s: Store, songs: SongTable, users: UserTable, param: string): (r: Answer<CommentList>)
    ensures ParseInt(param).None? ==> r == Failed(InvalidSongId)
    ensures ParseInt(param).Some? && !SongExists(songs, ParseInt(param).value) ==> r == Failed(SongNotFound)
    ensures r.Done? <==> ParseInt(param).Some? && SongExists(songs, ParseInt(param).value)
    ensures r.Done? ==>
      && r.status == 200 && r.body.songId == ParseInt(param).value
      && r.body.totalComments == CommentCount(s.comments, ParseInt(param).value)
      && |r.body.comments| <= r.body.totalComments
      && ((forall c :: c in s.comments ==> Authored(users, c)) ==> r.body.totalComments == |r.body.comments|)
      && forall c :: c in r.body.comments <==> c in s.comments && c.songId == ParseInt(param).value && Authored(users, c)
  {
    match ParseInt(param)
    case None => Failed(InvalidSongId)
    case Some(songId) =>
      if !SongExists(songs, songId) then Failed(SongNotFound)
      else Done(OK, CommentList(songId, CommentCount(s.comments, songId), CommentsOf(s.comments, users, songId)))
  }

  /** The answer of POST /api/songs/:songId/comments. */
  datatype CommentAdded = CommentAdded(songId: int, userId: int, username: string, text: string)

  /**
   * POST /api/songs/:songId/comments: the id, then the text (present, a string,
   * not blank), then the song; the stored text is the trimmed input.
   */
  function AddComment(s: Store, songs: SongTable, users: UserTable, user: Claims, param: string, text: BodyField): (r: Step<CommentAdded, Store>)
    ensures ParseInt(param).None? ==> r == Step(Failed(InvalidSongId), s)
    ensures ParseInt(param).Some? && (text.Absent? || text.NonString? || text == Str("")) ==>
      r == Step(Failed(Reply(400, "commentText is required")), s)
    ensures ParseInt(param).Some? && text.Str? && text.s != "" && AllSpace(text.s) ==>
      r == Step(Failed(Reply(400, "Comment cannot be empty")), s)
    ensures ParseInt(param).Some? && text.Str? && !AllSpace(text.s) && !SongExists(songs, ParseInt(param).value) ==>
      r == Step(Failed(SongNotFound), s)
    ensures r.answer.Done? <==>
      ParseInt(param).Some? && text.Str? && !AllSpace(text.s) && SongExists(songs, ParseInt(param).value)
    ensures r.answer.Done? ==>
      && r.answer.body.username != ""
      && (UserById(users, user.userId).Some? && UserById(users, user.userId).value.username != "" ==>
            r.answer.body.username == UserById(users, user.userId).value.username)
      && (UserById(users, user.userId).None? || UserById(users, user.userId).value.username == "" ==>
            r.answer.body.username == "user")
      && r.answer.body.songId == ParseInt(param).value && r.answer.body.userId == user.userId
    ensures r.answer.Done? ==>
      var id := ParseInt(param).value;
      && text.Str? && !AllSpace(text.s) && SongExists(songs, id)
      && r.answer.status == 201
      && r.answer.body.text == Trim(text.s) && r.answer.body.text != ""
      && SpacePadded(text.s, r.answer.body.text)
      && r.state == s.(comments := s.comments + [Comment(id, user.userId, Trim(text.s))])
      && CommentCount(r.state.comments, id) == CommentCount(s.comments, id) + 1
  {
    match ParseInt(param)
    case None => Step(Failed(InvalidSongId), s)
    case Some(songId) =>
      if !text.Str? || text.s == "" then Step(Failed(Reply(BadRequest, "commentText is required")), s)
      else
        var trimmed := Trim(text.s);
        if |trimmed| == 0 then Step(Failed(Reply(BadRequest, "Comment cannot be empty")), s)
        else if !SongExists(songs, songId) then Step(Failed(SongNotFound), s)
        else
          var username := match UserById(users, user.userId)
            case Some(u) => if u.username != "" then u.username else "user"
            case None => "user";
          var c := Comment(songId, user.userId, trimmed);
          assert (s.comments + [c])[..|s.comments|] == s.comments;
          Step(Done(Created, CommentAdded(songId, user.userId, username, trimmed)), s.(comments := s.comments + [c]))
  }

  /** Each count route reports the same number as the combined status route, and fails exactly when it does. */
  lemma CountRouteAgreesWithStatus(s: Store, songs: SongTable, user: Option<Claims>, param: string)
    ensures CountRoute(s, songs, Plays, param).Done? <==> EngagementStatus(s, songs, user, param).Done?
    ensures EngagementStatus(s, songs, user, param).Done? ==>
      var b := EngagementStatus(s, songs, user, param).body;
      && CountRoute(s, songs, Plays, param).body == b.playCount
      && CountRoute(s, songs, Likes, param).body == b.likeCount
      && CountRoute(s, songs, Dislikes, param).body == b.dislikeCount
      && CountRoute(s, songs, Comments, param).body == b.commentCount
  {
  }

  /** The like flag of /likes/status is the status route's isLiked for a caller with a truthy id. */
  lemma LikeStatusAgreesWithStatus(s: Store, songs: SongTable, user: Claims, param: string)
    requires user.userId != 0
    ensures LikeStatus(s, songs, user, param).Done? <==> EngagementStatus(s, songs, Some(user), param).Done?
    ensures LikeStatus(s, songs, user, param).Done? ==>
      LikeStatus(s, songs, user, param).body == EngagementStatus(s, songs, Some(user), param).body.isLiked
  {
  }

  /** A comment by an existing author appended for a listed song is listed for it. */
  lemma AppendedCommentListed(s: Store, songs: SongTable, users: UserTable, param: string, c: Comment)
    requires ParseInt(param).Some? && SongExists(songs, ParseInt(param).value)
    requires c.songId == ParseInt(param).value && Authored(users, c)
    ensures var l := ListComments(s.(comments := s.comments + [c]), songs, users, param);
      l.Done? && c in l.body.comments
  {
    assert c in s.comments + [c];
  }

  /** A comment appended for a song adds one to that song's count as the count route reports it. */
  lemma AppendedCommentCounted(s: Store, songs: SongTable, param: string, c: Comment)
    requires ParseInt(param).Some? && SongExists(songs, ParseInt(param).value)
    requires c.songId == ParseInt(param).value
    ensures CountRoute(s.(comments := s.comments + [c]), songs, Comments, param).body == CountRoute(s, songs, Comments, param).body + 1
  {
    var s' := s.(comments := s.comments + [c]);
    CommentCountAppend(s.comments, c);
    assert CountRoute(s', songs, Comments, param).body == CommentCount(s'.comments, c.songId);
    assert CountRoute(s, songs, Comments, param).body == CommentCount(s.comments, c.songId);
  }

  /** Appending a comment adds one to its own song's count. */
  lemma CommentCountAppend(comments: seq<Comment>, c: Comment)
    ensures CommentCount(comments + [c], c.songId) == CommentCount(comments, c.songId) + 1
  {
    var m := comments + [c];
    assert m[..|m| - 1] == comments;
  }

  /**
   * A comment posted by an existing user then shows up in the song's listing,
   * and the song's comment count, as the count route reports it, is one higher.
   */
  lemma AddedCommentIsListed(s: Store, songs: SongTable, users: UserTable, user: Claims, param: string, text: BodyField)
    requires UserById(users, user.userId).Some?
    requires AddComment(s, songs, users, user, param, text).answer.Done?
    ensures var r := AddComment(s, songs, users, user, param, text);
      && ListComments(r.state, songs, users, param).Done?
      && Comment(ParseInt(param).value, user.userId, r.answer.body.text) in ListComments(r.state, songs, users, param).body.comments
    ensures var r := AddComment(s, songs, users, user, param, text);
      CountRoute(r.state, songs, Comments, param).body == CountRoute(s, songs, Comments, param).body + 1
  {
    var r := AddComment(s, songs, users, user, param, text);
    var c := Comment(ParseInt(param).value, user.userId, r.answer.body.text);
    assert r.state == s.(comments := s.comments + [c]);
    AppendedCommentListed(s, songs, users, param, c);
    AppendedCommentCounted(s, songs, param, c);
  }
}

=== FILE: http.dfy ===
/** Status codes and the shapes of route answers shared by every router. */
module Http {

  const OK: nat := 200
  const Created: nat := 201
  const NoContent: nat := 204
  const BadRequest: nat := 400
  const Unauthorized: nat := 401
  const Forbidden: nat := 403
  const NotFound: nat := 404
  const ServerError: nat := 500

  /** A terminal answer: a status code and the `message` (or `error`) field of the JSON body. */
  datatype Reply = Reply(status: nat, message: string)

  /** What a route handler answers: a success status with a body, or a terminal reply. */
  datatype Answer<B> = Done(status: nat, body: B) | Failed(reply: Reply) {
    function Status(): nat {
      match this
      case Done(s, _) => s
      case Failed(r) => r.status
    }
  }

  /** A JSON body field: absent, a string, or some other JSON value. */
  datatype BodyField = Absent | Str(s: string) | NonString

  /** A route that reads and writes a store: the answer and the store afterwards. */
  datatype Step<B, S> = Step(answer: Answer<B>, state: S)
}

=== FILE: login_page.dfy ===
/**
 * public/portal/login.js: what the portal's login form does with the answer
 * of POST /api/auth/login: show an error, or store the token and user and
 * enter the dashboard.
 */
module LoginPage {
  import opened Wrappers
  import opened Text
  import opened Http
  import opened Access
  import opened Accounts
  import AuthRoutes

  /** The `user` object of a login answer, as far as the page reads it. */
  datatype LoginUser = LoginUser(role: Option<string>)

  /** The parsed login answer: `r.ok`, and the `message`, `token` and `user` fields of its body. */
  datatype LoginReply = LoginReply(ok: bool, message: Option<string>, token: Option<string>, user: Option<LoginUser>)

  /** What the page does: show a message, or store the token and user and go to /dashboard. */
  datatype Outcome = ShowError(message: string) | Enter(token: string, user: LoginUser)

  const InvalidResponse: string := "Invalid response from server"
  const AccessDenied: string := "Access denied. This portal is for artists and administrators only."

  /** `(data.user.role || '').toLowerCase()`. */
  function PortalRole(u: LoginUser): string {
    Lower(Or(u.role, ""))
  }

  /** The page's decision on a login answer. */
  function Decide(r: LoginReply): (o: Outcome)
    ensures !r.ok ==> o == ShowError(Or(r.message, "Invalid email or password"))
    ensures r.ok && (!Truthy(r.token) || r.user.None?) ==> o == ShowError("Invalid response from server")
    ensures o.Enter? <==>
      r.ok && Truthy(r.token) && r.user.Some? && PortalRole(r.user.value) in {"artist", "administrator"}
    ensures o.Enter? ==> o == Enter(r.token.value, r.user.value)
    ensures r.ok && Truthy(r.token) && r.user.Some? && !o.Enter? ==> o == ShowError(AccessDenied)
  {
    if !r.ok then ShowError(Or(r.message, "Invalid email or password"))
    else if !Truthy(r.token) || r.user.None? then ShowError(InvalidResponse)
    else
      var role := PortalRole(r.user.value);
      if role != "artist" && role != "administrator" then ShowError(AccessDenied)
      else Enter(r.token.value, r.user.value)
  }

  /** The page ignores the case of the role; the server's gates do not. */
  lemma PageRoleCheckIgnoresCase(token: string, userId: int)
    requires token != ""
    ensures Decide(LoginReply(true, None, Some(token), Some(LoginUser(Some("Artist"))))).Enter?
    ensures RequireArtistOrAdmin(Some(Claims(userId, None, Some("Artist")))).Forbid?
  {
    assert PortalRole(LoginUser(Some("Artist"))) == "artist";
  }

  /** What the page receives from the server's login route; `encoded` is the signed token string. */
  function FromServer(a: Answer<AuthRoutes.LoggedIn>, encoded: string): (r: LoginReply)
    ensures r.ok <==> 200 <= a.Status() < 300
    ensures a.Done? ==> r.token == Some(encoded) && r.user == Some(LoginUser(None))
    ensures a.Failed? ==> r.message == Some(a.reply.message)
  {
    match a
    case Done(status, _) => LoginReply(200 <= status < 300, Some("Login successful"), Some(encoded), Some(LoginUser(None)))
    case Failed(reply) => LoginReply(200 <= reply.status < 300, Some(reply.message), None, None)
  }

  /**
   * The login form against the server's login route (the email trimmed first, as
   * the form does). The route's `user` object has no role, so the page never
   * lets anyone in: the best it can do is "Access denied".
   */
  lemma ServerLoginNeverEntersPortal(t: UserTable, cfg: Config, check: PasswordCheck,
                                     email: string, password: string, encoded: string)
    requires encoded != ""
    ensures var a := AuthRoutes.Login(t, cfg, check, Some(Trim(email)), Some(password));
      && !Decide(FromServer(a, encoded)).Enter?
      && (a.Done? ==> Decide(FromServer(a, encoded)) == ShowError(AccessDenied))
      && (a.Failed? ==> Decide(FromServer(a, encoded)) == ShowError(a.reply.message))
  {
    var a := AuthRoutes.Login(t, cfg, check, Some(Trim(email)), Some(password));
    assert a.Failed? ==> a.reply == AuthRoutes.CredentialsRequired || a.reply == AuthRoutes.InvalidCredentials;
    assert a.Done? ==> a.status == 200;
    RoleLessReplyDenied(a, encoded);
  }

  /** A 2xx answer whose user has no role, or an error answer with a message, never enters. */
  lemma RoleLessReplyDenied(a: Answer<AuthRoutes.LoggedIn>, encoded: string)
    requires encoded != ""
    requires a.Done? ==> a.status == 200
    requires a.Failed? ==> !(200 <= a.reply.status < 300) && a.reply.message != ""
    ensures a.Done? ==> Decide(FromServer(a, encoded)) == ShowError(AccessDenied)
    ensures a.Failed? ==> Decide(FromServer(a, encoded)) == ShowError(a.reply.message)
  {
    var r := FromServer(a, encoded);
    assert PortalRole(LoginUser(None)) == "";
    if a.Failed? {
      assert !r.ok && r.message == Some(a.reply.message);
    }
  }
}

=== FILE: music.dfy ===
/**
 * routes/music.js: the upload file filter, the song-list query builder,
 * the upload guard ladder, and the uploader-only update and delete.
 */
module Music {
  import opened Wrappers
  import opened Text
  import opened Numbers
  import opened Http
  import opened Access
  import opened Catalog
  import Accounts

  const AudioMimeTypes: seq<string> :=
    ["audio/mpeg", "audio/wav", "audio/flac", "audio/mp4", "audio/aac", "audio/x-m4a"]
  const ImageMimeTypes: seq<string> := ["image/jpeg", "image/jpg", "image/png", "image/webp"]
  const AudioExtensions: seq<string> := [".mp3", ".wav", ".flac", ".m4a", ".aac"]
  const ImageExtensions: seq<string> := [".jpg", ".jpeg", ".png", ".webp"]

  const AudioError: string := "Only audio files are allowed (MP3, WAV, FLAC, M4A, AAC)"
  const CoverError: string := "Only image files are allowed (JPG, JPEG, PNG, WEBP)"
  const FieldError: string := "Invalid file field"

  /** `/\.(a|b|...)$/i.test(name)`: the name ends in one of the extensions, ignoring case. */
  predicate EndsWithAnyIgnoringCase(name: string, exts: seq<string>) {
    exists e :: e in exts && EndsWith(Lower(name), e)
  }

  /** One invocation of multer's `cb`: accept the file, or reject it with an error message. */
  datatype Callback = Accepted | Rejected(error: string)

  /**
   * Every `cb` invocation the upload `fileFilter` makes, in order. A rejected
   * audio or cover file is not returned from, so control falls through to the
   * final `cb(new Error("Invalid file field"))`: such files see two callbacks.
   */
  function FileFilterCalls(field: string, mime: string, name: string): (calls: seq<Callback>)
    ensures |calls| == 1 || |calls| == 2
    ensures calls[|calls| - 1] == Accepted || calls[|calls| - 1] == Rejected(FieldError)
  {
    if field == "audio" then
      if mime in AudioMimeTypes || EndsWithAnyIgnoringCase(name, AudioExtensions) then [Accepted]
      else [Rejected(AudioError), Rejected(FieldError)]
    else if field == "cover" then
      if mime in ImageMimeTypes || EndsWithAnyIgnoringCase(name, ImageExtensions) then [Accepted]
      else [Rejected(CoverError), Rejected(FieldError)]
    else [Rejected(FieldError)]
  }

  /** What multer acts on: the first callback. */
  function FileFilter(field: string, mime: string, name: string): (c: Callback)
    ensures field == "audio" ==>
      (c == Accepted <==> mime in AudioMimeTypes || EndsWithAnyIgnoringCase(name, AudioExtensions))
    ensures field == "audio" && c != Accepted ==> c == Rejected(AudioError)
    ensures field == "cover" ==>
      (c == Accepted <==> mime in ImageMimeTypes || EndsWithAnyIgnoringCase(name, ImageExtensions))
    ensures field == "cover" && c != Accepted ==> c == Rejected(CoverError)
    ensures field != "audio" && field != "cover" ==> c == Rejected(FieldError)
  {
    FileFilterCalls(field, mime, name)[0]
  }

  /** Only rejected audio and cover files reach the second callback, and it always names the field. */
  lemma RejectionFallsThrough(field: string, mime: string, name: string)
    ensures |FileFilterCalls(field, mime, name)| == 2 <==>
      (field == "audio" || field == "cover") && FileFilter(field, mime, name).Rejected?
    ensures |FileFilterCalls(field, mime, name)| == 2 ==>
      FileFilterCalls(field, mime, name)[1] == Rejected(FieldError)
  {
  }

  /** A file named "SONG.MP3" passes the audio filter whatever its declared type. */
  lemma UpperCaseExtensionAccepted(mime: string)
    ensures FileFilter("audio", mime, "SONG.MP3") == Accepted
  {
    assert EndsWith(Lower("SONG.MP3"), ".mp3");
  }

  /** The filter columns of the song list, in the order the route adds them. */
  datatype Filter = GenreFilter | ArtistFilter | SearchFilter

  /** The position of a filter's clause in the route's WHERE list. */
  function Rank(f: Filter): nat {
    match f
    case GenreFilter => 0
    case ArtistFilter => 1
    case SearchFilter => 2
  }

  /** A value bound to a `$n` placeholder. */
  datatype Param = Text(text: string) | Number(n: int)

  /**
   * The song-list query: each active filter with the placeholder number its
   * clause uses, the LIMIT and OFFSET placeholders, and the bound values.
   */
  datatype SongQuery = SongQuery(
    filters: seq<(Filter, nat)>,
    limitSlot: nat,
    offsetSlot: nat,
    params: seq<Param>)

  /** The filters of GET /api/music whose query value is truthy, in the route's order. */
  function ActiveFilters(genre: Option<string>, artist: Option<string>, search: Option<string>): (fs: seq<(Filter, string)>)
    ensures |fs| <= 3
    ensures forall i :: 0 <= i < |fs| ==> fs[i].1 != ""
  {
    (if Truthy(genre) then [(GenreFilter, genre.value)] else [])
    + (if Truthy(artist) then [(ArtistFilter, artist.value)] else [])
    + (if Truthy(search) then [(SearchFilter, search.value)] else [])
  }

  /**
   * A filter is active exactly when its query value is truthy, it carries that
   * value, and the active filters keep the order genre, artist, search.
   */
  lemma ActiveFiltersExact(genre: Option<string>, artist: Option<string>, search: Option<string>)
    ensures var fs := ActiveFilters(genre, artist, search);
      forall f, v :: (f, v) in fs <==>
        || (f == GenreFilter && Truthy(genre) && v == genre.value)
        || (f == ArtistFilter && Truthy(artist) && v == artist.value)
        || (f == SearchFilter && Truthy(search) && v == search.value)
    ensures var fs := ActiveFilters(genre, artist, search);
      forall i, j :: 0 <= i < j < |fs| ==> Rank(fs[i].0) < Rank(fs[j].0)
  {
  }

  /**
   * The placeholder and parameter bookkeeping of GET /api/music
   * (`page` defaults to 1 and `limit` to 20).
   */
  method BuildSongQuery(genre: Option<string>, artist: Option<string>, search: Option<string>,
                        page: Option<int>, limit: Option<int>) returns (q: SongQuery)
    ensures var active := ActiveFilters(genre, artist, search);
      var k := |active|;
      var p := page.GetOr(1);
      var l := limit.GetOr(20);
      && |q.filters| == k
      && (forall i :: 0 <= i < k ==> q.filters[i] == (active[i].0, i + 1))
      && q.limitSlot == k + 1 && q.offsetSlot == k + 2
      && |q.params| == k + 2
      && (forall i :: 0 <= i < k ==> q.params[q.filters[i].1 - 1] == Text("%" + active[i].1 + "%"))
      && q.params[q.limitSlot - 1] == Number(l)
      && q.params[q.offsetSlot - 1] == Number((p - 1) * l)
  {
    var active := ActiveFilters(genre, artist, search);
    var p := page.GetOr(1);
    var l := limit.GetOr(20);
    var offset := Offset(p, l);
    var filters: seq<(Filter, nat)> := [];
    var params: seq<Param> := [];
    var paramCount := 0;
    while paramCount < |active|
      invariant 0 <= paramCount <= |active|
      invariant |filters| == paramCount && |params| == paramCount
      invariant forall i :: 0 <= i < paramCount ==> filters[i] == (active[i].0, i + 1)
      invariant forall i :: 0 <= i < paramCount ==> params[i] == Text("%" + active[i].1 + "%")
    {
      var (column, value) := active[paramCount];
      paramCount := paramCount + 1;
      filters := filters + [(column, paramCount)];
      params := params + [Text("%" + value + "%")];
    }
    params := params + [Number(l), Number(offset)];
    q := SongQuery(filters, paramCount + 1, paramCount + 2, params);
  }

  /** The fields PUT /api/music/:id writes; an absent field is written as NULL. */
  datatype SongEdit = SongEdit(
    title: Option<string>,
    artist: Option<string>,
    album: Option<string>,
    genre: Option<string>,
    duration: Option<string>)

  /**
   * PUT /api/music/:id: 404 for an unknown song, 403 unless the caller uploaded it.
   * The title and artist columns are NOT NULL, so an edit leaving either out makes the
   * UPDATE fail and the handler's catch answers 500 with the table unchanged.
   */
  function UpdateSong(t: SongTable, user: Claims, id: int, edit: SongEdit): (r: Step<Song, SongTable>)
    ensures id !in t.rows ==> r == Step(Failed(Reply(404, "Song not found")), t)
    ensures id in t.rows && !IsUploader(user, t.rows[id].uploadedBy) ==>
      r == Step(Failed(Reply(403, "Not authorized to update this song")), t)
    ensures id in t.rows && IsUploader(user, t.rows[id].uploadedBy) && (edit.title.None? || edit.artist.None?) ==>
      r == Step(Failed(Reply(500, "Server error")), t)
    ensures r.answer.Done? <==>
      id in t.rows && IsUploader(user, t.rows[id].uploadedBy) && edit.title.Some? && edit.artist.Some?
    ensures r.answer.Done? ==>
      var s := r.answer.body;
      && r.state.rows == t.rows[id := s] && r.state.nextId == t.nextId
      && s.uploadedBy == t.rows[id].uploadedBy
      && s.title == edit.title && s.artist == edit.artist && s.album == edit.album
      && s.genre == edit.genre && s.duration == edit.duration
  {
    if id !in t.rows then Step(Failed(Reply(NotFound, "Song not found")), t)
    else if !IsUploader(user, t.rows[id].uploadedBy) then
      Step(Failed(Reply(Forbidden, "Not authorized to update this song")), t)
    else if edit.title.None? || edit.artist.None? then
      Step(Failed(Reply(ServerError, "Server error")), t)
    else
      var s := Song(edit.title, edit.artist, edit.album, edit.genre, edit.duration, t.rows[id].uploadedBy);
      Step(Done(OK, s), SongTable(t.rows[id := s], t.nextId))
  }

  /** DELETE /api/music/:id: the same two checks, then the row is gone and nothing else changes. */
  function DeleteSong(t: SongTable, user: Claims, id: int): (r: Step<(), SongTable>)
    ensures id !in t.rows ==> r == Step(Failed(Reply(404, "Song not found")), t)
    ensures id in t.rows && !IsUploader(user, t.rows[id].uploadedBy) ==>
      r == Step(Failed(Reply(403, "Not authorized to delete this song")), t)
    ensures r.answer.Done? <==> id in t.rows && IsUploader(user, t.rows[id].uploadedBy)
    ensures r.answer.Done? ==> r.state.rows == t.rows - {id} && id !in r.state.rows
  {
    if id !in t.rows then Step(Failed(Reply(NotFound, "Song not found")), t)
    else if !IsUploader(user, t.rows[id].uploadedBy) then
      Step(Failed(Reply(Forbidden, "Not authorized to delete this song")), t)
    else Step(Done(OK, ()), SongTable(t.rows - {id}, t.nextId))
  }

  /** Being an administrator does not help: a song someone else uploaded cannot be changed. */
  lemma NoAdministratorBypass(t: SongTable, user: Claims, id: int, edit: SongEdit)
    requires user.role == Some("administrator")
    requires id in t.rows && t.rows[id].uploadedBy != Some(user.userId)
    ensures UpdateSong(t, user, id, edit).answer.Status() == 403
    ensures DeleteSong(t, user, id).answer.Status() == 403
  {
  }

  /** The form fields of POST /api/music/upload, after multer has accepted the files. */
  datatype UploadForm = UploadForm(
    hasAudio: bool,
    hasCover: bool,
    title: Option<string>,
    artist: Option<string>,
    album: Option<string>,
    genre: Option<string>,
    duration: Option<string>)

  /** POST /api/music/upload: audio, then cover, then title and artist are required. */
  function UploadSong(t: SongTable, user: Claims, form: UploadForm): (r: Step<int, SongTable>)
    requires ValidSongs(t)
    ensures ValidSongs(r.state)
    ensures !form.hasAudio ==> r == Step(Failed(Reply(400, "Audio file is required")), t)
    ensures form.hasAudio && !form.hasCover ==> r == Step(Failed(Reply(400, "Cover image is required")), t)
    ensures form.hasAudio && form.hasCover && !(Truthy(form.title) && Truthy(form.artist)) ==>
      r == Step(Failed(Reply(400, "Title and artist are required")), t)
    ensures r.answer.Done? <==> form.hasAudio && form.hasCover && Truthy(form.title) && Truthy(form.artist)
    ensures r.answer.Done? ==>
      var id := r.answer.body;
      && r.answer.status == 201
      && id !in t.rows && id in r.state.rows
      && r.state.rows == t.rows[id := r.state.rows[id]]
      && r.state.rows[id].uploadedBy == Some(user.userId)
      && r.state.rows[id].title == form.title && r.state.rows[id].artist == form.artist
      && (Truthy(form.album) ==> r.state.rows[id].album == form.album) && (!Truthy(form.album) ==> r.state.rows[id].album.None?)
      && (Truthy(form.genre) ==> r.state.rows[id].genre == form.genre) && (!Truthy(form.genre) ==> r.state.rows[id].genre.None?)
      && (Truthy(form.duration) ==> r.state.rows[id].duration == form.duration)
      && (!Truthy(form.duration) ==> r.state.rows[id].duration.None?)
  {
    if !form.hasAudio then Step(Failed(Reply(BadRequest, "Audio file is required")), t)
    else if !form.hasCover then Step(Failed(Reply(BadRequest, "Cover image is required")), t)
    else if !Truthy(form.title) || !Truthy(form.artist) then
      Step(Failed(Reply(BadRequest, "Title and artist are required")), t)
    else
      var song := Song(form.title, form.artist,
                       if Truthy(form.album) then form.album else None,
                       if Truthy(form.genre) then form.genre else None,
                       if Truthy(form.duration) then form.duration else None,
                       Some(user.userId));
      var (t', id) := InsertSong(t, song);
      Step(Done(Created, id), t')
  }

  /**
   * The uploader of a fresh song, and only the uploader, may then update and delete it;
   * the uploader's update succeeds exactly when it sends a title and an artist.
   */
  lemma UploaderOwnsUpload(t: SongTable, user: Claims, form: UploadForm, other: Claims, edit: SongEdit)
    requires ValidSongs(t)
    requires UploadSong(t, user, form).answer.Done?
    ensures var r := UploadSong(t, user, form);
      && (UpdateSong(r.state, user, r.answer.body, edit).answer.Done? <==> edit.title.Some? && edit.artist.Some?)
      && DeleteSong(r.state, user, r.answer.body).answer.Done?
      && (other.userId != user.userId ==> UpdateSong(r.state, other, r.answer.body, edit).answer.Status() == 403)
  {
  }

  /**
   * The answer of GET /api/music/:id: the song's columns and the uploader's username
   * from the join on `users`.
   */
  datatype SongView = SongView(id: int, song: Song, uploaderName: string)

  /**
   * GET /api/music/:id. The inner join drops a song without an uploader row, so such a
   * song is "not found" like an unknown id.
   */
  function GetSong(t: SongTable, users: Accounts.UserTable, id: int): (r: Answer<SongView>)
    ensures r.Done? <==>
      id in t.rows && t.rows[id].uploadedBy.Some? && Accounts.UserById(users, t.rows[id].uploadedBy.value).Some?
    ensures !r.Done? ==> r == Failed(Reply(404, "Song not found"))
    ensures r.Done? ==>
      && r.status == 200 && r.body.id == id && r.body.song == t.rows[id]
      && r.body.uploaderName == Accounts.UserById(users, t.rows[id].uploadedBy.value).value.username
  {
    if id !in t.rows || t.rows[id].uploadedBy.None? then Failed(Reply(NotFound, "Song not found"))
    else match Accounts.UserById(users, t.rows[id].uploadedBy.value)
      case None => Failed(Reply(NotFound, "Song not found"))
      case Some(u) => Done(OK, SongView(id, t.rows[id], u.username))
  }

  /** An accepted update is what GET then reads back: the sent fields under the same uploader. */
  lemma UpdatedSongIsRead(t: SongTable, users: Accounts.UserTable, user: Claims, id: int, edit: SongEdit)
    requires UpdateSong(t, user, id, edit).answer.Done?
    requires Accounts.UserById(users, user.userId).Some?
    ensures var g := GetSong(UpdateSong(t, user, id, edit).state, users, id);
      && g.Done?
      && g.body.song == Song(edit.title, edit.artist, edit.album, edit.genre, edit.duration, Some(user.userId))
      && g.body.uploaderName == Accounts.UserById(users, user.userId).value.username
  {
  }

  /** After a delete GET answers 404 for that id and the same as before for every other id. */
  lemma DeletedSongIsGone(t: SongTable, users: Accounts.UserTable, user: Claims, id: int, other: int)
    requires DeleteSong(t, user, id).answer.Done?
    ensures var t' := DeleteSong(t, user, id).state;
      && GetSong(t', users, id) == Failed(Reply(404, "Song not found"))
      && (other != id ==> GetSong(t', users, other) == GetSong(t, users, other))
  {
  }
}

=== FILE: numbers.dfy ===
/**
 * JavaScript number handling the routes depend on: `parseInt(s, 10)`, the
 * decimal rendering of an integer in a template literal, page offsets and
 * `Math.ceil(total / limit)`.
 */
module Numbers {
  import opened Wrappers
  import opened Text

  predicate IsDigit(c: char) {
    '0' <= c <= '9'
  }

  predicate AllDigits(s: string) {
    forall i :: 0 <= i < |s| ==> IsDigit(s[i])
  }

  predicate HasDigit(s: string) {
    exists i :: 0 <= i < |s| && IsDigit(s[i])
  }

  function DigitValue(c: char): (d: nat)
    requires IsDigit(c)
    ensures d < 10
  {
    c as int - '0' as int
  }

  function DigitChar(d: nat): (c: char)
    requires d < 10
    ensures IsDigit(c) && DigitValue(c) == d
  {
    ('0' as int + d) as char
  }

  /** The value of a string of decimal digits, most significant digit first. */
  function DigitsValue(ds: string): nat
    requires AllDigits(ds)
  {
    if |ds| == 0 then 0 else DigitsValue(ds[..|ds| - 1]) * 10 + DigitValue(ds[|ds| - 1])
  }

  /** The longest prefix of `s` made of decimal digits. */
  function LeadingDigits(s: string): (r: string)
    ensures r <= s && AllDigits(r)
    ensures |r| == |s| || !IsDigit(s[|r|])
  {
    if |s| > 0 && IsDigit(s[0]) then [s[0]] + LeadingDigits(s[1..]) else []
  }

  /** The decimal rendering of a natural number: no leading zero, and it denotes `n`. */
  function NatToString(n: nat): (r: string)
    ensures |r| >= 1 && AllDigits(r)
    ensures |r| == 1 || r[0] != '0'
    ensures DigitsValue(r) == n
  {
    if n < 10 then [DigitChar(n)]
    else
      var r := NatToString(n / 10) + [DigitChar(n % 10)];
      assert r[..|r| - 1] == NatToString(n / 10);
      r
  }

  /** How an integer appears in a template literal such as `user_${id}`. */
  function IntToString(n: int): (r: string)
    ensures |r| >= 1 && !IsSpace(r[0])
    ensures n >= 0 ==> AllDigits(r)
    ensures n < 0 ==> r[0] == '-' && AllDigits(r[1..])
  {
    if n < 0 then "-" + NatToString(-n) else NatToString(n)
  }

  /**
   * `parseInt(s, 10)`: skip leading whitespace, take an optional sign, then the
   * longest run of digits; no digits at all gives NaN, here None.
   */
  function ParseInt(s: string): (r: Option<int>)
    ensures !HasDigit(s) ==> r.None?
  {
    var t := TrimStart(s);
    var r := ParseSigned(t);
    assert r.Some? ==> HasDigit(t);
    assert HasDigit(t) ==> HasDigit(s) by {
      if HasDigit(t) {
        var i :| 0 <= i < |t| && IsDigit(t[i]);
        assert t[i] == s[|s| - |t| + i];
      }
    }
    r
  }

  /** `parseInt` once the leading whitespace is gone: an optional sign, then digits. */
  function ParseSigned(t: string): (r: Option<int>)
    ensures r.Some? ==> HasDigit(t)
  {
    var signed := |t| > 0 && (t[0] == '-' || t[0] == '+');
    var body := if signed then t[1..] else t;
    var ds := LeadingDigits(body);
    if ds == [] then None
    else
      assert body[0] == t[if signed then 1 else 0];
      var v: int := DigitsValue(ds);
      Some(if signed && t[0] == '-' then -v else v)
  }

  /** The digit run of a string that starts with digits and continues with a non-digit. */
  lemma {:induction false} LeadingDigitsOfConcat(ds: string, rest: string)
    requires AllDigits(ds)
    requires rest == [] || !IsDigit(rest[0])
    ensures LeadingDigits(ds + rest) == ds
    decreases |ds|
  {
    if |ds| > 0 {
      assert (ds + rest)[1..] == ds[1..] + rest;
      LeadingDigitsOfConcat(ds[1..], rest);
      assert [ds[0]] + ds[1..] == ds;
    } else {
      assert ds + rest == rest;
    }
  }

  /** A string that starts with a non-space character is its own `trimStart`. */
  lemma TrimStartNoSpace(s: string)
    requires s == [] || !IsSpace(s[0])
    ensures TrimStart(s) == s
  {
  }

  /**
   * `parseInt` reads back any rendered integer, whatever non-digit text follows:
   * `parseInt("12abc", 10)` is 12 and `parseInt(String(n), 10)` is `n`.
   */
  lemma {:induction false} ParseIntRendered(n: int, rest: string)
    requires rest == [] || !IsDigit(rest[0])
    ensures ParseInt(IntToString(n) + rest) == Some(n)
  {
    var s := IntToString(n) + rest;
    TrimStartNoSpace(s);
    ParseSignedRendered(n, rest);
  }

  lemma {:induction false} ParseSignedRendered(n: int, rest: string)
    requires rest == [] || !IsDigit(rest[0])
    ensures ParseSigned(IntToString(n) + rest) == Some(n)
  {
    if n < 0 {
      var d := NatToString(-n);
      assert IntToString(n) == "-" + d;
      assert IntToString(n) + rest == "-" + (d + rest);
      ParseSignedOf("-", d, rest);
    } else {
      var d := NatToString(n);
      assert IntToString(n) == d;
      assert IntToString(n) + rest == "" + (d + rest);
      ParseSignedOf("", d, rest);
    }
  }

  /** `parseInt` of a string with no digit at all is NaN, e.g. "abc". */
  lemma ParseIntNoDigits(s: string)
    requires forall i :: 0 <= i < |s| ==> !IsDigit(s[i])
    ensures ParseInt(s).None?
  {
  }

  /** `trimStart` removes any whitespace prefix. */
  lemma {:induction false} TrimStartSkipsSpace(ws: string, s: string)
    requires AllSpace(ws)
    ensures TrimStart(ws + s) == TrimStart(s)
    decreases |ws|
  {
    if |ws| > 0 {
      assert (ws + s)[1..] == ws[1..] + s;
      TrimStartSkipsSpace(ws[1..], s);
    } else {
      assert ws + s == s;
    }
  }

  /** `parseInt` ignores leading whitespace. */
  lemma ParseIntSkipsSpace(ws: string, s: string)
    requires AllSpace(ws)
    ensures ParseInt(ws + s) == ParseInt(s)
  {
    TrimStartSkipsSpace(ws, s);
  }

  /** A sign `parseInt` accepts before the digits: none, "+" or "-". */
  predicate SignText(sign: string) {
    |sign| == 0 || (|sign| == 1 && (sign[0] == '+' || sign[0] == '-'))
  }

  function Signed(sign: string, v: nat): int {
    if |sign| == 1 && sign[0] == '-' then -(v as int) else v
  }

  /**
   * `parseInt` reads an optional sign and the digit run after any whitespace, and stops
   * at the first non-digit: `parseInt(" -12px", 10)` is -12.
   */
  lemma {:induction false} ParseIntDigits(ws: string, sign: string, ds: string, rest: string)
    requires AllSpace(ws) && SignText(sign)
    requires AllDigits(ds) && |ds| > 0
    requires |rest| == 0 || !IsDigit(rest[0])
    ensures ParseInt(ws + sign + ds + rest) == Some(Signed(sign, DigitsValue(ds)))
  {
    var t := sign + (ds + rest);
    assert ws + sign + ds + rest == ws + t;
    ParseSignedOf(sign, ds, rest);
    if |sign| == 0 {
      assert t[0] == ds[0];
    } else {
      assert t[0] == sign[0];
    }
    ParseIntAfterSpace(ws, t);
  }

  lemma {:induction false} ParseIntAfterSpace(ws: string, t: string)
    requires AllSpace(ws) && |t| > 0 && (IsDigit(t[0]) || t[0] == '+' || t[0] == '-')
    ensures ParseInt(ws + t) == ParseSigned(t)
  {
    ParseIntNoSpace(t);
    ParseIntSkipsSpace(ws, t);
  }

  lemma ParseIntNoSpace(t: string)
    requires |t| > 0 && (IsDigit(t[0]) || t[0] == '+' || t[0] == '-')
    ensures ParseInt(t) == ParseSigned(t)
  {
    assert !IsSpace(t[0]);
    TrimStartNoSpace(t);
    assert ParseInt(t) == ParseSigned(TrimStart(t));
  }

  lemma {:induction false} ParseSignedOf(sign: string, ds: string, rest: string)
    requires SignText(sign)
    requires AllDigits(ds) && |ds| > 0
    requires |rest| == 0 || !IsDigit(rest[0])
    ensures ParseSigned(sign + (ds + rest)) == Some(Signed(sign, DigitsValue(ds)))
  {
    var t := sign + (ds + rest);
    if |sign| == 0 {
      assert t == ds + rest;
      UnsignedDigits(ds, rest);
    } else {
      assert t == [sign[0]] + (ds + rest);
      SignDigits(sign[0], ds, rest);
    }
  }

  lemma {:induction false} UnsignedDigits(ds: string, rest: string)
    requires AllDigits(ds) && |ds| > 0
    requires |rest| == 0 || !IsDigit(rest[0])
    ensures ParseSigned(ds + rest) == Some(DigitsValue(ds))
  {
    var t := ds + rest;
    LeadingDigitsOfConcat(ds, rest);
    assert LeadingDigits(t) == ds;
    assert t[0] == ds[0];
    var v: int := DigitsValue(ds);
    assert ParseSigned(t) == Some(v);
  }

  lemma {:induction false} SignDigits(c: char, ds: string, rest: string)
    requires c == '+' || c == '-'
    requires AllDigits(ds) && |ds| > 0
    requires |rest| == 0 || !IsDigit(rest[0])
    ensures var v: int := DigitsValue(ds); ParseSigned([c] + (ds + rest)) == Some(if c == '-' then -v else v)
  {
    var u := ds + rest;
    var t := [c] + u;
    assert t[1..] == u;
    LeadingDigitsOfConcat(ds, rest);
    assert LeadingDigits(t[1..]) == ds;
    assert t[0] == c;
    var v: int := DigitsValue(ds);
    assert ParseSigned(t) == Some(if c == '-' then -v else v);
  }

  /**
   * `parseInt` is NaN when the first character after the whitespace is neither a digit
   * nor a sign followed by a digit: "abc7", "a7" and "-x1" all give NaN.
   */
  lemma ParseIntNonNumeric(s: string)
    requires var t := TrimStart(s);
      t != [] && !IsDigit(t[0]) && !((t[0] == '+' || t[0] == '-') && |t| > 1 && IsDigit(t[1]))
    ensures ParseInt(s).None?
  {
    var t := TrimStart(s);
    if t[0] == '+' || t[0] == '-' {
      assert |t[1..]| == 0 || !IsDigit(t[1..][0]);
    }
  }

  /** `(page - 1) * limit`: the number of rows skipped before the requested page. */
  function Offset(page: int, limit: int): int {
    (page - 1) * limit
  }

  /** `Math.ceil(a / b)` for a positive divisor: the least integer at or above the quotient. */
  function CeilDiv(a: int, b: int): (q: int)
    requires b > 0
    ensures (q - 1) * b < a <= q * b
  {
    var f, m := (-a) / b, (-a) % b;
    assert -a == f * b + m && 0 <= m < b;
    NegMul(f, b);
    MulPred(-f, b);
    -f
  }

  lemma NegMul(x: int, y: int)
    ensures (-x) * y == -(x * y)
  {
  }

  lemma MulPred(x: int, y: int)
    ensures (x - 1) * y == x * y - y
  {
  }

  /** Multiplying by a non-negative factor keeps the order. */
  lemma MulMono(x: int, y: int, c: int)
    requires x <= y && c >= 0
    ensures x * c <= y * c
  {
    MulNonneg(y - x, c);
    assert (y - x) * c == y * c - x * c;
  }

  lemma MulNonneg(x: int, y: int)
    requires x >= 0 && y >= 0
    ensures x * y >= 0
  {
  }

}

=== FILE: playlists.dfy ===
/**
 * routes/playlists.js: playlists owned by one user, and the `playlist_songs`
 * membership rows the add and remove routes maintain.
 */
module Playlists {
  import opened Wrappers
  import opened Text
  import opened Http
  import opened Access
  import opened Catalog

  datatype Playlist = Playlist(name: Option<string>, description: Option<string>, userId: int)

  /**
   * The playlist table keyed by SERIAL id, and the membership rows
   * (playlist id, song id) in the order they were added.
   */
  datatype Library = Library(playlists: map<int, Playlist>, nextId: int, members: seq<(int, int)>)

  ghost predicate ValidIds(lib: Library) {
    forall id :: id in lib.playlists ==> id < lib.nextId
  }

  /** No (playlist, song) pair is recorded twice. */
  ghost predicate NoDup(m: seq<(int, int)>) {
    forall i, j :: 0 <= i < j < |m| ==> m[i] != m[j]
  }

  /** `WHERE id = $1 AND user_id = $2`: the playlist exists and belongs to the requester. */
  predicate Owned(lib: Library, id: int, userId: int) {
    id in lib.playlists && lib.playlists[id].userId == userId
  }

  const PlaylistNotFound: Reply := Reply(404, "Playlist not found")

  /** The membership rows without any copy of one pair (`DELETE FROM playlist_songs WHERE ...`). */
  function Without(m: seq<(int, int)>, k: (int, int)): (r: seq<(int, int)>)
    ensures forall x :: x in r <==> x in m && x != k
    ensures |r| <= |m|
    ensures k !in m ==> r == m
  {
    if |m| == 0 then []
    else
      var rest := Without(m[1..], k);
      assert forall x :: x in m <==> x == m[0] || x in m[1..] by {
        assert m == [m[0]] + m[1..];
      }
      if m[0] == k then rest else [m[0]] + rest
  }

  /** Removing a pair keeps the rows duplicate-free, and removes exactly one row when present. */
  lemma {:induction false} WithoutNoDup(m: seq<(int, int)>, k: (int, int))
    requires NoDup(m)
    ensures NoDup(Without(m, k))
    ensures k in m ==> |Without(m, k)| == |m| - 1
  {
    if |m| > 0 {
      assert NoDup(m[1..]) by {
        forall i, j | 0 <= i < j < |m[1..]|
          ensures m[1..][i] != m[1..][j]
        {
          assert m[1..][i] == m[i + 1] && m[1..][j] == m[j + 1];
        }
      }
      WithoutNoDup(m[1..], k);
      assert m[0] !in m[1..] by {
        forall j | 0 <= j < |m[1..]|
          ensures m[1..][j] != m[0]
        {
          assert m[1..][j] == m[j + 1];
        }
      }
      if m[0] == k {
        assert k !in m[1..];
      } else {
        assert k in m ==> k in m[1..] by {
          assert m == [m[0]] + m[1..];
        }
      }
    }
  }

  /** Appending a pair that is absent keeps the rows duplicate-free. */
  lemma AppendFreshNoDup(m: seq<(int, int)>, k: (int, int))
    requires NoDup(m) && k !in m
    ensures NoDup(m + [k])
  {
    forall i, j | 0 <= i < j < |m + [k]|
      ensures (m + [k])[i] != (m + [k])[j]
    {
      if j == |m| {
        assert (m + [k])[i] == m[i];
      }
    }
  }

  /** POST /api/playlists: a falsy name is refused; the description defaults to null. */
  function CreatePlaylist(lib: Library, user: Claims, name: Option<string>, description: Option<string>): (r: Step<int, Library>)
    requires ValidIds(lib)
    ensures !Truthy(name) <==> r == Step(Failed(Reply(400, "Playlist name is required")), lib)
    ensures r.answer.Done? <==> Truthy(name)
    ensures r.answer.Done? ==>
      var id := r.answer.body;
      && r.answer.status == 201
      && id !in lib.playlists
      && Owned(r.state, id, user.userId)
      && r.state.playlists == lib.playlists[id := Playlist(name, if Truthy(description) then description else None, user.userId)]
      && r.state.members == lib.members
      && ValidIds(r.state)
  {
    if !Truthy(name) then Step(Failed(Reply(BadRequest, "Playlist name is required")), lib)
    else
      var id := lib.nextId;
      var p := Playlist(name, if Truthy(description) then description else None, user.userId);
      Step(Done(Created, id), Library(lib.playlists[id := p], lib.nextId + 1, lib.members))
  }

  /** PUT /api/playlists/:id: name and description are set as sent, on an owned playlist only. */
  function UpdatePlaylist(lib: Library, user: Claims, id: int, name: Option<string>, description: Option<string>): (r: Step<Playlist, Library>)
    ensures !Owned(lib, id, user.userId) <==> r == Step(Failed(PlaylistNotFound), lib)
    ensures r.answer.Done? <==> Owned(lib, id, user.userId)
    ensures r.answer.Done? ==>
      && r.answer.status == 200
      && r.answer.body == Playlist(name, description, user.userId)
      && r.state == lib.(playlists := lib.playlists[id := r.answer.body])
  {
    if !Owned(lib, id, user.userId) then Step(Failed(PlaylistNotFound), lib)
    else
      var p := lib.playlists[id].(name := name, description := description);
      Step(Done(OK, p), lib.(playlists := lib.playlists[id := p]))
  }

  /** DELETE /api/playlists/:id: only an owned playlist is removed. */
  function DeletePlaylist(lib: Library, user: Claims, id: int): (r: Step<string, Library>)
    ensures !Owned(lib, id, user.userId) <==> r == Step(Failed(PlaylistNotFound), lib)
    ensures r.answer.Done? <==> Owned(lib, id, user.userId)
    ensures r.answer.Done? ==>
      && r.answer.status == 200
      && id !in r.state.playlists
      && r.state.playlists == lib.playlists - {id}
      && r.state.members == lib.members
  {
    if !Owned(lib, id, user.userId) then Step(Failed(PlaylistNotFound), lib)
    else Step(Done(OK, "Playlist deleted successfully"), lib.(playlists := lib.playlists - {id}))
  }

  /** Whatever a user does to a playlist id, nobody else's playlist changes. */
  lemma OthersPlaylistsUntouched(lib: Library, user: Claims, id: int, name: Option<string>, description: Option<string>, other: int)
    requires other in lib.playlists && lib.playlists[other].userId != user.userId
    ensures UpdatePlaylist(lib, user, id, name, description).state.playlists[other] == lib.playlists[other]
    ensures var d := DeletePlaylist(lib, user, id).state; other in d.playlists && d.playlists[other] == lib.playlists[other]
  {
  }

  /** POST /api/playlists/add/song: ownership, then the song, then duplicates, then insert. */
  function AddSong(lib: Library, songs: SongTable, user: Claims, playlistId: int, songId: int): (r: Step<string, Library>)
    ensures !Owned(lib, playlistId, user.userId) ==> r == Step(Failed(PlaylistNotFound), lib)
    ensures Owned(lib, playlistId, user.userId) && !SongExists(songs, songId) ==> r == Step(Failed(Reply(404, "Song not found")), lib)
    ensures Owned(lib, playlistId, user.userId) && SongExists(songs, songId) && (playlistId, songId) in lib.members ==>
      r == Step(Failed(Reply(400, "Song already in playlist")), lib)
    ensures r.answer.Done? <==>
      Owned(lib, playlistId, user.userId) && SongExists(songs, songId) && (playlistId, songId) !in lib.members
    ensures r.answer.Done? ==> r.answer.status == 200 && r.state == lib.(members := lib.members + [(playlistId, songId)])
    ensures !r.answer.Done? ==> r.state == lib
  {
    if !Owned(lib, playlistId, user.userId) then Step(Failed(PlaylistNotFound), lib)
    else if !SongExists(songs, songId) then Step(Failed(Reply(NotFound, "Song not found")), lib)
    else if (playlistId, songId) in lib.members then Step(Failed(Reply(BadRequest, "Song already in playlist")), lib)
    else Step(Done(OK, "Song added to playlist successfully"), lib.(members := lib.members + [(playlistId, songId)]))
  }

  /** DELETE /api/playlists/:id/songs/:songId: ownership, then presence, then removal of that pair. */
  function RemoveSong(lib: Library, user: Claims, playlistId: int, songId: int): (r: Step<string, Library>)
    ensures !Owned(lib, playlistId, user.userId) ==> r == Step(Failed(PlaylistNotFound), lib)
    ensures Owned(lib, playlistId, user.userId) && (playlistId, songId) !in lib.members ==>
      r == Step(Failed(Reply(404, "Song not found in playlist")), lib)
    ensures r.answer.Done? <==> Owned(lib, playlistId, user.userId) && (playlistId, songId) in lib.members
    ensures r.answer.Done? ==>
      && r.answer.status == 200
      && r.state.playlists == lib.playlists
      && (playlistId, songId) !in r.state.members
      && forall x :: x != (playlistId, songId) ==> (x in r.state.members <==> x in lib.members)
    ensures !r.answer.Done? ==> r.state == lib
  {
    if !Owned(lib, playlistId, user.userId) then Step(Failed(PlaylistNotFound), lib)
    else if (playlistId, songId) !in lib.members then Step(Failed(Reply(NotFound, "Song not found in playlist")), lib)
    else Step(Done(OK, "Song removed from playlist successfully"), lib.(members := Without(lib.members, (playlistId, songId))))
  }

  /** Adding and removing songs never records a pair twice, and a removal drops exactly one row. */
  lemma MembershipStaysDuplicateFree(lib: Library, songs: SongTable, user: Claims, playlistId: int, songId: int)
    requires NoDup(lib.members)
    ensures NoDup(AddSong(lib, songs, user, playlistId, songId).state.members)
    ensures NoDup(RemoveSong(lib, user, playlistId, songId).state.members)
    ensures RemoveSong(lib, user, playlistId, songId).answer.Done? ==>
      |RemoveSong(lib, user, playlistId, songId).state.members| == |lib.members| - 1
  {
    var k := (playlistId, songId);
    if AddSong(lib, songs, user, playlistId, songId).answer.Done? {
      AppendFreshNoDup(lib.members, k);
    }
    WithoutNoDup(lib.members, k);
  }

  /** Adding a song and removing it again restores the membership rows. */
  lemma AddThenRemove(lib: Library, songs: SongTable, user: Claims, playlistId: int, songId: int)
    requires AddSong(lib, songs, user, playlistId, songId).answer.Done?
    ensures var added := AddSong(lib, songs, user, playlistId, songId).state;
      RemoveSong(added, user, playlistId, songId) == Step(Done(200, "Song removed from playlist successfully"), lib)
  {
    var k := (playlistId, songId);
    WithoutAppend(lib.members, k);
  }

  /** Removing a pair from rows that end with it, and hold it nowhere else, gives the other rows back. */
  lemma {:induction false} WithoutAppend(m: seq<(int, int)>, k: (int, int))
    requires k !in m
    ensures Without(m + [k], k) == m
  {
    if |m| == 0 {
      assert [k][1..] == [];
    } else {
      assert (m + [k])[1..] == m[1..] + [k];
      WithoutAppend(m[1..], k);
      assert m == [m[0]] + m[1..];
    }
  }

  /** The songs of one playlist in the order they were added, among those still in `songs`. */
  function SongsOf(members: seq<(int, int)>, songs: SongTable, playlistId: int): (r: seq<int>)
    ensures forall s :: s in r <==> (playlistId, s) in members && SongExists(songs, s)
  {
    if |members| == 0 then []
    else
      var rest := SongsOf(members[1..], songs, playlistId);
      assert forall x :: x in members <==> x == members[0] || x in members[1..] by {
        assert members == [members[0]] + members[1..];
      }
      if members[0].0 == playlistId && SongExists(songs, members[0].1) then [members[0].1] + rest else rest
  }

  /** GET /api/playlists/:id: an owned playlist and its songs. */
  function GetPlaylist(lib: Library, songs: SongTable, user: Claims, id: int): (r: Answer<(Playlist, seq<int>)>)
    ensures !Owned(lib, id, user.userId) <==> r == Failed(PlaylistNotFound)
    ensures r.Done? <==> Owned(lib, id, user.userId)
    ensures r.Done? ==>
      && r.status == 200
      && r.body.0 == lib.playlists[id]
      && forall s :: s in r.body.1 <==> (id, s) in lib.members && SongExists(songs, s)
  {
    if !Owned(lib, id, user.userId) then Failed(PlaylistNotFound)
    else Done(OK, (lib.playlists[id], SongsOf(lib.members, songs, id)))
  }

  /** A row appended to the membership rows lands at the end of its playlist's listing. */
  lemma {:induction false} SongsOfAppend(members: seq<(int, int)>, songs: SongTable, playlistId: int, songId: int)
    requires SongExists(songs, songId)
    ensures SongsOf(members + [(playlistId, songId)], songs, playlistId) == SongsOf(members, songs, playlistId) + [songId]
  {
    if |members| == 0 {
      assert [(playlistId, songId)][1..] == [];
    } else {
      assert (members + [(playlistId, songId)])[1..] == members[1..] + [(playlistId, songId)];
      SongsOfAppend(members[1..], songs, playlistId, songId);
    }
  }

  /** A playlist no membership row mentions lists no songs. */
  lemma {:induction false} SongsOfUnmentioned(members: seq<(int, int)>, songs: SongTable, playlistId: int)
    requires forall k :: k in members ==> k.0 != playlistId
    ensures SongsOf(members, songs, playlistId) == []
  {
    if |members| > 0 {
      assert members[0] in members;
      assert forall k :: k in members[1..] ==> k in members;
      SongsOfUnmentioned(members[1..], songs, playlistId);
    }
  }

  /** After a successful add, the playlist lists the song last, after the songs it listed before. */
  lemma AddedSongIsListed(lib: Library, songs: SongTable, user: Claims, playlistId: int, songId: int)
    requires AddSong(lib, songs, user, playlistId, songId).answer.Done?
    ensures var g := GetPlaylist(AddSong(lib, songs, user, playlistId, songId).state, songs, user, playlistId);
      && g.Done? && songId in g.body.1
      && g.body.1 == GetPlaylist(lib, songs, user, playlistId).body.1 + [songId]
  {
    assert (playlistId, songId) in lib.members + [(playlistId, songId)];
    SongsOfAppend(lib.members, songs, playlistId, songId);
  }

  /**
   * A playlist just created is found by its owner with the name and description
   * stored, and no songs, when every membership row names an earlier playlist.
   */
  lemma CreatedPlaylistIsEmpty(lib: Library, songs: SongTable, user: Claims, name: Option<string>, description: Option<string>)
    requires ValidIds(lib)
    requires forall k :: k in lib.members ==> k.0 < lib.nextId
    requires CreatePlaylist(lib, user, name, description).answer.Done?
    ensures var r := CreatePlaylist(lib, user, name, description);
      GetPlaylist(r.state, songs, user, r.answer.body) ==
        Done(200, (Playlist(name, if Truthy(description) then description else None, user.userId), []))
  {
    SongsOfUnmentioned(lib.members, songs, lib.nextId);
  }
}

=== FILE: portal.dfy ===
/**
 * routes/portal.js: the web portal's API behind the role gates: the caller's
 * own view, the administrator's artist search, an artist's songs, and the
 * create-once artist profile of the caller.
 */
module Portal {
  import opened Wrappers
  import opened Text
  import opened Numbers
  import opened Http
  import opened Access
  import opened Catalog

  /** The `user` object of GET /api/portal/me. */
  datatype Me = Me(id: int, username: Option<string>, role: string)

  /** GET /api/portal/me: the token's identity, with "listener" for a missing role. */
  function GetMe(user: Claims): (m: Me)
    ensures m.id == user.userId && m.username == user.username
    ensures m.role == EffectiveRole(Some(user))
  {
    Me(user.userId, user.username, Or(user.role, Listener))
  }

  /** The role reported by /me passes the artist-or-admin gate exactly when the token does. */
  lemma MeRoleMatchesGate(user: Claims)
    ensures RequireArtistOrAdmin(Some(user)) == Allow <==> GetMe(user).role in {"artist", "administrator"}
  {
  }

  /** The columns compared with the search pattern, each against the same placeholder. */
  const SearchColumns: seq<string> := ["a.carrier_name", "a.firstname", "a.lastname", "u.email"]

  /** The bound parameters of the artist list and the (column, placeholder) pairs of its filter. */
  datatype SearchPlan = SearchPlan(params: seq<string>, matches: seq<(string, nat)>)

  /** The search part of GET /api/portal/artists. */
  function ArtistSearch(search: Option<string>): (p: SearchPlan)
    ensures |p.params| <= 1
    ensures p.params == [] <==> Trim(Or(search, "")) == ""
    ensures p.params == [] <==> p.matches == []
    ensures p.params != [] ==> p.params[0] == "%" + Trim(Or(search, "")) + "%"
    ensures forall i :: 0 <= i < |p.matches| ==> p.matches[i].1 == |p.params|
    ensures p.matches != [] ==> |p.matches| == 4 && forall i :: 0 <= i < 4 ==> p.matches[i].0 == SearchColumns[i]
  {
    var s := Trim(Or(search, ""));
    if s == "" then SearchPlan([], [])
    else
      var params := ["%" + s + "%"];
      SearchPlan(params, seq(|SearchColumns|, i requires 0 <= i < |SearchColumns| => (SearchColumns[i], |params|)))
  }

  /** A search of spaces alone binds nothing, like no search at all. */
  lemma BlankSearchIsNoSearch(ws: string)
    requires AllSpace(ws)
    ensures ArtistSearch(Some(ws)) == ArtistSearch(None)
  {
    AllSpaceTrimsToEmpty(ws);
    assert Trim("") == "";
  }

  /** The songs uploaded by an artist's user: `WHERE uploaded_by = $1` matches nothing for NULL. */
  function UploadedBy(songs: SongTable, owner: Option<int>): (ids: set<int>)
    ensures forall id :: id in ids <==> id in songs.rows && owner.Some? && songs.rows[id].uploadedBy == owner
  {
    set id | id in songs.rows && owner.Some? && songs.rows[id].uploadedBy == owner
  }

  const NotAllowedSongs: Reply := Reply(403, "Not allowed to view this artist's songs")

  /** GET /api/portal/artists/:id/songs once the gates have passed: 400, 404, then owner-or-admin. */
  function ArtistSongs(artists: ArtistTable, songs: SongTable, user: Claims, param: string): (r: Answer<set<int>>)
    ensures ParseInt(param).None? <==> r == Failed(Reply(400, "Invalid artist ID"))
    ensures ParseInt(param).Some? && ArtistById(artists, ParseInt(param).value).None? ==> r == Failed(Reply(404, "Artist not found"))
    ensures ParseInt(param).Some? && ArtistById(artists, ParseInt(param).value).Some? ==>
      var a := ArtistById(artists, ParseInt(param).value).value;
      && (r == Failed(NotAllowedSongs) <==> !OwnerOrAdmin(user, a.userId))
      && (OwnerOrAdmin(user, a.userId) ==> r == Done(200, UploadedBy(songs, a.userId)))
  {
    match ParseInt(param)
    case None => Failed(Reply(BadRequest, "Invalid artist ID"))
    case Some(id) =>
      match ArtistById(artists, id)
      case None => Failed(Reply(NotFound, "Artist not found"))
      case Some(a) =>
        if user.role != Some(Administrator) && Some(user.userId) != a.userId then Failed(NotAllowedSongs)
        else Done(OK, UploadedBy(songs, a.userId))
  }

  /** The whole route: token, artist-or-admin gate, then the handler. */
  function ArtistSongsRoute(header: Option<string>, cfg: Config, verify: Verifier,
                            artists: ArtistTable, songs: SongTable, param: string): (r: Answer<set<int>>)
    ensures Authenticate(header, cfg, verify).Deny? ==> r == Failed(Authenticate(header, cfg, verify).reply)
    ensures Authenticate(header, cfg, verify).Pass? ==>
      var user := Authenticate(header, cfg, verify).user;
      && (RequireArtistOrAdmin(Some(user)).Forbid? ==> r == Failed(RequireArtistOrAdmin(Some(user)).reply))
      && (RequireArtistOrAdmin(Some(user)) == Allow ==> r == ArtistSongs(artists, songs, user, param))
  {
    match Authenticate(header, cfg, verify)
    case Deny(reply) => Failed(reply)
    case Pass(user) =>
      match RequireArtistOrAdmin(Some(user))
      case Forbid(reply) => Failed(reply)
      case Allow => ArtistSongs(artists, songs, user, param)
  }

  /** An artist sees their own songs; an administrator sees anyone's; nobody else gets any. */
  lemma SongsVisibleToOwnerOrAdmin(artists: ArtistTable, songs: SongTable, user: Claims, param: string)
    requires ArtistSongs(artists, songs, user, param).Done?
    ensures var a := ArtistById(artists, ParseInt(param).value).value;
      user.role == Some("administrator") || a.userId == Some(user.userId)
    ensures user.role != Some("administrator") ==>
      forall id :: id in ArtistSongs(artists, songs, user, param).body ==> songs.rows[id].uploadedBy == Some(user.userId)
  {
  }

  /**
   * The columns my-artist selects: `id, carrier_name, firstname, lastname, middle_name,
   * bio, user_id`. The passkey, name and image columns are not part of the answer.
   */
  datatype PortalArtist = PortalArtist(
    id: int,
    carrierName: Option<string>,
    firstname: Option<string>,
    lastname: Option<string>,
    middleName: Option<string>,
    bio: Option<string>,
    userId: Option<int>)

  function Selected(a: Artist): PortalArtist {
    PortalArtist(a.id, a.carrierName, a.firstname, a.lastname, a.middleName, a.bio, a.userId)
  }

  /** GET /api/portal/my-artist after the gates: the caller's artist row, created on first use. */
  function MyArtist(artists: ArtistTable, user: Claims): (r: Step<PortalArtist, ArtistTable>)
    requires ValidArtists(artists)
    ensures ValidArtists(r.state)
    ensures r.answer.Done? && r.answer.status == 200
    ensures r.answer.body.userId == Some(user.userId)
    ensures ArtistByUser(r.state, user.userId).Some?
    ensures r.answer.body == Selected(ArtistByUser(r.state, user.userId).value)
    ensures ArtistByUser(artists, user.userId).Some? ==> r.state == artists
    ensures ArtistByUser(artists, user.userId).None? ==>
      var n := |artists.rows|;
      && |r.state.rows| == n + 1 && r.state.rows[..n] == artists.rows
      && r.state.rows[n] == NewArtist(r.answer.body.id).(carrierName := Some(Or(user.username, "Artist")), userId := Some(user.userId))
  {
    match ArtistByUser(artists, user.userId)
    case Some(a) => Step(Done(OK, Selected(a)), artists)
    case None =>
      var row := NewArtist(0).(carrierName := Some(Or(user.username, "Artist")), userId := Some(user.userId));
      var t := InsertArtist(artists, row);
      var created := row.(id := artists.nextId);
      ArtistByUserAppend(artists.rows, created, user.userId);
      assert t.rows[..|artists.rows|] == artists.rows;
      Step(Done(OK, Selected(created)), t)
  }

  /** With no earlier row for the user, the lookup finds the appended one. */
  lemma ArtistByUserAppend(rows: seq<Artist>, a: Artist, userId: int)
    requires forall i :: 0 <= i < |rows| ==> rows[i].userId != Some(userId)
    requires a.userId == Some(userId)
    ensures ArtistByUser(ArtistTable(rows + [a], 0), userId) == Some(a)
  {
    var t := ArtistTable(rows + [a], 0);
    assert t.rows[|rows|] == a;
    var r := ArtistByUser(t, userId);
    assert r.Some?;
    var i :| 0 <= i < |t.rows| && t.rows[i] == r.value;
    assert i == |rows|;
  }

  /** my-artist is create-once: calling it again returns the same row and inserts nothing. */
  lemma MyArtistCreateOnce(artists: ArtistTable, user: Claims)
    requires ValidArtists(artists)
    ensures var first := MyArtist(artists, user);
      MyArtist(first.state, user) == Step(first.answer, first.state)
  {
  }
}

=== FILE: rows.dfy ===
/** Row lookups shared by the tables: the first row a `WHERE` clause selects. */
module Rows {
  import opened Wrappers

  /** The index of the first row satisfying `p`, or None when no row does. */
  function FirstWhere<T>(rows: seq<T>, p: T -> bool): (i: Option<nat>)
    ensures i.Some? ==> i.value < |rows| && p(rows[i.value])
    ensures i.Some? ==> forall k :: 0 <= k < i.value ==> !p(rows[k])
    ensures i.None? <==> forall k :: 0 <= k < |rows| ==> !p(rows[k])
  {
    if |rows| == 0 then None
    else if p(rows[0]) then Some(0)
    else
      match FirstWhere(rows[1..], p)
      case None => None
      case Some(j) => Some(j + 1)
  }

  /** Appending a row never changes an earlier match. */
  lemma {:induction false} FirstWhereAppend<T>(rows: seq<T>, row: T, p: T -> bool)
    requires FirstWhere(rows, p).Some?
    ensures FirstWhere(rows + [row], p) == FirstWhere(rows, p)
  {
    var i := FirstWhere(rows, p).value;
    var j := FirstWhere(rows + [row], p);
    assert (rows + [row])[i] == rows[i];
    assert j.Some?;
  }
}

=== FILE: signup_page.dfy ===
/**
 * public/portal/signup.js: the artist sign-up form's checks before sending,
 * the payload it sends, and whether it moves on after the server's answer.
 */
module SignupPage {
  import opened Wrappers
  import opened Text

  /** The form's input values. */
  datatype SignupForm = SignupForm(
    firstname: string,
    lastname: string,
    middleName: string,
    carrierName: string,
    email: string,
    password: string,
    confirmPassword: string)

  /** The JSON body posted to /api/auth/register-artist. */
  datatype Payload = Payload(
    firstname: string,
    lastname: string,
    middleName: string,
    carrierName: string,
    email: string,
    password: string)

  /** Either an error shown without sending anything, or the payload sent. */
  datatype Submission = Refuse(message: string) | Send(payload: Payload)

  const Mismatch: string := "Passwords do not match"
  const TooShort: string := "Password must be at least 6 characters"

  /** The email as sent: trimmed and lowercased. */
  function NormalEmail(email: string): (e: string)
    ensures |e| == 0 <==> AllSpace(email)
    ensures forall i :: 0 <= i < |e| ==> !('A' <= e[i] <= 'Z')
  {
    Lower(Trim(email))
  }

  /** The submit handler up to the request. */
  function Submit(f: SignupForm): (s: Submission)
    ensures s == Refuse("Passwords do not match") <==> f.password != f.confirmPassword
    ensures f.password == f.confirmPassword && Utf16Length(f.password) < 6 ==>
      s == Refuse("Password must be at least 6 characters")
    ensures s.Send? <==> f.password == f.confirmPassword && Utf16Length(f.password) >= 6
    ensures s.Send? ==>
      && s.payload.email == NormalEmail(f.email)
      && s.payload.password == f.password
      && s.payload.firstname == Trim(f.firstname) && s.payload.lastname == Trim(f.lastname)
      && s.payload.middleName == Trim(f.middleName) && s.payload.carrierName == Trim(f.carrierName)
  {
    if f.password != f.confirmPassword then Refuse(Mismatch)
    else if Utf16Length(f.password) < 6 then Refuse(TooShort)
    else Send(Payload(Trim(f.firstname), Trim(f.lastname), Trim(f.middleName), Trim(f.carrierName),
                      NormalEmail(f.email), f.password))
  }

  /** A mismatch is reported whatever the length: the length check comes second. */
  lemma MismatchBeforeLength(f: SignupForm)
    requires f.password != f.confirmPassword && Utf16Length(f.password) < 6
    ensures Submit(f) == Refuse("Passwords do not match")
  {
  }

  /** Normalising an email that was already sent gives it back unchanged. */
  lemma NormalEmailIdempotent(email: string)
    ensures NormalEmail(NormalEmail(email)) == NormalEmail(email)
  {
    if Trim(email) != "" {
      TrimmedEnds(email);
    }
    TrimOfLower(Trim(email));
    LowerIdempotent(Trim(email));
  }

  /** What the page does with the server's answer. */
  datatype Result = Redirect | Failure(message: string)

  /** Success, and the redirect to the sign-in page, exactly for a 2xx status. */
  function AfterResponse(status: int, message: Option<string>): (r: Result)
    ensures r == Redirect <==> 200 <= status < 300
    ensures r != Redirect ==> r == Failure(Or(message, "Sign up failed")) && r.message != ""
  {
    if 200 <= status < 300 then Redirect else Failure(Or(message, "Sign up failed"))
  }
}

=== FILE: text.dfy ===
/**
 * The JavaScript string operations the routes and portal scripts rely on:
 * `trim`, `toLowerCase`, `indexOf`, `endsWith`-style regular expressions,
 * `replace` of the first match, `split(" ")`, and `length` in UTF-16 units.
 */
module Text {
  import opened Wrappers

  /** The characters `String.prototype.trim` and `parseInt` skip: WhiteSpace and LineTerminator. */
  predicate IsSpace(c: char) {
    || c == '\t' || c == '\n' || c == '\U{000B}' || c == '\U{000C}' || c == '\r' || c == ' '
    || c == '\U{00A0}' || c == '\U{1680}' || ('\U{2000}' <= c <= '\U{200A}')
    || c == '\U{2028}' || c == '\U{2029}' || c == '\U{202F}' || c == '\U{205F}'
    || c == '\U{3000}' || c == '\U{FEFF}'
  }

  predicate AllSpace(s: string) {
    forall i :: 0 <= i < |s| ==> IsSpace(s[i])
  }

  /** `s` is `r` with only whitespace added on either side. */
  ghost predicate SpacePadded(s: string, r: string) {
    exists a: string, b: string :: AllSpace(a) && AllSpace(b) && s == a + r + b
  }

  /** JavaScript truthiness of an optional string: present and not "". */
  predicate Truthy(o: Option<string>) {
    o.Some? && o.value != ""
  }

  /** JavaScript `o || d` on an optional string. */
  function Or(o: Option<string>, d: string): string {
    if Truthy(o) then o.value else d
  }

  /** Drops leading whitespace. */
  function TrimStart(s: string): (r: string)
    ensures |r| <= |s| && r == s[|s| - |r|..]
    ensures AllSpace(s[..|s| - |r|])
    ensures r == [] || !IsSpace(r[0])
    decreases |s|
  {
    if |s| > 0 && IsSpace(s[0]) then TrimStart(s[1..]) else s
  }

  /** Drops trailing whitespace. */
  function TrimEnd(s: string): (r: string)
    ensures |r| <= |s| && r == s[..|r|]
    ensures AllSpace(s[|r|..])
    ensures r == [] || !IsSpace(r[|r| - 1])
    decreases |s|
  {
    if |s| > 0 && IsSpace(s[|s| - 1]) then TrimEnd(s[..|s| - 1]) else s
  }

  /** `String.prototype.trim`. */
  function Trim(s: string): (r: string)
    ensures |r| <= |s|
    ensures SpacePadded(s, r)
    ensures r == [] <==> AllSpace(s)
    ensures r != [] ==> !IsSpace(r[0]) && !IsSpace(r[|r| - 1])
  {
    TrimIsPadded(s);
    TrimEmptyOnlyIfSpace(s);
    if AllSpace(s) then AllSpaceTrimsToEmpty(s); [] else TrimEnd(TrimStart(s))
  }

  lemma TrimIsPadded(s: string)
    ensures SpacePadded(s, TrimEnd(TrimStart(s)))
  {
    var t := TrimStart(s);
    var r := TrimEnd(t);
    var a, b := s[..|s| - |t|], t[|r|..];
    assert r + b == s[|a|..] by {
      assert r + b == t;
    }
    PaddedWitness(s, a, r, b);
  }

  lemma TrimEmptyOnlyIfSpace(s: string)
    ensures TrimEnd(TrimStart(s)) == [] ==> AllSpace(s)
  {
    var t := TrimStart(s);
    if TrimEnd(t) == [] {
      assert AllSpace(t[0..]);
      assert t == [];
      assert s[..|s|] == s;
    }
  }

  lemma PaddedWitness(s: string, a: string, r: string, b: string)
    requires |a| <= |s| && a == s[..|a|]
    requires r + b == s[|a|..]
    requires AllSpace(a) && AllSpace(b)
    ensures s == a + r + b
    ensures SpacePadded(s, r)
  {
    assert s == s[..|a|] + s[|a|..];
  }

  lemma AllSpaceTrimsToEmpty(s: string)
    requires AllSpace(s)
    ensures TrimStart(s) == []
  {
  }

  lemma TrimIdempotent(s: string)
    ensures Trim(Trim(s)) == Trim(s)
  {
    var r := Trim(s);
    assert TrimStart(r) == r;
    assert TrimEnd(r) == r;
  }

  /** A string with no whitespace at either end is its own `trim`. */
  lemma TrimOfUnpadded(s: string)
    requires s == [] || (!IsSpace(s[0]) && !IsSpace(s[|s| - 1]))
    ensures Trim(s) == s
  {
    if s != [] {
      assert !AllSpace(s);
      assert TrimStart(s) == s;
      assert TrimEnd(s) == s;
    }
  }

  lemma TrimmedEnds(s: string)
    requires Trim(s) != ""
    ensures !IsSpace(Trim(s)[0]) && !IsSpace(Trim(s)[|Trim(s)| - 1])
  {
  }

  /** `toLowerCase` on one character (ASCII letters; everything else unchanged). */
  function LowerChar(c: char): char {
    if 'A' <= c <= 'Z' then (c as int + 32) as char else c
  }

  /**
   * `String.prototype.toLowerCase`, character by character: no ASCII capital
   * is left, and every other character is kept.
   */
  function Lower(s: string): (r: string)
    ensures |r| == |s|
    ensures forall i :: 0 <= i < |s| ==> r[i] == LowerChar(s[i])
    ensures forall i :: 0 <= i < |r| ==> !('A' <= r[i] <= 'Z')
    ensures forall i :: 0 <= i < |s| && !('A' <= s[i] <= 'Z') ==> r[i] == s[i]
  {
    seq(|s|, i requires 0 <= i < |s| => LowerChar(s[i]))
  }

  lemma LowerIdempotent(s: string)
    ensures Lower(Lower(s)) == Lower(s)
  {
  }

  /** Lowering a trimmed string keeps it trimmed: only ASCII letters change, and none is whitespace. */
  lemma TrimOfLower(t: string)
    requires t == [] || (!IsSpace(t[0]) && !IsSpace(t[|t| - 1]))
    ensures Trim(Lower(t)) == Lower(t)
  {
    TrimOfUnpadded(Lower(t));
  }

  lemma LowerConcat(a: string, b: string)
    ensures Lower(a + b) == Lower(a) + Lower(b)
  {
  }

  predicate StartsWith(s: string, p: string) {
    p <= s
  }

  predicate EndsWith(s: string, p: string) {
    |p| <= |s| && s[|s| - |p|..] == p
  }

  /** `s.indexOf(p) !== -1`. */
  predicate Contains(s: string, p: string) {
    exists k :: 0 <= k <= |s| - |p| && StartsWith(s[k..], p)
  }

  /** The first index at or after `i` where `p` occurs in `s`. */
  function FirstIndexFrom(s: string, p: string, i: nat): (r: nat)
    requires exists k :: i <= k <= |s| - |p| && StartsWith(s[k..], p)
    ensures i <= r <= |s| - |p| && StartsWith(s[r..], p)
    ensures forall k :: i <= k < r ==> !StartsWith(s[k..], p)
    decreases |s| - i
  {
    if StartsWith(s[i..], p) then i else FirstIndexFrom(s, p, i + 1)
  }

  /** The index JavaScript's `s.indexOf(p)` returns when `p` occurs. */
  function FirstIndex(s: string, p: string): (r: nat)
    requires Contains(s, p)
    ensures r <= |s| - |p| && s[r..r + |p|] == p
    ensures forall k :: 0 <= k < r ==> !StartsWith(s[k..], p)
  {
    var r := FirstIndexFrom(s, p, 0);
    assert s[r..][..|p|] == s[r..r + |p|];
    r
  }

  /** `s.lastIndexOf(c)`, with None for -1. */
  function LastIndexOf(s: string, c: char): (r: Option<nat>)
    ensures r.None? <==> c !in s
    ensures r.Some? ==> r.value < |s| && s[r.value] == c && c !in s[r.value + 1..]
  {
    if |s| == 0 then None
    else if s[|s| - 1] == c then Some(|s| - 1)
    else
      var r := LastIndexOf(s[..|s| - 1], c);
      assert s == s[..|s| - 1] + [s[|s| - 1]];
      assert r.Some? ==> s[r.value + 1..] == s[..|s| - 1][r.value + 1..] + [s[|s| - 1]];
      r
  }

  /** The last occurrence of a character is the one with none after it. */
  lemma LastIndexOfAt(s: string, c: char, i: nat)
    requires i < |s| && s[i] == c && c !in s[i + 1..]
    ensures LastIndexOf(s, c) == Some(i)
  {
    assert s[i] in s;
  }

  /** `s.replace(/pat/, rep)` for a literal pattern: only the first occurrence is replaced. */
  function ReplaceFirst(s: string, pat: string, rep: string): (r: string)
    ensures !Contains(s, pat) ==> r == s
    ensures Contains(s, pat) ==> |r| == |s| - |pat| + |rep|
    ensures Contains(s, pat) ==>
      exists i :: 0 <= i <= |s| - |pat| && s[i..i + |pat|] == pat
        && (forall k :: 0 <= k < i ==> !StartsWith(s[k..], pat))
        && r == s[..i] + rep + s[i + |pat|..]
  {
    if Contains(s, pat) then
      var i := FirstIndex(s, pat);
      s[..i] + rep + s[i + |pat|..]
    else s
  }

  /** `fields.join(sep)`. */
  function Join(fields: seq<string>, sep: char): string
    requires |fields| >= 1
  {
    if |fields| == 1 then fields[0] else fields[0] + [sep] + Join(fields[1..], sep)
  }

  /** `s.split(sep)` for a one-character separator: never empty, and no field holds the separator. */
  function Split(s: string, sep: char): (r: seq<string>)
    ensures |r| >= 1
    ensures forall i :: 0 <= i < |r| ==> sep !in r[i]
    decreases |s|
  {
    if |s| == 0 then [""]
    else if s[0] == sep then [""] + Split(s[1..], sep)
    else
      var rest := Split(s[1..], sep);
      [[s[0]] + rest[0]] + rest[1..]
  }

  /** Joining the fields of a split gives back the original string. */
  lemma {:induction false} JoinSplit(s: string, sep: char)
    ensures Join(Split(s, sep), sep) == s
    decreases |s|
  {
    if |s| == 0 {
    } else if s[0] == sep {
      JoinSplit(s[1..], sep);
      assert s == [sep] + s[1..];
    } else {
      var rest := Split(s[1..], sep);
      JoinSplit(s[1..], sep);
      var r := Split(s, sep);
      assert r[1..] == rest[1..];
      if |rest| == 1 {
        assert Join(r, sep) == [s[0]] + rest[0];
      } else {
        assert Join(r, sep) == [s[0]] + rest[0] + [sep] + Join(rest[1..], sep);
      }
      assert s == [s[0]] + s[1..];
    }
  }

  /** A word free of the separator, followed by the separator, is split off as the first field. */
  lemma {:induction false} SplitAfterWord(w: string, sep: char, rest: string)
    requires sep !in w
    ensures Split(w + [sep] + rest, sep) == [w] + Split(rest, sep)
    decreases |w|
  {
    if |w| == 0 {
      assert w + [sep] + rest == [sep] + rest;
    } else {
      SplitAfterWord(w[1..], sep, rest);
      assert (w + [sep] + rest)[1..] == w[1..] + [sep] + rest;
      assert [w[0]] + w[1..] == w;
    }
  }

  /** A string free of the separator is a single field. */
  lemma {:induction false} SplitNoSeparator(s: string, sep: char)
    requires sep !in s
    ensures Split(s, sep) == [s]
    decreases |s|
  {
    if |s| > 0 {
      SplitNoSeparator(s[1..], sep);
      assert [s[0]] + s[1..] == s;
    }
  }

  /** `s.length`: UTF-16 code units, two for every character outside the Basic Multilingual Plane. */
  function Utf16Length(s: string): (n: nat)
    ensures |s| <= n <= 2 * |s|
    ensures (forall i :: 0 <= i < |s| ==> s[i] as int < 0x10000) ==> n == |s|
  {
    if |s| == 0 then 0
    else (if s[0] as int < 0x10000 then 1 else 2) + Utf16Length(s[1..])
  }
}

=== FILE: upload_page.dfy ===
/**
 * public/portal/upload.js: the artist name sent with an upload, the title a
 * bulk upload falls back on, the artist id taken from the page path, the back
 * link, and the cached artist of `getUploadArtistMeta`.
 */
module UploadPage {
  import opened Wrappers
  import opened Text
  import opened Numbers
  import opened PortalClient
  import Dashboard

  /** `artistDisplayName(d)`: full name, else carrier name, else name, else "Artist". */
  function ArtistDisplayName(d: Option<ArtistView>): (name: string)
    ensures name != ""
    ensures d.None? ==> name == "Artist"
    ensures d.Some? && FullName(d.value) != "" ==> name == FullName(d.value)
    ensures d.Some? && FullName(d.value) == "" ==> name == Carrier(d.value)
  {
    if d.None? then "Artist"
    else
      var full := FullName(d.value);
      if full != "" then full else Carrier(d.value)
  }

  /**
   * The upload page and the dashboard name an artist alike: with no email the
   * dashboard label is the upload name, except that a full name also shows the
   * carrier name in parentheses.
   */
  lemma DisplayNameMatchesListLabel(a: ArtistView)
    ensures ArtistDisplayName(Some(a)) <= Dashboard.LinkLabel(a)
    ensures !Truthy(a.email) && FullName(a) == "" ==> Dashboard.LinkLabel(a) == ArtistDisplayName(Some(a))
  {
  }

  /** The `{}` fallback has no names, so it is displayed as "Artist". */
  lemma NoArtistIsArtist()
    ensures ArtistDisplayName(Some(NoArtist)) == "Artist"
  {
  }

  /** `name.replace(/\.[^.]*$/, '')`: drop everything from the last dot on. */
  function StripExtension(name: string): (r: string)
    ensures '.' !in name ==> r == name
    ensures '.' in name ==> r < name && name[|r|] == '.' && '.' !in name[|r| + 1..]
  {
    match LastIndexOf(name, '.')
    case None => name
    case Some(i) => name[..i]
  }

  /** Stripping undoes appending one extension that has no dot of its own. */
  lemma StripExtensionOfName(stem: string, ext: string)
    requires '.' !in ext
    ensures StripExtension(stem + "." + ext) == stem
  {
    var name := stem + "." + ext;
    assert name[|stem|] == '.';
    assert name[|stem| + 1..] == ext;
    LastIndexOfAt(name, '.', |stem|);
  }

  /** The title of file #i of a bulk upload: the typed title, else the file name without its extension. */
  function BulkTitle(typed: Option<string>, fileName: string): (title: string)
    ensures Truthy(typed) ==> title == typed.value
    ensures !Truthy(typed) ==> title == StripExtension(fileName)
  {
    Or(typed, StripExtension(fileName))
  }

  /** `path.match(/\/dashboard\/artist\/(\d+)\/upload/)` and `parseInt(artistMatch[1], 10)`. */
  function UploadArtistId(path: string): (id: Option<nat>)
    ensures id.None? <==> NoMatchBetween(path, "/upload", 0, |path| + 1)
    ensures id.Some? ==> exists j :: 0 <= j <= |path| && NoMatchBetween(path, "/upload", 0, j) &&
                                     MatchAt(path, "/upload", j).Some? &&
                                     id.value == DigitsValue(MatchAt(path, "/upload", j).value)
  {
    ArtistIdInPath(path, "/upload")
  }

  /** The dashboard's "Add song" link for an artist leads to an upload page for that artist. */
  lemma AddSongLinkCarriesArtist(n: nat)
    requires n != 0
    ensures UploadArtistId(Dashboard.AddSongHref(Some(n))) == Some(n)
  {
    RenderedPathMatches(n, "/upload", "/upload");
  }

  /** `setBackLink`: the artist's dashboard page when an artist id is set, else the own dashboard. */
  function BackLink(currentArtistId: Option<nat>): (href: string)
    ensures IdSet(currentArtistId) ==> href == ArtistPage(currentArtistId.value)
    ensures !IdSet(currentArtistId) ==> href == "/dashboard"
  {
    if IdSet(currentArtistId) then ArtistPrefix + IntToString(currentArtistId.value) else "/dashboard"
  }

  /** Following the back link from an artist's upload page returns to that artist's dashboard. */
  lemma BackLinkReturnsToArtist(n: nat)
    requires n != 0
    ensures Dashboard.DashboardArtistId(BackLink(UploadArtistId(Dashboard.AddSongHref(Some(n))))) == Some(n)
  {
    AddSongLinkCarriesArtist(n);
    Dashboard.ArtistPageShowsArtist(n, "");
    assert ArtistPage(n) + "" == ArtistPage(n);
  }

  /** The answer of GET /api/portal/my-artist as the page sees it. */
  datatype Fetched = Fetched(ok: bool, data: Option<ArtistView>)

  /** The artist an upload is filed under. */
  datatype Meta = Meta(id: Option<int>, name: string)

  /**
   * `getUploadArtistMeta`: the cached id and name when the page already knows
   * its artist, otherwise the caller's own artist from my-artist. `requested`
   * says whether the request is made; `response` is what it would bring back
   * (None when the API helper gave up on a 401).
   */
  function UploadArtistMeta(currentArtistId: Option<nat>, currentArtistName: string,
                            response: Option<Fetched>): (r: (Meta, bool))
    ensures r.1 <==> !IdSet(currentArtistId)
    ensures !r.1 ==> r.0 == Meta(currentArtistId, currentArtistName)
    ensures r.1 && (response.None? || !response.value.ok || response.value.data.None?) ==>
      r.0 == Meta(None, "Artist")
    ensures r.1 && response.Some? && response.value.ok && response.value.data.Some? ==>
      && r.0.name == ArtistDisplayName(response.value.data)
      && r.0.id == (if IdSet(response.value.data.value.id) then response.value.data.value.id else None)
  {
    if IdSet(currentArtistId) then (Meta(currentArtistId, currentArtistName), false)
    else
      var d := if response.Some? && response.value.ok && response.value.data.Some? then response.value.data.value else NoArtist;
      (Meta(if IdSet(d.id) then d.id else None, ArtistDisplayName(Some(d))), true)
  }

  /** Once the page knows its artist, what my-artist would answer makes no difference. */
  lemma CachedMetaIgnoresResponse(id: nat, name: string, r1: Option<Fetched>, r2: Option<Fetched>)
    requires id != 0
    ensures UploadArtistMeta(Some(id), name, r1) == UploadArtistMeta(Some(id), name, r2)
    ensures UploadArtistMeta(Some(id), name, r1) == (Meta(Some(id), name), false)
  {
  }
}

=== FILE: users.dfy ===
/**
 * routes/users.js: the avatar upload filter and file name, the public base URL,
 * the profile read and update, the password change, and the upload error mapping.
 */
module Users {
  import opened Wrappers
  import opened Text
  import opened Numbers
  import opened Http
  import opened Access
  import opened Accounts
  import Music

  // ---------------------------------------------------------------- paths

  /** `p` without its trailing '/' characters. */
  function TrimTrailingSlashes(p: string): (r: string)
    ensures r <= p && (r == [] || r[|r| - 1] != '/')
    ensures forall i :: |r| <= i < |p| ==> p[i] == '/'
  {
    if |p| > 0 && p[|p| - 1] == '/' then TrimTrailingSlashes(p[..|p| - 1]) else p
  }

  /** `path.basename(p)` (POSIX): the last segment once trailing slashes are dropped. */
  function BaseName(p: string): (b: string)
    ensures '/' !in b
    ensures EndsWith(TrimTrailingSlashes(p), b)
    ensures var q := TrimTrailingSlashes(p); |b| == |q| || q[|q| - |b| - 1] == '/'
  {
    var q := TrimTrailingSlashes(p);
    match LastIndexOf(q, '/')
    case None => q
    case Some(i) => q[i + 1..]
  }

  /**
   * `path.extname(p)` (POSIX): from the last '.' of the base name to its end,
   * or "" when there is no dot, the dot starts the name, or the name is "..".
   */
  function Extname(p: string): (e: string)
    ensures e == [] || (e[0] == '.' && '.' !in e[1..] && '/' !in e)
    ensures e != [] ==> EndsWith(BaseName(p), e) && |e| < |BaseName(p)|
    ensures '.' !in BaseName(p) ==> e == []
  {
    var b := BaseName(p);
    match LastIndexOf(b, '.')
    case None => ""
    case Some(d) => if d == 0 || b == ".." then "" else b[d..]
  }

  /** A plain file name "stem.ext" has extension ".ext". */
  lemma ExtnameOfName(stem: string, ext: string)
    requires '/' !in stem && '/' !in ext && '.' !in ext
    requires stem != [] && stem + "." + ext != ".."
    ensures Extname(stem + "." + ext) == "." + ext
  {
    var p := stem + "." + ext;
    assert p[|p| - 1] != '/';
    assert '/' !in p;
    assert BaseName(p) == p;
    assert p[|stem| + 1..] == ext;
    LastIndexOfAt(p, '.', |stem|);
  }

  /** A name without any dot has no extension. */
  lemma ExtnameNoDot(name: string)
    requires '.' !in name && '/' !in name
    ensures Extname(name) == ""
  {
    assert name == [] || name[|name| - 1] != '/';
    assert BaseName(name) == name;
  }

  /** The file multer stored under a directory is found again by its base name. */
  lemma BaseNameOfJoin(dir: string, file: string)
    requires file != [] && '/' !in file
    ensures BaseName(dir + "/" + file) == file
  {
    var p := dir + "/" + file;
    assert p[|p| - 1] != '/';
    assert p[|dir| + 1..] == file;
    LastIndexOfAt(p, '/', |dir|);
  }

  // ---------------------------------------------------------------- avatar filter

  /** The subtypes in `/image\/(jpeg|jpg|png|gif|webp|pjpeg|x-png)/`. */
  const AvatarImageTypes: seq<string> := ["jpeg", "jpg", "png", "gif", "webp", "pjpeg", "x-png"]
  /** The extensions in `/\.(jpe?g|png|gif|webp)$/`. */
  const AvatarExtensions: seq<string> := [".jpg", ".jpeg", ".png", ".gif", ".webp"]
  const ImageOnly: string := "Only image files are allowed"

  /** The unanchored mime test: "image/<subtype>" occurs anywhere in the (lowercased) type. */
  predicate MimeNamesImage(mime: string) {
    exists t :: t in AvatarImageTypes && Contains(mime, "image/" + t)
  }

  /** The anchored name test on the (lowercased) original name. */
  predicate NameHasImageExtension(name: string) {
    exists e :: e in AvatarExtensions && EndsWith(name, e)
  }

  /** Browsers that cannot tell the type send no type or a generic one. */
  predicate GenericBinary(mime: string) {
    mime == "application/octet-stream" || mime == ""
  }

  /**
   * The avatar `fileFilter`: accepted iff the lowercased type names an image,
   * the lowercased name has an image extension, or the type is generic.
   */
  function AvatarFilter(mimetype: Option<string>, originalname: Option<string>): (c: Music.Callback)
    ensures c == Music.Accepted || c == Music.Rejected(ImageOnly)
    ensures c == Music.Accepted <==>
      || MimeNamesImage(Lower(Or(mimetype, "")))
      || NameHasImageExtension(Lower(Or(originalname, "")))
      || GenericBinary(Lower(Or(mimetype, "")))
  {
    var mime := Lower(Or(mimetype, ""));
    var name := Lower(Or(originalname, ""));
    if MimeNamesImage(mime) || NameHasImageExtension(name) || GenericBinary(mime) then Music.Accepted
    else Music.Rejected(ImageOnly)
  }

  /** The filter ignores letter case in both the type and the name. */
  lemma AvatarFilterIgnoresCase(mime: string, name: string)
    ensures AvatarFilter(Some(mime), Some(name)) == AvatarFilter(Some(Lower(mime)), Some(Lower(name)))
  {
    LowerIdempotent(mime);
    LowerIdempotent(name);
  }

  /** A file sent without a type is accepted whatever its name. */
  lemma UntypedFileAccepted(name: Option<string>)
    ensures AvatarFilter(None, name) == Music.Accepted
  {
    assert Lower("") == "";
  }

  /** Whatever the song-cover filter accepts, the avatar filter accepts too. */
  lemma CoverImagesAreAvatars(mime: string, name: string)
    requires Music.FileFilter("cover", mime, name) == Music.Accepted
    ensures AvatarFilter(Some(mime), Some(name)) == Music.Accepted
  {
    if mime in Music.ImageMimeTypes {
      var t := mime[6..];
      assert mime == "image/" + t;
      assert Lower(mime) == mime;
      assert t in AvatarImageTypes;
      assert StartsWith(Lower(mime)[0..], "image/" + t);
      assert MimeNamesImage(Lower(mime));
    } else {
      var e :| e in Music.ImageExtensions && EndsWith(Lower(name), e);
      assert e in AvatarExtensions;
    }
  }

  // ---------------------------------------------------------------- avatar file name

  /** A string as long as the pattern contains it only by being it. */
  lemma NotContainedSameLength(s: string, p: string)
    requires |s| == |p| && s != p
    ensures !Contains(s, p)
  {
    assert s[0..] == s;
  }

  /** Lowercasing never produces a '/' that was not there. */
  lemma LowerKeepsSlashOut(s: string)
    requires '/' !in s
    ensures '/' !in Lower(s)
  {
    assert forall i :: 0 <= i < |s| ==> LowerChar(s[i]) != '/';
  }

  /** Replacing the first "jpeg" inside a ".ext" keeps the leading dot and brings in no '/'. */
  lemma JpegFixShape(e: string)
    requires |e| >= 1 && e[0] == '.' && '/' !in e
    ensures var r := ReplaceFirst(e, "jpeg", ".jpg"); |r| >= 1 && r[0] == '.' && '/' !in r
  {
    if Contains(e, "jpeg") {
      var i := FirstIndex(e, "jpeg");
      assert e[i] == 'j';
      var r := ReplaceFirst(e, "jpeg", ".jpg");
      assert r == e[..i] + ".jpg" + e[i + 4..];
      assert r[0] == e[0];
      assert forall c :: c in r ==> c in e[..i] || c in ".jpg" || c in e[i + 4..];
    }
  }

  /** `path.extname(name) || ".jpg"`. */
  function ExtOrJpg(name: string): (e: string)
    ensures |e| >= 1 && e[0] == '.' && '/' !in e
  {
    if Extname(name) != "" then Extname(name) else ".jpg"
  }

  /** `.replace(/jpeg/, ".jpg")`. */
  function JpegFix(e: string): (r: string)
    requires |e| >= 1 && e[0] == '.' && '/' !in e
    ensures |r| >= 1 && r[0] == '.' && '/' !in r
  {
    JpegFixShape(e);
    ReplaceFirst(e, "jpeg", ".jpg")
  }

  /**
   * The stored extension: the lowercased `extname`, ".jpg" when there is none,
   * with its first "jpeg" replaced by ".jpg".
   */
  function AvatarExtension(originalname: string): (ext: string)
    ensures |ext| >= 1 && ext[0] == '.' && '/' !in ext
  {
    var e := ExtOrJpg(originalname);
    LowerKeepsSlashOut(e);
    JpegFix(Lower(e))
  }

  /** Decimal digits and a minus sign are never '/'. */
  lemma RenderedIntHasNoSlash(n: int)
    ensures '/' !in IntToString(n)
  {
    var s := IntToString(n);
    if n >= 0 {
      assert forall i :: 0 <= i < |s| ==> IsDigit(s[i]);
    } else {
      assert '/' !in s[1..];
      assert s == [s[0]] + s[1..];
    }
  }

  /** `user_${userId}${ext}`: the disk name of a user's avatar. */
  function AvatarFileName(userId: int, originalname: string): (f: string)
    ensures f == "user_" + IntToString(userId) + AvatarExtension(originalname)
    ensures '/' !in f && f != []
  {
    RenderedIntHasNoSlash(userId);
    NoCharInConcat("user_", IntToString(userId), '/');
    NoCharInConcat("user_" + IntToString(userId), AvatarExtension(originalname), '/');
    "user_" + IntToString(userId) + AvatarExtension(originalname)
  }

  lemma NoCharInConcat(a: string, b: string, c: char)
    requires c !in a && c !in b
    ensures c !in a + b
  {
  }

  /** The user id is read back from the file name, so two users never share an avatar file. */
  lemma AvatarFileNameNamesOwner(userId: int, originalname: string)
    ensures ParseInt(AvatarFileName(userId, originalname)[5..]) == Some(userId)
  {
    var n := IntToString(userId);
    var ext := AvatarExtension(originalname);
    assert ("user_" + n + ext)[5..] == n + ext by {
      assert "user_" + n + ext == "user_" + (n + ext);
    }
    ParseIntRendered(userId, ext);
  }

  lemma AvatarFileNamesDistinct(a: int, b: int, na: string, nb: string)
    requires a != b
    ensures AvatarFileName(a, na) != AvatarFileName(b, nb)
  {
    AvatarFileNameNamesOwner(a, na);
    AvatarFileNameNamesOwner(b, nb);
  }

  /** ".jpeg" has its "jpeg" at index 1, so the dot before it stays. */
  lemma DotJpegFixed()
    ensures JpegFix(".jpeg") == "..jpg"
  {
    assert ".jpeg"[1..] == "jpeg";
    assert ".jpeg"[0..][..4] != "jpeg" by { assert ".jpeg"[0..][..4][0] == '.'; }
    assert FirstIndex(".jpeg", "jpeg") == 1;
  }

  /** The stored extension of "stem.ext" is the fixed, lowercased ".ext". */
  lemma AvatarExtensionOfName(stem: string, ext: string)
    requires stem != [] && ext != [] && '/' !in stem && '/' !in ext && '.' !in ext
    ensures AvatarExtension(stem + "." + ext) == JpegFix(Lower("." + ext))
  {
    assert |stem + "." + ext| >= 3;
    ExtnameOfName(stem, ext);
  }

  /** The extension literals used below hold no '/' and no '.'. */
  lemma SimpleExtension(ext: string)
    requires ext in ["jpeg", "JPEG"]
    ensures ext != [] && '/' !in ext && '.' !in ext
    ensures Lower("." + ext) == ".jpeg"
  {
  }

  /**
   * A name "stem.jpeg" (in either case) is stored with "..jpg": the dot of the
   * extension stays and the replacement brings its own.
   */
  lemma JpegBecomesDotDotJpg(stem: string, ext: string)
    requires stem != [] && '/' !in stem && ext in ["jpeg", "JPEG"]
    ensures AvatarExtension(stem + "." + ext) == "..jpg"
  {
    SimpleExtension(ext);
    AvatarExtensionOfName(stem, ext);
    assert AvatarExtension(stem + "." + ext) == JpegFix(".jpeg");
    DotJpegFixed();
  }

  /** Without a 'j' there is no "jpeg". */
  lemma NoJNoJpeg(s: string)
    requires 'j' !in s
    ensures !Contains(s, "jpeg")
  {
    forall k | 0 <= k <= |s| - 4
      ensures !StartsWith(s[k..], "jpeg")
    {
      assert s[k] in s;
    }
  }

  /** The facts about the other image extensions the filter lets through. */
  lemma OtherImageExtension(ext: string)
    requires ext in ["png", "PNG", "gif", "GIF", "webp", "WEBP"]
    ensures ext != [] && '/' !in ext && '.' !in ext && 'j' !in Lower("." + ext)
  {
  }

  /** Other image extensions are stored as given, lowercased. */
  lemma ImageExtensionKept(stem: string, ext: string)
    requires stem != [] && '/' !in stem && ext in ["png", "PNG", "gif", "GIF", "webp", "WEBP"]
    ensures AvatarExtension(stem + "." + ext) == Lower("." + ext)
  {
    OtherImageExtension(ext);
    AvatarExtensionOfName(stem, ext);
    NoJNoJpeg(Lower("." + ext));
  }

  /** A name without an extension is stored as ".jpg". */
  lemma NoExtensionIsJpg(name: string)
    requires '.' !in name && '/' !in name
    ensures AvatarExtension(name) == ".jpg"
  {
    ExtnameNoDot(name);
    assert ExtOrJpg(name) == ".jpg";
    LowerJpg();
    NotContainedSameLength(".jpg", "jpeg");
    assert JpegFix(".jpg") == ".jpg";
  }

  /** ".jpg" is already lower case. */
  lemma LowerJpg()
    ensures Lower(".jpg") == ".jpg"
  {
    var l := Lower(".jpg");
    assert l[0] == '.' && l[1] == 'j' && l[2] == 'p' && l[3] == 'g';
  }

  // ---------------------------------------------------------------- base URL

  /**
   * `getBaseUrl`: BASE_URL without one trailing '/', when set; otherwise
   * `protocol://host` (protocol from x-forwarded-proto, the request, then "http"),
   * or "" when the request names no host.
   */
  function GetBaseUrl(baseEnv: Option<string>, forwardedProto: Option<string>, protocol: Option<string>, host: Option<string>): (r: string)
    ensures Truthy(baseEnv) ==> r == baseEnv.value || (r + "/" == baseEnv.value)
    ensures Truthy(baseEnv) && EndsWith(baseEnv.value, "/") ==> r + "/" == baseEnv.value
    ensures Truthy(baseEnv) && !EndsWith(baseEnv.value, "/") ==> r == baseEnv.value
    ensures !Truthy(baseEnv) ==> (r == "" <==> !Truthy(host))
    ensures !Truthy(baseEnv) && Truthy(host) ==> EndsWith(r, "://" + host.value)
    ensures !Truthy(baseEnv) && Truthy(host) ==>
      r == Or(forwardedProto, Or(protocol, "http")) + "://" + host.value
  {
    if Truthy(baseEnv) then
      var b := baseEnv.value;
      if b[|b| - 1] == '/' then b[..|b| - 1] else b
    else
      var proto := Or(forwardedProto, Or(protocol, "http"));
      var h := Or(host, "");
      if h != "" then
        assert EndsWith(proto + "://" + h, "://" + h) by {
          assert (proto + "://" + h)[|proto|..] == "://" + h;
        }
        proto + "://" + h
      else ""
  }

  /**
   * BASE_URL may be configured with or without a trailing '/': both give the
   * same origin, whatever the request says; a second '/' is kept.
   */
  lemma TrailingSlashOptional(b: string, forwardedProto: Option<string>, protocol: Option<string>, host: Option<string>)
    requires b != "" && !EndsWith(b, "/")
    ensures GetBaseUrl(Some(b + "/"), forwardedProto, protocol, host) == b
    ensures GetBaseUrl(Some(b), forwardedProto, protocol, host) == b
    ensures GetBaseUrl(Some(b + "//"), forwardedProto, protocol, host) == b + "/"
  {
    assert (b + "/")[..|b|] == b;
    assert (b + "//")[..|b| + 1] == b + "/";
  }

  /** Without BASE_URL or any protocol hint the origin is plain http. */
  lemma DefaultProtocol(host: string)
    requires host != ""
    ensures GetBaseUrl(None, None, None, Some(host)) == "http://" + host
    ensures GetBaseUrl(Some(""), Some(""), Some(""), Some(host)) == "http://" + host
  {
  }

  /** The picture URL answered to clients: base + stored path, or null when none is stored. */
  function PictureUrl(baseUrl: string, stored: Option<string>): (r: Option<string>)
    ensures r.Some? <==> Truthy(stored)
    ensures r.Some? ==> StartsWith(r.value, baseUrl) && EndsWith(r.value, stored.value)
  {
    if Truthy(stored) then
      assert (baseUrl + stored.value)[|baseUrl|..] == stored.value;
      Some(baseUrl + stored.value)
    else None
  }

  // ---------------------------------------------------------------- profile

  const UserNotFound: Reply := Reply(404, "User not found")
  const NamesRequired: Reply := Reply(400, "First name and last name are required")

  /**
   * The profile columns the routes select or return: every column but the
   * password hash (and the timestamps, which are not modelled).
   */
  datatype Profile = Profile(
    id: int,
    username: string,
    email: string,
    firstname: Option<string>,
    lastname: Option<string>,
    role: Option<string>,
    dateOfBirth: Option<string>,
    gender: Option<string>,
    pictureUrl: Option<string>)

  /** The row as answered: the selected columns, the stored picture path replaced by its absolute URL. */
  function Presented(u: User, baseUrl: string): (v: Profile)
    ensures v.id == u.id && v.username == u.username && v.email == u.email
    ensures v.firstname == u.firstname && v.lastname == u.lastname && v.role == u.role
    ensures v.dateOfBirth == u.dateOfBirth && v.gender == u.gender
    ensures v.pictureUrl == PictureUrl(baseUrl, u.pictureUrl)
  {
    Profile(u.id, u.username, u.email, u.firstname, u.lastname, u.role, u.dateOfBirth, u.gender,
            PictureUrl(baseUrl, u.pictureUrl))
  }

  /** GET /api/users/profile. */
  function GetProfile(users: UserTable, user: Claims, baseUrl: string): (r: Answer<Profile>)
    ensures UserById(users, user.userId).None? <==> r == Failed(UserNotFound)
    ensures r.Done? <==> UserById(users, user.userId).Some?
    ensures r.Done? ==> r.status == 200 && r.body.id == user.userId
    ensures r.Done? ==> exists u :: u in users.rows && u.id == user.userId && r.body == Presented(u, baseUrl)
  {
    match UserById(users, user.userId)
    case None => Failed(UserNotFound)
    case Some(u) => Done(OK, Presented(u, baseUrl))
  }

  /** `x || null`: a falsy optional string becomes null. */
  function OrNull(x: Option<string>): (r: Option<string>)
    ensures r.Some? <==> Truthy(x)
    ensures r.Some? ==> r == x
  {
    if Truthy(x) then x else None
  }

  /** The row after the profile update: trimmed names, dob and gender as sent, picture by COALESCE. */
  function ProfileEdit(u: User, firstname: string, lastname: string, dob: Option<string>, gender: Option<string>, picture: Option<string>): User {
    u.(firstname := Some(Trim(firstname)), lastname := Some(Trim(lastname)),
       dateOfBirth := OrNull(dob), gender := OrNull(gender),
       pictureUrl := if OrNull(picture).Some? then OrNull(picture) else u.pictureUrl)
  }

  /** PUT /api/users/profile. */
  function UpdateProfile(users: UserTable, user: Claims, firstname: Option<string>, lastname: Option<string>,
                         dob: Option<string>, gender: Option<string>, picture: Option<string>, baseUrl: string): (r: Step<Profile, UserTable>)
    ensures !Truthy(firstname) || !Truthy(lastname) ==> r == Step(Failed(NamesRequired), users)
    ensures Truthy(firstname) && Truthy(lastname) && UserById(users, user.userId).None? ==>
      r == Step(Failed(UserNotFound), users)
    ensures r.answer.Done? <==> Truthy(firstname) && Truthy(lastname) && UserById(users, user.userId).Some?
    ensures r.answer.Done? ==>
      && r.answer.status == 200
      && |r.state.rows| == |users.rows|
      && forall i :: 0 <= i < |users.rows| ==>
           var u := users.rows[i];
           var v := r.state.rows[i];
           if u.id == user.userId then
             && v.firstname == Some(Trim(firstname.value)) && v.lastname == Some(Trim(lastname.value))
             && v.dateOfBirth == OrNull(dob) && v.gender == OrNull(gender)
             && (Truthy(picture) ==> v.pictureUrl == picture)
             && (!Truthy(picture) ==> v.pictureUrl == u.pictureUrl)
             && v.role == u.role && v.email == u.email && v.passwordHash == u.passwordHash && v.username == u.username
           else v == u
    ensures r.answer.Done? ==> r.answer.body.id == user.userId
  {
    if !Truthy(firstname) || !Truthy(lastname) then Step(Failed(NamesRequired), users)
    else match UserById(users, user.userId)
      case None => Step(Failed(UserNotFound), users)
      case Some(u) =>
        var edit := (v: User) => ProfileEdit(v, firstname.value, lastname.value, dob, gender, picture);
        Step(Done(OK, Presented(edit(u), baseUrl)), UpdateUser(users, user.userId, edit))
  }

  /** The profile an update answers is the one the profile route then reports. */
  lemma UpdatedProfileIsReported(users: UserTable, user: Claims, firstname: Option<string>, lastname: Option<string>,
                                 dob: Option<string>, gender: Option<string>, picture: Option<string>, baseUrl: string)
    requires UpdateProfile(users, user, firstname, lastname, dob, gender, picture, baseUrl).answer.Done?
    ensures var r := UpdateProfile(users, user, firstname, lastname, dob, gender, picture, baseUrl);
      GetProfile(r.state, user, baseUrl) == Done(200, r.answer.body)
  {
    var edit := (v: User) => ProfileEdit(v, firstname.value, lastname.value, dob, gender, picture);
    UserByIdAfterUpdate(users, user.userId, edit);
  }

  /** A name of spaces alone passes the guard, which runs before trimming, and is stored empty. */
  lemma BlankNameStoredEmpty(users: UserTable, user: Claims, last: string, baseUrl: string, i: nat)
    requires last != "" && i < |users.rows| && users.rows[i].id == user.userId
    ensures var r := UpdateProfile(users, user, Some("  "), Some(last), None, None, None, baseUrl);
      r.answer.Done? && r.state.rows[i].firstname == Some("")
  {
    assert UserById(users, user.userId).Some?;
    assert AllSpace("  ");
  }

  // ---------------------------------------------------------------- password change

  const PasswordsRequired: Reply := Reply(400, "Current password and new password are required")
  const PasswordTooShort: Reply := Reply(400, "New password must be at least 6 characters")
  const WrongPassword: Reply := Reply(401, "Current password is incorrect")

  /**
   * POST /api/users/profile/change-password. `newHash` stands for
   * `bcrypt.hash(newPassword, 10)`.
   */
  function ChangePassword(users: UserTable, user: Claims, current: Option<string>, next: Option<string>,
                          matches: PasswordCheck, newHash: string): (r: Step<string, UserTable>)
    ensures !Truthy(current) || !Truthy(next) ==> r == Step(Failed(PasswordsRequired), users)
    ensures Truthy(current) && Truthy(next) && Utf16Length(next.value) < 6 ==> r == Step(Failed(PasswordTooShort), users)
    ensures Truthy(current) && Truthy(next) && Utf16Length(next.value) >= 6 && UserById(users, user.userId).None? ==>
      r == Step(Failed(UserNotFound), users)
    ensures (&& Truthy(current) && Truthy(next) && Utf16Length(next.value) >= 6 && UserById(users, user.userId).Some?
             && !matches(current.value, UserById(users, user.userId).value.passwordHash)) ==>
      r == Step(Failed(WrongPassword), users)
    ensures r.answer.Done? <==>
      && Truthy(current) && Truthy(next) && Utf16Length(next.value) >= 6
      && UserById(users, user.userId).Some?
      && matches(current.value, UserById(users, user.userId).value.passwordHash)
    ensures r.answer.Done? ==>
      && |r.state.rows| == |users.rows|
      && forall i :: 0 <= i < |users.rows| ==>
           r.state.rows[i] == if users.rows[i].id == user.userId then users.rows[i].(passwordHash := newHash) else users.rows[i]
    ensures !r.answer.Done? ==> r.state == users
  {
    if !Truthy(current) || !Truthy(next) then Step(Failed(PasswordsRequired), users)
    else if Utf16Length(next.value) < 6 then Step(Failed(PasswordTooShort), users)
    else match UserById(users, user.userId)
      case None => Step(Failed(UserNotFound), users)
      case Some(u) =>
        if !matches(current.value, u.passwordHash) then Step(Failed(WrongPassword), users)
        else Step(Done(OK, "Password updated successfully"), UpdateUser(users, user.userId, (v: User) => v.(passwordHash := newHash)))
  }

  /** The two input checks come first: their answer does not depend on the users table or on bcrypt. */
  lemma PasswordInputChecksNeedNoLookup(a: UserTable, b: UserTable, user: Claims, current: Option<string>, next: Option<string>,
                                        m1: PasswordCheck, m2: PasswordCheck, h1: string, h2: string)
    requires !Truthy(current) || !Truthy(next) || Utf16Length(next.value) < 6
    ensures ChangePassword(a, user, current, next, m1, h1).answer == ChangePassword(b, user, current, next, m2, h2).answer
  {
  }

  /**
   * After a successful change the stored hash is the new one: a later change is
   * checked against `newHash`, so it succeeds exactly when the offered current
   * password matches the new hash and is refused with 401 otherwise.
   */
  lemma ChangedPasswordIsChecked(users: UserTable, user: Claims, current: Option<string>, next: Option<string>,
                                 matches: PasswordCheck, newHash: string, again: string, next2: string, h2: string)
    requires ChangePassword(users, user, current, next, matches, newHash).answer.Done?
    requires again != "" && Utf16Length(next2) >= 6
    ensures var after := ChangePassword(users, user, current, next, matches, newHash).state;
      UserById(after, user.userId) == Some(UserById(users, user.userId).value.(passwordHash := newHash))
    ensures var after := ChangePassword(users, user, current, next, matches, newHash).state;
      var r := ChangePassword(after, user, Some(again), Some(next2), matches, h2);
      (r.answer.Done? <==> matches(again, newHash)) && (!matches(again, newHash) ==> r.answer == Failed(WrongPassword))
  {
    var f := (v: User) => v.(passwordHash := newHash);
    var after := ChangePassword(users, user, current, next, matches, newHash).state;
    assert after == UpdateUser(users, user.userId, f);
    UserByIdAfterUpdate(users, user.userId, f);
    assert UserById(after, user.userId).value.passwordHash == newHash;
  }

  /** A missing field is reported even when the new password is also too short. */
  lemma MissingBeforeShort(users: UserTable, user: Claims, m: PasswordCheck, h: string)
    ensures ChangePassword(users, user, None, Some("abc"), m, h).answer == Failed(PasswordsRequired)
  {
  }

  // ---------------------------------------------------------------- upload errors

  /** An error reaching the router's error handler. */
  datatype UploadError = MulterError(code: string, message: string) | OtherError(text: Option<string>)

  /** The error handler: a reply, or None when the error is passed on with `next(err)`. */
  function UploadErrorReply(e: UploadError): (r: Option<Reply>)
    ensures e.MulterError? ==> r.Some? && r.value.status == 400
    ensures e.MulterError? && e.code == "LIMIT_FILE_SIZE" ==> r == Some(Reply(400, "Image must be 5MB or less"))
    ensures e.MulterError? && e.code != "LIMIT_FILE_SIZE" ==>
      r == Some(Reply(400, if e.message != "" then e.message else "Upload error"))
    ensures e.OtherError? ==> (r.Some? <==> Truthy(e.text) && Contains(e.text.value, "Only image"))
    ensures e.OtherError? && r.Some? ==> r == Some(Reply(400, ImageOnly))
  {
    match e
    case MulterError(code, message) =>
      if code == "LIMIT_FILE_SIZE" then Some(Reply(BadRequest, "Image must be 5MB or less"))
      else Some(Reply(BadRequest, if message != "" then message else "Upload error"))
    case OtherError(text) =>
      if Truthy(text) && Contains(text.value, "Only image") then Some(Reply(BadRequest, ImageOnly))
      else None
  }

  /** The avatar filter's own rejection is turned into a 400 by the handler. */
  lemma FilterRejectionHandled()
    ensures UploadErrorReply(OtherError(Some(ImageOnly))) == Some(Reply(400, ImageOnly))
  {
    assert StartsWith(ImageOnly[0..], "Only image");
  }

  // ---------------------------------------------------------------- avatar route

  /** `limits: { fileSize: 5 * 1024 * 1024 }`. */
  const MaxAvatarBytes: nat := 5 * 1024 * 1024

  /** The "photo" part of the multipart request. */
  datatype Photo = Photo(mimetype: Option<string>, originalname: string, size: nat)

  /** Where the avatar is recorded: "/uploads/avatars/" and the stored file's base name. */
  function AvatarPath(avatarDir: string, userId: int, originalname: string): (p: string)
    ensures p == "/uploads/avatars/" + AvatarFileName(userId, originalname)
  {
    var f := AvatarFileName(userId, originalname);
    BaseNameOfJoin(avatarDir, f);
    "/uploads/avatars/" + BaseName(avatarDir + "/" + f)
  }

  /** `SET profile_picture_url = $1`. */
  function SetPicture(path: string): User -> User {
    (v: User) => v.(pictureUrl := Some(path))
  }

  /**
   * POST /api/users/profile/avatar after authentication: multer runs the
   * filter, then the size limit, then the handler records the path.
   */
  function UploadAvatar(users: UserTable, user: Claims, photo: Option<Photo>, avatarDir: string, baseUrl: string): (r: Step<string, UserTable>)
    ensures photo.None? ==> r == Step(Failed(Reply(400, "No image file provided")), users)
    ensures photo.Some? && AvatarFilter(photo.value.mimetype, Some(photo.value.originalname)) != Music.Accepted ==>
      r == Step(Failed(Reply(400, ImageOnly)), users)
    ensures (photo.Some? && AvatarFilter(photo.value.mimetype, Some(photo.value.originalname)) == Music.Accepted &&
      photo.value.size > MaxAvatarBytes) ==> r == Step(Failed(Reply(400, "Image must be 5MB or less")), users)
    ensures r.answer.Done? <==>
      photo.Some? && AvatarFilter(photo.value.mimetype, Some(photo.value.originalname)) == Music.Accepted &&
      photo.value.size <= MaxAvatarBytes
    ensures r.answer.Done? ==>
      var path := "/uploads/avatars/" + AvatarFileName(user.userId, photo.value.originalname);
      && photo.value.size <= MaxAvatarBytes
      && r.answer.status == 200 && r.answer.body == baseUrl + path
      && |r.state.rows| == |users.rows|
      && forall i :: 0 <= i < |users.rows| ==>
           r.state.rows[i] == if users.rows[i].id == user.userId then users.rows[i].(pictureUrl := Some(path)) else users.rows[i]
  {
    match photo
    case None => Step(Failed(Reply(BadRequest, "No image file provided")), users)
    case Some(p) =>
      if AvatarFilter(p.mimetype, Some(p.originalname)).Rejected? then
        FilterRejectionHandled();
        Step(Failed(UploadErrorReply(OtherError(Some(ImageOnly))).value), users)
      else if p.size > MaxAvatarBytes then
        Step(Failed(UploadErrorReply(MulterError("LIMIT_FILE_SIZE", "File too large")).value), users)
      else
        var path := AvatarPath(avatarDir, user.userId, p.originalname);
        Step(Done(OK, baseUrl + path), UpdateUser(users, user.userId, SetPicture(path)))
  }

  /** Once a picture path is recorded for an existing user, the profile answers its URL. */
  lemma RecordedPictureIsReported(users: UserTable, user: Claims, path: string, baseUrl: string)
    requires UserById(users, user.userId).Some? && path != ""
    ensures var p := GetProfile(UpdateUser(users, user.userId, SetPicture(path)), user, baseUrl);
      p.Done? && p.body.pictureUrl == Some(baseUrl + path)
  {
    UserByIdAfterUpdate(users, user.userId, SetPicture(path));
  }

  /** After an avatar upload, the profile reports the URL the upload answered. */
  lemma UploadedAvatarIsReported(users: UserTable, user: Claims, photo: Option<Photo>, avatarDir: string, baseUrl: string)
    requires UploadAvatar(users, user, photo, avatarDir, baseUrl).answer.Done?
    requires UserById(users, user.userId).Some?
    ensures var r := UploadAvatar(users, user, photo, avatarDir, baseUrl);
      var p := GetProfile(r.state, user, baseUrl);
      p.Done? && p.body.pictureUrl == Some(r.answer.body)
  {
    var path := AvatarPath(avatarDir, user.userId, photo.value.originalname);
    AcceptedAvatarRecorded(users, user, photo.value, avatarDir, baseUrl);
    RecordedPictureIsReported(users, user, path, baseUrl);
  }

  /** An accepted photo within the size limit records its path through the one-row update. */
  lemma AcceptedAvatarRecorded(users: UserTable, user: Claims, photo: Photo, avatarDir: string, baseUrl: string)
    requires AvatarFilter(photo.mimetype, Some(photo.originalname)) == Music.Accepted
    requires photo.size <= MaxAvatarBytes
    ensures var path := AvatarPath(avatarDir, user.userId, photo.originalname);
      UploadAvatar(users, user, Some(photo), avatarDir, baseUrl) ==
        Step(Done(200, baseUrl + path), UpdateUser(users, user.userId, SetPicture(path)))
  {
  }
}

=== FILE: wrappers.dfy ===
/** Optional values: JavaScript's `undefined`/`null` on one side, a present value on the other. */
module Wrappers {

  datatype Option<+T> = None | Some(value: T) {

    /** Returns the value encapsulated in Some or a default value if None */
    function GetOr(default: T): T {
      match this
      case Some(v) => v
      case None => default
    }
  }
}
